=== FILE: README.md ===
# scheme_repl: a Dafny model of the tokenizer, parser and evaluator

`scheme.py` is a very small Lisp REPL. A line of text goes through four
stages:

1. `tokenize` cuts the text into runs with one regular expression. It
   classifies each run with `determine` into an integer (INT), float (FLO)
   or symbol (SYM) token, or into no token at all.
2. `eval_expr` checks that the text has as many "(" as ")".
3. `parse` builds nested lists from the tokens with a stack.
4. `evaluate` evaluates the first top-level form against the global
   `symbol_table`. It folds the four builtins `+ - * /` over their evaluated
   arguments. It handles the special forms `define`, `let` and `if`, plus
   `quote`/`q`.

`token.py` repeats the token class, `determine` and the payload helpers of
`scheme.py`. Both copies are modelled once, in one module.

The model is functional:

- A token is an immutable `Tok(value, kind)`. Its payload is an exact `real`
  or a `string`, so Python's `Tok(6, FLO) == Tok(6.0, FLO)` is Dafny equality.
- A parse tree is `Expr = Atom(tok) | List(items)`.
- The mutable `symbol_table` becomes a `map<Tok, Val>`. Every evaluation
  takes the table and returns the table it left, or `Crash` where Python
  raises an exception.

The modules follow the program's stages:

| module | file | what it holds |
|---|---|---|
| `Wrappers` | wrappers.dfy | `Option` |
| `Digits` | digits.dfy | `str.isnumeric`, `int()` of a digit string, `str()` of an int |
| `Tokens` | tokens.dfy | `Tok`, `__eq__`/`__hash__`, `str.split(".")`, `determine`, `tokv`/`toklv`, `__str__` |
| `Lexer` | lexer.dfy | the regular expression of `tokenize` as a hand-written longest-match scanner, and `tokenize` |
| `Parser` | parser.dfy | `parse` as a fold over a stack of partial lists; written-out trees as its reference |
| `Builtins` | builtins.dfy | the four `function_table` entries: `reduce` with Python's `+ - * /` |
| `Evaluator` | evaluator.dfy | `evaluate`, `std_let`, `std_if_then_else`, `fun_define` |
| `Semantics` | semantics.dfy | what `evaluate` does, form by form, as lemmas |
| `Interpreter` | interpreter.dfy | `eval_expr` |
| `Oracle` | oracle.dfy | cases from the program's test suite, followed from the text through to the value |

The model keeps what the code does, including its quirks:

- `determine` gives no token for a run that holds a "." but is not
  `digits.digits`, such as `.5`, `a.b` or `1.2.3`.
- A signed literal like `-5` matches the number pattern, but it is not
  numeric text, so it becomes a symbol.
- `let` stores each binding in the global table before it evaluates the
  next one. The bindings remain after the form. The source's comment says
  `let` sets variables "locally inside a scope"; the model follows the code.
- `if` returns its chosen branch unevaluated. It compares the predicate
  token literally with `nil`, without evaluating it.
- `define` binds the unevaluated body atom.
- A form head is dispatched on its literal token and is never looked up in
  `symbol_table`.
- `constant_table` is keyed by plain strings, so a token lookup never
  reaches it.
- A lone builtin name in parentheses, `(+)`, evaluates to the builtin
  function, because a one-element list is its element.
- A builtin with one argument returns that argument retagged FLO:
  `reduce` applies no operator, so `(- 5)` is 5.

## Model

| member | source | states |
|---|---|---|
| `Digits.NatTextOfValue` | token.py:54-55 | A digit string without a superfluous leading zero is the text `str()` writes for the number `int()` reads from it. |
| `Digits.IntTextRoundTrip` | token.py:40-41 | The text written for a natural number is numeric and reads back as the same number. |
| `Tokens.TokEqIsIdentity` | token.py:23-27 | Two tokens are equal exactly when value and kind are equal, and equal tokens hash equally. A token-keyed dict therefore behaves as a map keyed by tokens. |
| `Tokens.SplitDots` | token.py:58-60 | `split(".")` gives one more piece than there are dots, no piece holds a dot, and joining the pieces with "." gives back the string. |
| `Tokens.SplitAtOnlyDot` | token.py:59-61 | A string with exactly one dot splits into the text before it and the text after it. |
| `Tokens.Determine` | token.py:50-69 | A numeric run is an INT with its decimal value. A `digits.digits` run is a FLO with its exact value. A run with no dot that is not numeric is a SYM holding its own text. A run with a dot that is not `digits.digits` gives no token. |
| `Tokens.DetermineKinds` | token.py:53-65 | Each kind of `determine` result, and the missing token, corresponds in both directions to one shape of run. No run becomes a FUN token. |
| `Tokens.TokValue` | token.py:80-84 | `tokv` gives an integral INT payload as an int. A numeric FLO payload is a float. A FLO text is a float exactly when `float()` parses it, with the value it parses to. A SYM text is a str. A FUN payload comes back as it is. There is no value exactly for an INT text, a numeric SYM, or a FLO text that `float()` rejects. |
| `Tokens.DetermineParen` | token.py:64-65 | `determine` gives the "(" token exactly for the run "(", and the ")" token exactly for the run ")". |
| `Tokens.ParseFloatOfDetermined` | token.py:53-62 | `float()` of a run that `determine` makes an INT or a FLO reads the same number the token holds. |
| `Tokens.ParseFloatSigned` | token.py:82 | `float()` of a signed text without an exponent is its unsigned reading, negated after a "-". It fails exactly when the unsigned reading fails. |
| `Tokens.ParseFloatNegDigits` | token.py:82 | `float()` of "-" followed by digits is minus the digits' decimal value. |
| `Tokens.Trunc` | token.py:81 | `int()` of a number truncates toward zero. |
| `Tokens.TokValues` | token.py:72-74 | `toklv` succeeds exactly when `tokv` does on every token. Its result has the same length and holds each token's value in order. |
| `Tokens.Show` | token.py:39-47 | The display form starts with the kind's tag `i:`, `f:`, `s:` or `λ:`, and a text payload follows the tag verbatim. |
| `Tokens.ShowInt` | token.py:40-41 | A lexed integer displays as `i:` and its digits. The displayed digits classify back to the same token. |
| `Tokens.ShowSym` | token.py:44-45 | A lexed symbol displays as `s:` and its text. The displayed text classifies back to the same token. |
| `Lexer.UnsignedMatchIsLongest` | scheme.py:121 | The unsigned part of the number alternative takes the longest prefix that `[0-9]*\.?[0-9]+` matches, and no longer prefix matches. |
| `Lexer.NumberMatchIsLongest` | scheme.py:121 | The number alternative `[-+]?[0-9]*\.?[0-9]+` takes the longest prefix it matches, or nothing when no prefix matches. |
| `Lexer.WordLenSpec` | scheme.py:121 | The third alternative takes a maximal stretch of characters that are neither whitespace nor parentheses. |
| `Lexer.RunAtFront` | scheme.py:121-122 | At a non-space character the scanner takes a non-empty run, and the whitespace-free text starts with that run. |
| `Lexer.ScanRuns` | scheme.py:121-122 | `Scan`, the model of `findall`: every run `findall` returns is one parenthesis or a stretch without whitespace or parentheses. Laid end to end, the runs are the text with its whitespace removed. |
| `Lexer.Tokenize` | scheme.py:118-124 | `tokenize` gives one entry per run, in order, and each entry is `determine` of its run. An entry is the "(" token exactly where the run is "(", and the ")" token exactly where the run is ")". |
| `Lexer.ScanParenCount` | scheme.py:121-122 | `findall` returns as many "(" runs as the text holds "(" characters, and likewise for ")". |
| `Lexer.CharCountSqueeze` | scheme.py:121-122 | Dropping whitespace keeps the number of occurrences of every other character. |
| `Lexer.NumberRunAsFloat` | token.py:82 | Every text the number alternative matches, signed or not, is read by `float()`. A FLO token holding that text has that float as its value. |
| `Lexer.DigitRunAsFloat` | token.py:82 | `float()` of an optionally signed digit run is the sign times the digits' decimal value. |
| `Lexer.DecimalRunAsFloat` | token.py:82 | `float()` of an optionally signed `digits.digits` run is the sign times the exact value of the decimal. |
| `Parser.ParseFromSucceedsIff` | scheme.py:141-152 | `ParseFrom`, the loop of `parse`: from any stack, the parse loop never pops an empty stack exactly when no prefix of the remaining tokens closes more lists than are open. |
| `Parser.ParseSucceedsIff` | scheme.py:127-153 | `Parse`, the model of `parse`, raises exactly when some prefix has more ")" than "(". On balanced input it always succeeds. |
| `Parser.ParseFromInvariant` | scheme.py:141-153 | The loop invariant: the open stack, the accumulator and the unread tokens together write out the input, and they account for its leaves and its lists. |
| `Parser.ParseStructure` | scheme.py:127-153 | On balanced input the trees write back out as exactly the input. Their leaves are the input without parentheses. There is one list per "(". |
| `Parser.ParseFromUnparse` | scheme.py:141-153 | Parsing written-out trees from any stack and accumulator appends exactly those trees to the accumulator. |
| `Parser.ParseUnparse` | scheme.py:127-153 | Parsing written-out trees that have no parenthesis atoms gives the same trees back. |
| `Parser.BalanceAppend` | scheme.py:243-248 | The balance the loop of `eval_expr` computes over two token lists laid end to end is the sum of their balances. |
| `Parser.UnparseCounts` | scheme.py:243-249 | Written-out trees hold one "(" and one ")" per list, so they pass the balance check of `eval_expr`. |
| `Builtins.Apply` | scheme.py:107-110 | Python's binary operator. On two numbers it computes the real operation, except that division by zero raises. `+`, `-` and `*` on two ints give an int holding that result, and every other successful pair of numbers gives a float. The result is a str exactly for `str + str`, `str * int` or `int * str`. `str + str` is the concatenation. `str * int` has the str's length times the count, or nothing when the count is not positive, and repeats the str character by character. `int * str` does the same with the operands swapped. |
| `Builtins.RepeatContents` | scheme.py:109 | Python's `s * n` holds, at each position, the character of `s` at that position modulo the length of `s`. |
| `Builtins.ReduceSnoc` | scheme.py:107-110 | `Reduce`, the model of `reduce`, and its loop `ReduceFrom`: a one-element list reduces to its element. Reducing one more value applies the operator to the result so far and that value, and a failure so far stays a failure. |
| `Builtins.ReduceFromNumeric` | scheme.py:107-110 | A `reduce` over numbers succeeds and computes the left fold of their values with the real operator. |
| `Builtins.Fold` | scheme.py:106-111 | A builtin that returns gave a FLO token. It had at least one argument, and `tokv` succeeded on all of them. |
| `Builtins.FoldNumeric` | scheme.py:106-111 | On numeric tokens a builtin returns FLO holding the left fold of their payloads, e.g. `(/ 1 2 3)` is 1/2/3. |
| `Builtins.FoldSingle` | scheme.py:107-110 | With one argument a builtin returns that argument's payload retagged FLO. |
| `Builtins.FoldFloatInt` | scheme.py:107 | `+` on a token whose value is a float and an INT token returns FLO holding their sum. |
| `Builtins.FoldConcat` | scheme.py:107 | `+` on two symbols returns FLO holding their concatenated names. |
| `Evaluator.Toks` | scheme.py:203-204 | The evaluated arguments pass to `toklv` exactly when every one is a token, and then in order. |
| `Evaluator.ApplyBuiltin` | scheme.py:201-204 | A builtin application that returns gives a FLO token, had at least one argument, and every argument evaluated to a token. |
| `Evaluator.Eval` | scheme.py:156-223 | `evaluate` keeps every existing binding of the symbol table and rebinds only names written as atoms in the expression. |
| `Evaluator.EvalForm` | scheme.py:196-223 | Form dispatch changes the table only at names written in the form. |
| `Evaluator.EvalArgs` | scheme.py:203 | The arguments are evaluated into one value each. Only names written in them are rebound. |
| `Semantics.EvalArgsAppend` | scheme.py:203 | The arguments are evaluated left to right: evaluating two lists of arguments laid end to end evaluates the first list, then the second against the table the first left. The values are the two lists of values laid end to end, and a raise in either list makes the whole raise. |
| `Evaluator.LetForm` | scheme.py:283-291 | `std_let` writes only names that occur in its declarations or body, and keeps every other binding. |
| `Evaluator.Bind` | scheme.py:288-289 | The declaration loop writes only names that occur in the declarations. |
| `Evaluator.IfForm` | scheme.py:293-304 | `if` never changes the table. Any arity but three gives `None`. With three arguments it returns one of the two branches, unevaluated. |
| `Evaluator.DefineForm` | scheme.py:326-351 | `define` writes only names that occur in its arguments. Any arity but two gives `None` and leaves the table alone. |
| `Semantics.EvalNumber` | scheme.py:167-174 | INT and FLO atoms evaluate to themselves, whatever is bound. |
| `Semantics.LookupScopeFirst` | scheme.py:176-178 | In `LookupAtom`, the lookup of a symbol atom, a scope binding wins over every table. |
| `Semantics.LookupTableBeforeBuiltins` | scheme.py:180-186 | In `LookupAtom`, a symbol-table binding wins over the builtins. |
| `Semantics.LookupBuiltin` | scheme.py:184-186 | An unbound builtin name evaluates to the builtin. So does the same name alone in parentheses. |
| `Semantics.LookupUnbound` | scheme.py:188-194 | An unbound token evaluates to itself. The string-keyed constant table never holds a token key. |
| `Semantics.LookupOther` | scheme.py:167-194 | Binding one token does not change the value of any other atom. |
| `Semantics.EvalParenthesised` | scheme.py:164-165 | A one-element list evaluates as its element. An empty list raises. |
| `Semantics.EvalQuote` | scheme.py:216-218 | A `quote` or `q` head returns the whole form, unevaluated. |
| `Semantics.EvalUnknownHead` | scheme.py:216-220 | Any other symbol head gives `None`. The head is never looked up, so binding it changes nothing. |
| `Semantics.EvalBadHead` | scheme.py:211-223 | A number head gives -1. A FUN head and a list head raise. |
| `Semantics.EvalArgsAtoms` | scheme.py:203 | Atom arguments evaluate to their lookups and leave the table unchanged. |
| `Semantics.EvalBuiltinForm` | scheme.py:201-204 | A builtin form evaluates its arguments first and then folds them. A fold that raises makes the form raise. |
| `Semantics.EvalBuiltin` | scheme.py:201-204 | A builtin over atoms bound to numbers returns FLO holding the left fold of their payloads and leaves the table unchanged. |
| `Semantics.EvalBuiltinIsFlo` | scheme.py:106-111 | Whenever a builtin form returns, its value is a FLO token. |
| `Semantics.EvalIf` | scheme.py:296-304 | `(if p a b)` returns `a` unevaluated unless `p` is literally `nil`, and then `b`. The table is unchanged. |
| `Semantics.EvalIfUnevaluated` | scheme.py:298-303 | The predicate is not evaluated. A list predicate raises. A name bound to `nil` still picks the then-branch. |
| `Semantics.EvalIfArity` | scheme.py:296 | `if` with other than three arguments gives `None` and leaves the table unchanged. |
| `Semantics.EvalDefine` | scheme.py:331-348 | `(define name body)` stores the body token unevaluated and returns it. The name then evaluates to that body. |
| `Semantics.EvalDefineRejects` | scheme.py:331-351 | A list as name gives `None`. A list or FUN token as body raises. A wrong arity gives `None`. None of these change the table. |
| `Semantics.BindStep` | scheme.py:288-289 | Each declaration's value is evaluated against the table so far and stored before the next declaration is read. |
| `Semantics.EvalLet` | scheme.py:283-291 | A one-declaration `let` evaluates its body with the binding in the global table. The binding is still there afterwards unless the body rebinds the name. |
| `Semantics.ExampleSum` | scheme.py:430 | `(+ 1 2 3)` is FLO 6. |
| `Semantics.ExampleQuotient` | scheme.py:431 | `(/ 1 2 3)` is FLO 1/6. |
| `Semantics.ExampleProduct` | scheme.py:438 | `(* 29 1)` is FLO 29. |
| `Semantics.ExampleSumOfBound` | scheme.py:438 | `(+ a a 2)` with `a` bound to 29 is FLO 60. |
| `Semantics.ExampleSumOfTwo` | scheme.py:438 | `(+ a b)` with `a` bound to 29 and `b` to 60 is FLO 89. |
| `Semantics.EvalSingleSymbol` | scheme.py:201-204 | A builtin applied to one unbound symbol other than a builtin returns FLO holding the symbol's text. |
| `Semantics.EvalSumWithInt` | scheme.py:201-204 | `(+ e i)`, where `e` leaves the table alone and yields a token whose value is a float, returns FLO holding that float plus `i`. |
| `Semantics.EvalSumOfPassedText` | scheme.py:201-204 | `(+ (f t) i)`, with `f` a builtin and `t` an unbound symbol that `float()` reads, returns FLO holding that reading plus `i`. |
| `Semantics.ExampleNegatedLiteral` | scheme.py:201-204 | `(+ (- -5) 3)` is FLO -2: `(- -5)` is FLO holding the text `-5`, and `float()` reads it as -5. |
| `Semantics.ExampleNestedLet` | scheme.py:438 | `(let ((a (* 29 1))) (let ((b (+ a a 2))) (+ a b)))` is FLO 89, and both bindings remain in the table. |
| `Semantics.EvalArgsPure` | scheme.py:203 | Arguments that each evaluate to a token without touching the table evaluate, as a list, to those tokens in order, and the table is unchanged. |
| `Semantics.EvalBuiltinOf` | scheme.py:201-204 | A builtin over any argument expressions, nested forms included, that each yield a numeric token and leave the table alone returns FLO holding the left fold of their payloads. |
| `Semantics.EvalPair` | scheme.py:201-204 | `(op e1 e2)` over two such arguments returns FLO holding `op` applied to their payloads. |
| `Semantics.EvalTriple` | scheme.py:201-204 | `(op e1 e2 e3)` over three such arguments, `op` not division, returns FLO holding `(x1 op x2) op x3`. |
| `Semantics.EvalLetBound` | scheme.py:283-291 | A `let` whose declarations store, in order, the table `st1` evaluates to its body evaluated against `st1`. |
| `Semantics.BindThree` | scheme.py:288-289 | Three integer declarations store their values in the table in declaration order. |
| `Semantics.ExampleMixed` | scheme.py:432 | `(* (+ 1 2) (- 2 4) (/ 1 2))` is FLO -3. |
| `Semantics.ExampleDeepSum` | scheme.py:433 | `(+ 1 (+ (+ 1 1) 1) (+ (+ (+ (+ 1 1) 1) 1) (+ 1 1)))` is FLO 10. |
| `Semantics.ExampleSevenSquares` | scheme.py:434 | `(* 1 (* 4 4) ...)`, seven squares in all, is FLO 268435456. |
| `Semantics.ExampleThirdTimesThree` | scheme.py:435 | `(* (/ 1 3) 3)` is FLO 1. Payloads are exact, so the thirds cancel. |
| `Semantics.ExampleLetThree` | scheme.py:436 | `(let ((a 10) (b 20) (c 30)) (+ a b c))` is FLO 60, and the three bindings remain in the table. |
| `Semantics.ExampleLetOneTwo` | scheme.py:437 | `(let ((a 1)) (let ((b 2)) (+ a b)))` is FLO 3, and both bindings remain in the table. |
| `Interpreter.Present` | scheme.py:243-246 | The token list reaches the balance loop whole exactly when every run gave a token. |
| `Interpreter.EvalExpr` | scheme.py:236-253 | A run without a token raises, and so does a text with no token at all, which has no first form. Otherwise, a text holding unequal numbers of "(" and ")" characters gives `None` without parsing. A returned value means the parse never underflowed. Only names written in the text are rebound. |
| `Interpreter.TextParenCounts` | scheme.py:243-249 | When every run gives a token, the balance loop counts one "(" token per "(" character of the text and one ")" token per ")" character. The balance is the difference of the two character counts. |
| `Interpreter.EvalExprFirstForm` | scheme.py:253 | Only the first top-level form is evaluated. |
| `Oracle.SignedLiteralIsSymbol` | scheme.py:57-72 | `-5` is one number run, yet it classifies as the symbol `-5`. |
| `Oracle.DottedRunsRejected` | token.py:58-63 | `.5` and `a.b` give no token. |
| `Oracle.TwoDotsRejected` | token.py:58-63 | `1.2.3` gives no token. |
| `Oracle.FloatRun` | token.py:58-62 | `2.5` is the FLO token 2.5. |
| `Oracle.ScanSum` | scheme.py:121-122 | `(+ 1 2 3)` scans into six one-character runs. |
| `Oracle.TokenizeSum` | scheme.py:430 | `(+ 1 2 3)` tokenizes into "(", the symbol "+", the integers 1, 2 and 3, and ")". |
| `Oracle.TokenizeIntPair` | scheme.py:362-367 | `(+ 1 2)` tokenizes into "(", the symbol "+", the integers 1 and 2, and ")". |
| `Oracle.TokenizeSymPair` | scheme.py:368-373 | `(+ x y)` tokenizes into "(" and the symbols "+", "x" and "y", then ")". |
| `Oracle.TokenizeNestedPair` | scheme.py:374-387 | `(+ (* a b) (expt c d))` tokenizes into its thirteen tokens. The word `expt` is one symbol, and every other run is one character. |
| `Oracle.ScanWordAt` | scheme.py:121-122 | A word of characters that cannot start a number, ended by a space or a parenthesis, is one run. |
| `Oracle.ParseIntPair` | scheme.py:394-397 | The text `(+ 1 2)` gives every run a token and parses into the one form `(+ 1 2)`. |
| `Oracle.ParseNested` | scheme.py:398-403 | `(* (- 1 2) 2)` parses into one form that holds the inner list in its second place. |
| `Oracle.EvalExprSum` | scheme.py:430 | `eval_expr("(+ 1 2 3)")` is FLO 6 and leaves the table unchanged. |

## Left out

- `repl` (scheme.py:226-233) is a console loop. Its only logic is `eval_expr`.
- `run_tests` and `test` (scheme.py:258-456) are the program's own test driver. The
  driver itself is left out, but most of its cases have a lemma:
  - tokenize: all three cases (scheme.py:362-387), in `Oracle.TokenizeIntPair`,
    `Oracle.TokenizeSymPair` and `Oracle.TokenizeNestedPair`;
  - parse: `(+ 1 2)` from its text (`Oracle.ParseIntPair`) and `(* (- 1 2) 2)` from
    its tokens (`Oracle.ParseNested`);
  - evaluate: all nine cases (scheme.py:430-438), in `Semantics.ExampleSum`,
    `ExampleQuotient`, `ExampleMixed`, `ExampleDeepSum`, `ExampleSevenSquares`,
    `ExampleThirdTimesThree`, `ExampleLetThree`, `ExampleLetOneTwo` and
    `ExampleNestedLet`. `Oracle.EvalExprSum` also follows the first of them from its text.
    The others are stated on the parsed form that `eval_expr` hands to `evaluate`.

  The third parse case, `(* a (+ b (- c ...) l) m)` (scheme.py:404-423), has no lemma.
- Floating point: payloads are exact reals, so `(/ 1 2 3)` is exactly 1/6
  and not the nearest double.
- Tokens.Show: takes Python's float formatting as a parameter. It therefore
  pins down the text of integer and string payloads only. A payload is an
  exact real, so the int/float distinction inside a FLO payload is lost:
  `(+ 1 2 3)` holds the int 6 and prints `f:6`, `(+ 1.0 5)` holds the float
  6.0 and prints `f:6.0`, and the model holds `Num(6.0)` for both.
- Tokens.TokValue: gives no value for an INT token with a text payload or a
  SYM token with a numeric payload, where Python would call `int()` or
  `str()`. The lexer and the builtins never build these tokens. A FUN token
  with a numeric payload comes back as a float, not as the int it may hold.
  A FLO token's text is read with `Tokens.ParseFloat`, so the `float()` forms
  listed on the next line give no value here either.
- Tokens.ParseFloat: reads only optionally signed decimal literals with an
  optional exponent. The forms `inf`, `nan`, underscores between digits and
  surrounding whitespace, which Python's `float()` also accepts, give no value.
- Tokens.Determine: Python 3.11 and later raise `ValueError` when `int()` reads
  more than 4300 digits (token.py:55). The model reads a digit run of any
  length as an INT.
- Evaluator.Eval: CPython raises `RecursionError` once `evaluate` nests about
  a thousand calls deep (scheme.py:203). The model has no depth limit, so a
  deeply nested expression has a value where Python raises.
- `math.e` and `math.pi` in `constant_table` (scheme.py:100-103) are written
  as decimal literals. The table is never reached by a token lookup anyway.
- `construct_lambda`, `call_lambda` and the FUN branch of `fun_define`
  (scheme.py:316-324, 341-343) are left out. The FUN branch of `fun_define`
  uses the undefined name `token` and calls `construct_lambda` with one
  argument of two. All of them are unreachable, because the lexer never
  produces FUN tokens. A FUN
  head raises in the model, since no payload is callable.
- The comparison tables `std_greq`, `std_sreq`, `std_gr` and `std_sr`
  (scheme.py:311-314) are never dispatched.
- `Tok.__add__`, `__sub__`, `__mul__` and `__div__` are never used by the
  evaluator. `Tok.__repr__` (scheme.py:36-44) formats only two kinds of output,
  both left out: the error messages of `evaluate` and `fun_define` (see below),
  and the expected value that the test driver prints for a failing case.
- `str.isnumeric` and the regex class `\s` are restricted to ASCII: the
  digits 0-9, and tab through carriage return, 0x1C-0x1F and space.
- The non-string branch of `determine` (token.py:67-69) is left out.
  `tokenize` only passes strings.
- Python exceptions are one outcome, `Crash`, with no message and no table.
- The error messages printed by `evaluate`, `fun_define` and `eval_expr` are
  left out. Only their return value `None` is modelled.
- A `str` key whose hash equals a token's hash, `hash((value, kind))`
  (token.py:23-24), makes a dict lookup compare the two. `str.__eq__` declines, so `Tok.__eq__` runs, reads `value`
  from the str and raises `AttributeError`. The model treats keys of the two
  types as unequal and never raises there.
- The `scope` argument of `evaluate` is kept, but nothing in the program
  writes to it. Every top-level evaluation and every `let` declaration uses
  an empty scope.
- Interpreter.EvalExpr: its contract speaks about failure, the balance check
  and what the table may change. The value of the first form is stated
  separately by `Interpreter.EvalExprFirstForm` and the lemmas of
  `Semantics`.

=== FILE: builtins.dfy ===
/** The four entries of `function_table`: each turns its evaluated arguments
    into Python values with `toklv`, folds them left to right with
    `functools.reduce` and Python's `+ - * /`, and wraps the result as a FLO
    token whatever the operand kinds were.  Python's operators also accept
    strings in places (`"a" + "b"`, `"ab" * 2`), and a one-element `reduce`
    returns its element without applying the operator; both are kept. */
module Builtins {
  import opened Wrappers
  import opened Tokens

  datatype Op = Add | Sub | Mul | Div

  predicate IsNumber(v: PyVal) {
    v.PInt? || v.PFloat?
  }

  function AsReal(v: PyVal): real
    requires IsNumber(v)
  {
    if v.PInt? then v.i as real else v.x
  }

  /** `s * n` on a Python str: `n` copies, none when `n <= 0`. */
  function Repeat(s: string, n: int): (r: string)
    ensures |r| == if n <= 0 then 0 else n * |s|
    decreases n
  {
    if n <= 0 then "" else s + Repeat(s, n - 1)
  }

  /** Character `i` of `s * n` is character `i mod |s|` of `s`. */
  lemma {:induction false} RepeatContents(s: string, n: int)
    ensures |s| > 0 ==> forall i :: 0 <= i < |Repeat(s, n)| ==> Repeat(s, n)[i] == s[i % |s|]
    decreases n
  {
    if n > 0 && |s| > 0 {
      RepeatContents(s, n - 1);
      CycleCons(s, Repeat(s, n - 1));
    }
  }

  /** Putting one more copy of `s` in front keeps the text a cycle of `s`. */
  lemma CycleCons(s: string, rest: string)
    requires |s| > 0
    requires forall j :: 0 <= j < |rest| ==> rest[j] == s[j % |s|]
    ensures forall i :: 0 <= i < |s + rest| ==> (s + rest)[i] == s[i % |s|]
  {
    forall i | 0 <= i < |s + rest|
      ensures (s + rest)[i] == s[i % |s|]
    {
      if i < |s| {
        ModUnique(i, |s|, 0, i);
        assert (s + rest)[i] == s[i];
      } else {
        var j := i - |s|;
        assert (s + rest)[i] == rest[j];
        assert rest[j] == s[j % |s|];
        ModShift(i, |s|);
      }
    }
  }

  lemma ModShift(i: int, m: int)
    requires m > 0 && i >= m
    ensures (i - m) % m == i % m
  {
    var q, r := i / m, i % m;
    assert i - m == (q - 1) * m + r;
    ModUnique(i - m, m, q - 1, r);
  }

  lemma ModUnique(x: int, m: int, q: int, r: int)
    requires m > 0 && 0 <= r < m && x == q * m + r
    ensures x % m == r
  {
    var q', r' := x / m, x % m;
    assert (q - q') * m == r' - r;
    MulBounds(q - q', m);
  }

  lemma MulBounds(k: int, m: int)
    requires m > 0
    ensures k >= 1 ==> k * m >= m
    ensures k <= -1 ==> k * m <= -m
  {
  }

  /** Python's binary operator; `None` where Python raises (`TypeError`, or
      `ZeroDivisionError` for a zero divisor).  Two ints give an int under
      `+ - *`; any other pair of numbers gives a float. */
  function Apply(op: Op, a: PyVal, b: PyVal): (r: Option<PyVal>)
    ensures IsNumber(a) && IsNumber(b) && !(op == Div && AsReal(b) == 0.0)
      ==> r.Some? && IsNumber(r.value) && AsReal(r.value) == RealOp(op, AsReal(a), AsReal(b))
    ensures op == Div && IsNumber(b) && AsReal(b) == 0.0 ==> r.None?
    ensures a.PInt? && b.PInt? && op != Div
      ==> r.Some? && r.value.PInt? && r.value.i as real == RealOp(op, a.i as real, b.i as real)
    ensures IsNumber(a) && IsNumber(b) && !(a.PInt? && b.PInt? && op != Div) && r.Some?
      ==> r.value.PFloat?
    ensures (a.PStr? || b.PStr?) && r.Some? ==> r.value.PStr? && (op == Add || op == Mul)
    ensures r.Some? && r.value.PStr? ==>
      || (op == Add && a.PStr? && b.PStr?)
      || (op == Mul && ((a.PStr? && b.PInt?) || (a.PInt? && b.PStr?)))
    ensures op == Add && a.PStr? && b.PStr? ==> r == Some(PStr(a.s + b.s))
    ensures op == Mul && a.PStr? && b.PInt? ==>
      && r.Some? && r.value.PStr?
      && |r.value.s| == (if b.i <= 0 then 0 else b.i * |a.s|)
      && (|a.s| > 0 ==> forall i :: 0 <= i < |r.value.s| ==> r.value.s[i] == a.s[i % |a.s|])
    ensures op == Mul && a.PInt? && b.PStr? ==>
      && r.Some? && r.value.PStr?
      && |r.value.s| == (if a.i <= 0 then 0 else a.i * |b.s|)
      && (|b.s| > 0 ==> forall i :: 0 <= i < |r.value.s| ==> r.value.s[i] == b.s[i % |b.s|])
  {
    if a.PInt? && b.PInt? && op != Div then
      if op == Add then Some(PInt(a.i + b.i))
      else if op == Sub then Some(PInt(a.i - b.i))
      else
        assert (a.i * b.i) as real == a.i as real * b.i as real;
        Some(PInt(a.i * b.i))
    else if IsNumber(a) && IsNumber(b) then
      if op == Div && AsReal(b) == 0.0 then None
      else Some(PFloat(RealOp(op, AsReal(a), AsReal(b))))
    else if op == Add && a.PStr? && b.PStr? then Some(PStr(a.s + b.s))
    else if op == Mul && a.PStr? && b.PInt? then
      RepeatContents(a.s, b.i);
      Some(PStr(Repeat(a.s, b.i)))
    else if op == Mul && a.PInt? && b.PStr? then
      RepeatContents(b.s, a.i);
      Some(PStr(Repeat(b.s, a.i)))
    else None
  }

  /** `reduce` continued from an accumulated value. */
  function ReduceFrom(op: Op, acc: PyVal, vs: seq<PyVal>): Option<PyVal>
    decreases |vs|
  {
    if vs == [] then Some(acc)
    else
      match Apply(op, acc, vs[0])
      case None => None
      case Some(acc') => ReduceFrom(op, acc', vs[1..])
  }

  /** `functools.reduce` without an initial value: the empty list raises. */
  function Reduce(op: Op, vs: seq<PyVal>): Option<PyVal> {
    if vs == [] then None else ReduceFrom(op, vs[0], vs[1..])
  }

  /** `reduce` folds from the left: one more value at the end is one more
      application of the operator to the result so far. */
  lemma ReduceSnoc(op: Op, vs: seq<PyVal>, v: PyVal)
    ensures vs == [] ==> Reduce(op, vs + [v]) == Some(v)
    ensures vs != [] && Reduce(op, vs).None? ==> Reduce(op, vs + [v]).None?
    ensures vs != [] && Reduce(op, vs).Some? ==> Reduce(op, vs + [v]) == Apply(op, Reduce(op, vs).value, v)
  {
    if vs != [] {
      assert (vs + [v])[1..] == vs[1..] + [v];
      ReduceFromSnoc(op, vs[0], vs[1..], v);
    } else {
      assert vs + [v] == [v];
    }
  }

  lemma {:induction false} ReduceFromSnoc(op: Op, acc: PyVal, vs: seq<PyVal>, v: PyVal)
    ensures ReduceFrom(op, acc, vs + [v]) ==
      match ReduceFrom(op, acc, vs)
      case None => None
      case Some(x) => Apply(op, x, v)
    decreases |vs|
  {
    if vs == [] {
      assert vs + [v] == [v];
      assert [v][1..] == [];
    } else {
      assert (vs + [v])[0] == vs[0];
      assert (vs + [v])[1..] == vs[1..] + [v];
      match Apply(op, acc, vs[0])
      case None =>
      case Some(acc') => ReduceFromSnoc(op, acc', vs[1..], v);
    }
  }

  function PayloadOf(v: PyVal): Payload {
    match v
    case PInt(i) => Num(i as real)
    case PFloat(x) => Num(x)
    case PStr(s) => Text(s)
  }

  /** A builtin applied to its evaluated argument tokens: `Tok(reduce(f, toklv(args)), FLO)`. */
  function Fold(op: Op, args: seq<Tok>): (r: Option<Tok>)
    ensures r.Some? ==> r.value.kind == FLO
    ensures r.Some? ==> |args| >= 1 && forall i :: 0 <= i < |args| ==> TokValue(args[i]).Some?
  {
    match TokValues(args)
    case None => None
    case Some(vs) =>
      match Reduce(op, vs)
      case None => None
      case Some(v) => Some(Tok(PayloadOf(v), FLO))
  }

  // ---------------------------------------------------------------------
  // The arithmetic meaning of a fold over numbers

  function RealOp(op: Op, x: real, y: real): real
    requires op == Div ==> y != 0.0
  {
    match op
    case Add => x + y
    case Sub => x - y
    case Mul => x * y
    case Div => x / y
  }

  /** A token whose payload `tokv` reads as a number. */
  predicate NumericTok(t: Tok) {
    t.value.Num? && (t.kind == FLO || (t.kind == INT && t.value.x == t.value.x.Floor as real))
  }

  function Payloads(ts: seq<Tok>): (xs: seq<real>)
    requires forall i :: 0 <= i < |ts| ==> NumericTok(ts[i])
    ensures |xs| == |ts|
    ensures forall i :: 0 <= i < |ts| ==> ts[i].value == Num(xs[i])
  {
    var xs := seq(|ts|, i requires 0 <= i < |ts| => assert NumericTok(ts[i]); ts[i].value.x);
    assert forall i :: 0 <= i < |ts| ==> NumericTok(ts[i]) && ts[i].value == Num(xs[i]);
    xs
  }

  /** Left fold of real numbers: `((x0 op x1) op x2) ...`. */
  function RealFold(op: Op, acc: real, xs: seq<real>): real
    requires op == Div ==> forall i :: 0 <= i < |xs| ==> xs[i] != 0.0
    decreases |xs|
  {
    if xs == [] then acc else RealFold(op, RealOp(op, acc, xs[0]), xs[1..])
  }

  lemma {:induction false} ReduceFromNumeric(op: Op, acc: PyVal, vs: seq<PyVal>)
    requires IsNumber(acc)
    requires forall i :: 0 <= i < |vs| ==> IsNumber(vs[i])
    requires op == Div ==> forall i :: 0 <= i < |vs| ==> AsReal(vs[i]) != 0.0
    ensures var xs := seq(|vs|, i requires 0 <= i < |vs| => AsReal(vs[i]));
      && ReduceFrom(op, acc, vs).Some?
      && IsNumber(ReduceFrom(op, acc, vs).value)
      && AsReal(ReduceFrom(op, acc, vs).value) == RealFold(op, AsReal(acc), xs)
    decreases |vs|
  {
    var xs := seq(|vs|, i requires 0 <= i < |vs| => AsReal(vs[i]));
    if vs != [] {
      var next := Apply(op, acc, vs[0]).value;
      ReduceFromNumeric(op, next, vs[1..]);
      var xs' := seq(|vs[1..]|, i requires 0 <= i < |vs[1..]| => AsReal(vs[1..][i]));
      assert xs' == xs[1..];
    }
  }

  /** On numeric operands a builtin computes the left fold of the payloads
      with the real operator, tagged FLO: `(+ 1 2 3)` is FLO 6 and
      `(/ 1 2 3)` is FLO 1/2/3.  Division fails on a zero divisor. */
  lemma FoldNumeric(op: Op, args: seq<Tok>)
    requires |args| >= 1
    requires forall i :: 0 <= i < |args| ==> NumericTok(args[i])
    requires op == Div ==> forall i :: 1 <= i < |args| ==> args[i].value != Num(0.0)
    ensures var xs := Payloads(args);
      Fold(op, args) == Some(Tok(Num(RealFold(op, xs[0], xs[1..])), FLO))
  {
    var vs := TokValues(args).value;
    var xs := Payloads(args);
    assert forall i :: 0 <= i < |args| ==> IsNumber(vs[i]) && AsReal(vs[i]) == xs[i];
    ReduceFromNumeric(op, vs[0], vs[1..]);
    var ys := seq(|vs[1..]|, i requires 0 <= i < |vs[1..]| => AsReal(vs[1..][i]));
    assert ys == xs[1..];
  }

  /** With a single argument `reduce` applies nothing: the builtin returns its
      argument's payload retagged FLO, so `(- 5)` is FLO 5, not -5. */
  lemma FoldSingle(op: Op, t: Tok)
    requires NumericTok(t) || (t.kind == SYM && t.value.Text?)
    ensures Fold(op, [t]) == Some(Tok(t.value, FLO))
  {
    assert TokValue(t).Some?;
    var v := TokValue(t).value;
    var w := TokValues([t]).value;
    assert |w| == 1 && w[0] == v;
    assert w == [v];
    assert [v][0] == v && [v][1..] == [];
    assert ReduceFrom(op, v, []) == Some(v);
    assert Reduce(op, [v]) == Some(v);
    assert PayloadOf(v) == t.value;
  }

  /** `+` on symbols concatenates their names, as Python's `str + str` does. */
  lemma FoldConcat(a: string, b: string)
    ensures Fold(Add, [Tok(Text(a), SYM), Tok(Text(b), SYM)]) == Some(Tok(Text(a + b), FLO))
  {
    assert TokValue(Tok(Text(a), SYM)) == Some(PStr(a));
    assert TokValue(Tok(Text(b), SYM)) == Some(PStr(b));
    var vs := TokValues([Tok(Text(a), SYM), Tok(Text(b), SYM)]).value;
    assert vs == [PStr(a), PStr(b)];
    assert vs[1..] == [PStr(b)];
    assert Apply(Add, PStr(a), PStr(b)) == Some(PStr(a + b));
    assert ReduceFrom(Add, PStr(a + b), []) == Some(PStr(a + b));
    assert Reduce(Add, vs) == ReduceFrom(Add, PStr(a), [PStr(b)]);
    assert ReduceFrom(Add, PStr(a), [PStr(b)]) == Some(PStr(a + b));
    assert PayloadOf(PStr(a + b)) == Text(a + b);
  }

  /** A float operand followed by an int operand: the sum is a float. */
  lemma FoldFloatInt(a: Tok, x: real, i: int)
    requires TokValue(a) == Some(PFloat(x))
    ensures Fold(Add, [a, Tok(Num(i as real), INT)]) == Some(Tok(Num(x + i as real), FLO))
  {
    var b := Tok(Num(i as real), INT);
    assert (i as real).Floor == i;
    ReduceFloatInt(x, i, TokValues([a, b]).value);
  }

  lemma ReduceFloatInt(x: real, i: int, vs: seq<PyVal>)
    requires vs == [PFloat(x), PInt(i)]
    ensures Reduce(Add, vs) == Some(PFloat(x + i as real))
  {
    assert vs[1..] == [PInt(i)] && vs[1..][1..] == [];
    assert Apply(Add, PFloat(x), PInt(i)) == Some(PFloat(x + i as real));
    assert ReduceFrom(Add, PFloat(x), [PInt(i)]) == ReduceFrom(Add, PFloat(x + i as real), []);
  }
}

=== FILE: digits.dfy ===
/** Decimal digit strings: the `str.isnumeric` test, the value `int()` reads
    from a digit string, and the text `str()` writes for an integer.
    Only the ASCII digits are numeric here. */
module Digits {

  predicate IsDigit(c: char) {
    '0' <= c <= '9'
  }

  predicate AllDigits(w: string) {
    forall i :: 0 <= i < |w| ==> IsDigit(w[i])
  }

  /** `str.isnumeric`: non-empty and made of digits only. */
  predicate IsNumeric(w: string) {
    |w| > 0 && AllDigits(w)
  }

  function DigitValue(c: char): nat
    requires IsDigit(c)
  {
    (c - '0') as nat
  }

  function DigitChar(d: nat): (c: char)
    requires d < 10
    ensures IsDigit(c) && DigitValue(c) == d
  {
    ('0' as int + d) as char
  }

  /** The number `int(w)` reads from a digit string (leading zeros allowed). */
  function DecimalValue(w: string): nat
    requires AllDigits(w)
    decreases |w|
  {
    if w == [] then 0
    else 10 * DecimalValue(w[..|w| - 1]) + DigitValue(w[|w| - 1])
  }

  function Pow10(n: nat): (r: nat)
    ensures r >= 1
  {
    if n == 0 then 1 else 10 * Pow10(n - 1)
  }

  /** The digits of a natural number without leading zeros, as `str(n)`. */
  function NatText(n: nat): (w: string)
    ensures IsNumeric(w)
    ensures DecimalValue(w) == n
    ensures |w| > 1 ==> w[0] != '0'
    decreases n
  {
    if n < 10 then [DigitChar(n)]
    else
      var front := NatText(n / 10);
      var w := front + [DigitChar(n % 10)];
      assert w[..|w| - 1] == front;
      w
  }

  /** `str(i)` for a Python int: an optional minus sign, then the digits. */
  function IntText(i: int): string {
    if i < 0 then "-" + NatText(-i) else NatText(i)
  }

  /** Reading back the text of a natural number gives the number: `int(str(n)) == n`. */
  lemma IntTextRoundTrip(n: nat)
    ensures IntText(n) == NatText(n)
    ensures IsNumeric(IntText(n)) && DecimalValue(IntText(n)) == n
  {
  }

  /** A digit string with no superfluous leading zero is the text of its own
      value: `str(int(w)) == w`. */
  lemma {:induction false} NatTextOfValue(w: string)
    requires IsNumeric(w)
    requires |w| > 1 ==> w[0] != '0'
    ensures NatText(DecimalValue(w)) == w
    decreases |w|
  {
    var n := DecimalValue(w);
    var front := w[..|w| - 1];
    var last := DigitValue(w[|w| - 1]);
    if |w| == 1 {
      assert n == last;
      assert [DigitChar(n)] == w;
    } else {
      assert front[0] == w[0];
      NatTextOfValue(front);
      var m := DecimalValue(front);
      assert m >= 1 by { LeadingDigitPositive(front); }
      assert n / 10 == m && n % 10 == last;
      assert w == front + [w[|w| - 1]];
    }
  }

  lemma {:induction false} LeadingDigitPositive(w: string)
    requires IsNumeric(w)
    requires w[0] != '0'
    ensures DecimalValue(w) >= 1
    decreases |w|
  {
    if |w| > 1 {
      var front := w[..|w| - 1];
      assert front[0] == w[0];
      LeadingDigitPositive(front);
    }
  }
}

=== FILE: evaluator.dfy ===
/** `evaluate` and the three special forms.  The global `symbol_table` is the
    interpreter state: every evaluation takes it and hands back the table as
    it left it, or `Crash` where the source raises an exception.  The `scope`
    dictionary is kept as a parameter; nothing in the program ever writes to
    it, so every caller passes it along unchanged or passes an empty one. */
module Evaluator {
  import opened Wrappers
  import opened Tokens
  import opened Parser
  import opened Builtins

  /** What `evaluate` can return: a token, an (unevaluated) list, Python's
      `None`, the `-1` of an ill-typed form head, or a builtin's function. */
  datatype Val = VTok(tok: Tok) | VForm(items: seq<Expr>) | VNone | VMinusOne | VBuiltin(op: Op)

  /** A token-keyed dictionary: `symbol_table`, or a scope. */
  type Env = map<Tok, Val>

  /** A result and the symbol table after it, or an exception. */
  datatype Outcome<T> = Done(val: T, st: Env) | Crash

  datatype Special = Define | Let | If

  function Sym(name: string): Tok {
    Tok(Text(name), SYM)
  }

  const Nil := Sym("nil")

  const FunctionTable: map<Tok, Op> :=
    map[Sym("+") := Add, Sym("-") := Sub, Sym("*") := Mul, Sym("/") := Div]

  const MacroTable: map<Tok, Special> :=
    map[Sym("define") := Define, Sym("let") := Let, Sym("if") := If]

  /** The keys a Python dictionary can hold here: plain strings or tokens. */
  datatype Key = StrKey(s: string) | TokKey(t: Tok)

  /** `constant_table` is keyed by the strings "e" and "pi", not by tokens. */
  const ConstantTable: map<Key, Tok> :=
    map[StrKey("e") := Tok(Num(2.718281828459045), INT),
        StrKey("pi") := Tok(Num(3.141592653589793), INT)]

  /** An expression handed back as a value, unevaluated. */
  function ExprVal(e: Expr): Val {
    match e
    case Atom(t) => VTok(t)
    case List(xs) => VForm(xs)
  }

  /** Evaluating `e` from `st` to `st'` keeps every binding and touches only
      names written as atoms in `e`. */
  predicate Frames(st: Env, st': Env, written: seq<Tok>) {
    && st.Keys <= st'.Keys
    && forall k :: k in st' && k !in written ==> k in st && st'[k] == st[k]
  }

  lemma FramesTrans(a: Env, b: Env, c: Env, w1: seq<Tok>, w2: seq<Tok>, w: seq<Tok>)
    requires Frames(a, b, w1) && Frames(b, c, w2)
    requires forall k :: k in w1 ==> k in w
    requires forall k :: k in w2 ==> k in w
    ensures Frames(a, c, w)
  {
  }

  lemma SizeElem(es: seq<Expr>, i: nat)
    requires i < |es|
    ensures Size(es[i]) <= SizeSeq(es)
    ensures forall k :: k in LeavesOne(es[i]) ==> k in Leaves(es)
    decreases i
  {
    if i > 0 {
      SizeElem(es[1..], i - 1);
    }
  }

  // ---------------------------------------------------------------------
  // Atoms

  /** The atom branch of `evaluate`: numbers stand for themselves; any other
      token is looked up in the scope, then the symbol table, then the
      builtins, then the constants, and an unbound token stands for itself. */
  function LookupAtom(t: Tok, scope: Env, st: Env): Val {
    if t.kind == INT || t.kind == FLO then VTok(t)
    else if t in scope then scope[t]
    else if t in st then st[t]
    else if t in FunctionTable then VBuiltin(FunctionTable[t])
    else if TokKey(t) in ConstantTable then VTok(ConstantTable[TokKey(t)])
    else VTok(t)
  }

  // ---------------------------------------------------------------------
  // Builtin application

  /** The evaluated arguments as tokens; `tokv` raises on anything else. */
  function Toks(vs: seq<Val>): (r: Option<seq<Tok>>)
    ensures r.Some? <==> forall i :: 0 <= i < |vs| ==> vs[i].VTok?
    ensures r.Some? ==> |r.value| == |vs| && forall i :: 0 <= i < |vs| ==> vs[i] == VTok(r.value[i])
  {
    if vs == [] then Some([])
    else
      match (vs[0], Toks(vs[1..]))
      case (VTok(t), Some(ts)) => Some([t] + ts)
      case (VTok(_), None) =>
        assert forall i :: 0 <= i < |vs| - 1 ==> vs[1..][i] == vs[i + 1];
        None
      case (_, _) => None
  }

  function ApplyBuiltin(op: Op, vs: seq<Val>): (r: Option<Tok>)
    ensures r.Some? ==> r.value.kind == FLO && |vs| >= 1
    ensures r.Some? ==> forall i :: 0 <= i < |vs| ==> vs[i].VTok?
  {
    match Toks(vs)
    case None => None
    case Some(ts) => Fold(op, ts)
  }

  // ---------------------------------------------------------------------
  // The evaluator

  /** `evaluate(e, scope)` with `symbol_table` = `st`.  A one-element list is
      its element; an empty list has no head to read. */
  function Eval(e: Expr, scope: Env, st: Env): (r: Outcome<Val>)
    ensures r.Done? ==> Frames(st, r.st, LeavesOne(e))
    decreases Size(e), 2
  {
    match e
    case Atom(t) => Done(LookupAtom(t, scope, st), st)
    case List(xs) =>
      if |xs| == 1 then SizeElem(xs, 0); Eval(xs[0], scope, st)
      else if xs == [] then Crash
      else EvalForm(xs, scope, st)
  }

  /** A form of two or more elements, dispatched on its literal head: a
      builtin evaluates its arguments and folds them; a special form gets
      them unevaluated; a FUN head is called (and no payload is callable);
      `quote` and `q` give the form back; any other symbol gives `None`, and
      a number gives -1.  A list as head cannot be hashed for the lookup. */
  function EvalForm(xs: seq<Expr>, scope: Env, st: Env): (r: Outcome<Val>)
    requires |xs| >= 2
    ensures r.Done? ==> Frames(st, r.st, Leaves(xs))
    decreases SizeSeq(xs), 3
  {
    match xs[0]
    case List(_) => Crash
    case Atom(head) =>
      if head in FunctionTable then
        match EvalArgs(xs[1..], scope, st)
        case Crash => Crash
        case Done(vs, st1) =>
          match ApplyBuiltin(FunctionTable[head], vs)
          case None => Crash
          case Some(t) => Done(VTok(t), st1)
      else if head in MacroTable then
        match MacroTable[head]
        case Define => DefineForm(xs[1..], st)
        case Let => LetForm(xs[1..], scope, st)
        case If => IfForm(xs[1..], st)
      else if head.kind == FUN then Crash
      else if head.kind == SYM then
        if head.value == Text("quote") || head.value == Text("q") then Done(VForm(xs), st)
        else Done(VNone, st)
      else Done(VMinusOne, st)
  }

  /** The arguments of a builtin, evaluated left to right, each seeing the
      table the previous one left. */
  function EvalArgs(es: seq<Expr>, scope: Env, st: Env): (r: Outcome<seq<Val>>)
    ensures r.Done? ==> |r.val| == |es| && Frames(st, r.st, Leaves(es))
    decreases SizeSeq(es), 3
  {
    if es == [] then Done([], st)
    else
      match Eval(es[0], scope, st)
      case Crash => Crash
      case Done(v, st1) =>
        match EvalArgs(es[1..], scope, st1)
        case Crash => Crash
        case Done(vs, st2) => Done([v] + vs, st2)
  }

  /** `std_let`: the declarations are stored one by one into the global
      table, then the rest of the form is evaluated as one expression. */
  function LetForm(args: seq<Expr>, scope: Env, st: Env): (r: Outcome<Val>)
    ensures r.Done? ==> Frames(st, r.st, Leaves(args))
    decreases SizeSeq(args), 3
  {
    if args == [] then Crash
    else
      match args[0]
      case Atom(_) => Crash
      case List(ds) =>
        SizeElem(args, 0);
        match Bind(ds, st)
        case None => Crash
        case Some(st1) => Eval(List(args[1..]), scope, st1)
  }

  /** The declaration loop of `std_let`: each value is evaluated in an empty
      scope against the table so far, then stored under its name.  A
      declaration that is a token, has fewer than two elements, or names a
      list raises. */
  function Bind(ds: seq<Expr>, st: Env): (r: Option<Env>)
    ensures r.Some? ==> Frames(st, r.value, Leaves(ds))
    decreases SizeSeq(ds), 3
  {
    if ds == [] then Some(st)
    else
      match ds[0]
      case Atom(_) => None
      case List(ps) =>
        if |ps| < 2 then None
        else
          SizeElem(ds, 0);
          SizeElem(ps, 1);
          match Eval(ps[1], map[], st)
          case Crash => None
          case Done(v, st1) =>
            match ps[0]
            case List(_) => None
            case Atom(name) =>
              SizeElem(ps, 0);
              var r := Bind(ds[1..], st1[name := v]);
              if r.Some? then
                assert LeavesOne(ds[0]) == Leaves(ps);
                FramesTrans(st, st1, st1[name := v], LeavesOne(ps[1]), [name], Leaves(ds));
                FramesTrans(st, st1[name := v], r.value, Leaves(ds), Leaves(ds[1..]), Leaves(ds));
                r
              else r
  }

  /** `std_if_then_else`: with exactly three arguments, the second one
      unevaluated unless the first is literally the symbol `nil`, and then
      the third one.  A list as predicate cannot be compared with a token. */
  function IfForm(args: seq<Expr>, st: Env): (r: Outcome<Val>)
    ensures r.Done? ==> r.st == st
    ensures |args| != 3 ==> r == Done(VNone, st)
    ensures r.Done? && |args| == 3 ==> r.val == ExprVal(args[1]) || r.val == ExprVal(args[2])
  {
    if |args| == 3 then
      match args[0]
      case List(_) => Crash
      case Atom(p) => Done(ExprVal(if p != Nil then args[1] else args[2]), st)
    else Done(VNone, st)
  }

  /** `fun_define`: with exactly two arguments and a token as name, the body
      token itself is stored under the name and returned.  A list as name
      gives `None`; a list or FUN token as body raises. */
  function DefineForm(args: seq<Expr>, st: Env): (r: Outcome<Val>)
    ensures r.Done? ==> Frames(st, r.st, Leaves(args))
    ensures |args| != 2 ==> r == Done(VNone, st)
  {
    if |args| == 2 then
      match args[0]
      case List(_) => Done(VNone, st)
      case Atom(name) =>
        match args[1]
        case List(_) => Crash
        case Atom(body) =>
          if body.kind == FUN then Crash
          else Done(VTok(body), st[name := VTok(body)])
    else Done(VNone, st)
  }
}

=== FILE: interpreter.dfy ===
/** `eval_expr`: tokenize the text, refuse it with `None` when its "(" and
    ")" counts differ, otherwise parse it and evaluate the first top-level
    form only, in an empty scope. */
module Interpreter {
  import opened Wrappers
  import opened Tokens
  import opened Lexer
  import opened Parser
  import opened Evaluator

  /** The tokens, when `determine` gave one for every run.  Comparing a
      missing token with "(" in the balance loop raises. */
  function Present(ts: seq<Option<Tok>>): (r: Option<seq<Tok>>)
    ensures r.Some? <==> forall i :: 0 <= i < |ts| ==> ts[i].Some?
    ensures r.Some? ==> |r.value| == |ts| && forall i :: 0 <= i < |ts| ==> ts[i] == Some(r.value[i])
  {
    if ts == [] then Some([])
    else
      match (ts[0], Present(ts[1..]))
      case (Some(t), Some(rest)) => Some([t] + rest)
      case (Some(_), None) =>
        assert forall i :: 0 <= i < |ts| - 1 ==> ts[1..][i] == ts[i + 1];
        None
      case (None, _) => None
  }

  /** Every token present. */
  function Lift(ts: seq<Tok>): (r: seq<Option<Tok>>)
    ensures |r| == |ts| && forall i :: 0 <= i < |ts| ==> r[i] == Some(ts[i])
  {
    seq(|ts|, i requires 0 <= i < |ts| => Some(ts[i]))
  }

  /** `eval_expr(src)` against the symbol table `st`.  A text with a run
      that is no token raises, and so does a text with no token at all
      (there is no first form to take); unequal "(" and ")" counts give `None` before
      any parsing; a returned value means the parse did not run out of open
      lists, and only names written in the text were rebound. */
  function EvalExpr(src: string, st: Env): (r: Outcome<Val>)
    ensures Present(Tokenize(src)).None? ==> r == Crash
    ensures Present(Tokenize(src)) == Some([]) ==> r == Crash
    ensures Present(Tokenize(src)).Some? && Balance(Present(Tokenize(src)).value) != 0
      ==> r == Done(VNone, st)
    ensures r.Done? && Balance(Present(Tokenize(src)).value) == 0
      ==> Balanced(Present(Tokenize(src)).value)
    ensures r.Done? ==> Frames(st, r.st, NonParen(Present(Tokenize(src)).value))
    ensures Present(Tokenize(src)).Some? && CharCount(src, '(') != CharCount(src, ')')
      ==> r == Done(VNone, st)
  {
    match Present(Tokenize(src))
    case None => Crash
    case Some(ts) =>
      TextParenCounts(src);
      if Balance(ts) != 0 then Done(VNone, st)
      else
        ParseSucceedsIff(ts);
        match Parse(ts)
        case None => Crash
        case Some(forms) =>
          if forms == [] then Crash
          else
            ParseStructure(ts);
            assert Leaves(forms) == LeavesOne(forms[0]) + Leaves(forms[1..]);
            Eval(forms[0], map[], st)
  }

  /** The balance check of `eval_expr` is a check on the text: the "("
      and ")" tokens are as many as the "(" and ")" characters. */
  lemma TextParenCounts(src: string)
    requires Present(Tokenize(src)).Some?
    ensures Count(Present(Tokenize(src)).value, LeftParen) == CharCount(src, '(')
    ensures Count(Present(Tokenize(src)).value, RightParen) == CharCount(src, ')')
    ensures Balance(Present(Tokenize(src)).value) == CharCount(src, '(') - CharCount(src, ')')
  {
    var ts := Present(Tokenize(src)).value;
    var runs := Scan(src);
    CountMatches(ts, runs, LeftParen, "(");
    CountMatches(ts, runs, RightParen, ")");
    ScanParenCount(src, '(');
    ScanParenCount(src, ')');
  }

  lemma {:induction false} CountMatches(ts: seq<Tok>, runs: seq<string>, x: Tok, w: string)
    requires |ts| == |runs|
    requires forall i :: 0 <= i < |ts| ==> (ts[i] == x <==> runs[i] == w)
    ensures Count(ts, x) == RunCount(runs, w)
  {
    if ts != [] {
      CountMatches(ts[1..], runs[1..], x, w);
    }
  }

  /** Only the first form counts: a text whose tokens write out well-formed
      trees evaluates to its first tree, and the rest is never evaluated. */
  lemma EvalExprFirstForm(src: string, es: seq<Expr>, st: Env)
    requires WellFormed(es) && es != []
    requires Tokenize(src) == Lift(Unparse(es))
    ensures EvalExpr(src, st) == Eval(es[0], map[], st)
  {
    var ts := Unparse(es);
    assert Present(Lift(ts)).value == ts;
    UnparseCounts(es);
    ParseUnparse(es);
  }
}

=== FILE: lexer.dfy ===
/** The scanner behind `tokenize`: the regular expression
    `[()]|[-+]?[0-9]*\.?[0-9]+|[^\s\n\t()]+` applied with `findall`, written
    out by hand.  At each position whitespace is skipped; otherwise the first
    alternative that matches wins: a single parenthesis, then the longest
    signed decimal number, then the longest run of characters that are neither
    whitespace nor parentheses.  Each run is classified by `Determine`. */
module Lexer {
  import opened Wrappers
  import opened Digits
  import opened Tokens

  /** Python's `\s` restricted to ASCII: tab, line feed, vertical tab, form
      feed, carriage return, the four separators 0x1C-0x1F, and space. */
  predicate IsSpace(c: char) {
    ('\t' <= c <= '\r') || ('\U{1C}' <= c <= ' ')
  }

  predicate IsParen(c: char) {
    c == '(' || c == ')'
  }

  /** A character of the third alternative `[^\s\n\t()]`. */
  predicate IsWordChar(c: char) {
    !IsSpace(c) && !IsParen(c)
  }

  predicate IsSign(c: char) {
    c == '-' || c == '+'
  }

  /** `w` without its leading sign, if it has one. */
  function Unsigned(w: string): string {
    if |w| > 0 && IsSign(w[0]) then w[1..] else w
  }

  /** `u` is `digits.digits`, possibly with no digits before the dot, the dot at `k`. */
  predicate DecimalAt(u: string, k: int) {
    0 <= k < |u| && u[k] == '.' && AllDigits(u[..k]) && IsNumeric(u[k + 1..])
  }

  /** `u` is matched in full by `[0-9]*\.?[0-9]+`. */
  predicate UnsignedNumber(u: string) {
    IsNumeric(u) || exists k :: 0 <= k < |u| && DecimalAt(u, k)
  }

  /** `w` is matched in full by the second alternative `[-+]?[0-9]*\.?[0-9]+`. */
  predicate NumberRun(w: string) {
    UnsignedNumber(Unsigned(w))
  }

  /** The length of the leading run of digits. */
  function DigitRun(s: string): (n: nat)
    ensures n <= |s|
  {
    if s == [] || !IsDigit(s[0]) then 0 else 1 + DigitRun(s[1..])
  }

  /** The leading digit run is all digits and stops at a non-digit. */
  lemma {:induction false} DigitRunSpec(s: string)
    ensures AllDigits(s[..DigitRun(s)])
    ensures DigitRun(s) < |s| ==> !IsDigit(s[DigitRun(s)])
  {
    if s != [] && IsDigit(s[0]) {
      DigitRunSpec(s[1..]);
      var n := DigitRun(s);
      assert s[..n] == [s[0]] + s[1..][..n - 1];
    }
  }

  /** Any all-digit prefix lies within the leading digit run. */
  lemma {:induction false} DigitRunCovers(s: string, n: nat)
    requires n <= |s| && AllDigits(s[..n])
    ensures n <= DigitRun(s)
  {
    if n > 0 {
      assert s[..n][0] == s[0];
      assert s[1..][..n - 1] == s[..n][1..];
      DigitRunCovers(s[1..], n - 1);
    }
  }

  /** The length of the prefix of `t` taken by `[0-9]*\.?[0-9]+`: the
      leading digits, and the dot and the digits after it when there are any. */
  function UnsignedMatch(t: string): (n: nat)
    ensures n <= |t|
  {
    var d := DigitRun(t);
    if d < |t| && t[d] == '.' && DigitRun(t[d + 1..]) > 0 then d + 1 + DigitRun(t[d + 1..])
    else d
  }

  /** `UnsignedMatch` is the longest prefix matched by `[0-9]*\.?[0-9]+`, or
      0 when no prefix is. */
  lemma UnsignedMatchIsLongest(t: string)
    ensures UnsignedMatch(t) > 0 ==> UnsignedNumber(t[..UnsignedMatch(t)])
    ensures forall k :: UnsignedMatch(t) < k <= |t| ==> !UnsignedNumber(t[..k])
  {
    var d := DigitRun(t);
    var n := UnsignedMatch(t);
    DigitRunSpec(t);
    if d < |t| {
      DigitRunSpec(t[d + 1..]);
    }
    if d < |t| && t[d] == '.' && DigitRun(t[d + 1..]) > 0 {
      DecimalPrefix(t, d, DigitRun(t[d + 1..]));
    } else {
      assert d > 0 ==> IsNumeric(t[..d]);
    }
    UnsignedMatchLongest(t, d, n);
  }

  lemma DecimalPrefix(t: string, d: nat, e: nat)
    requires d < |t| && t[d] == '.' && AllDigits(t[..d])
    requires 0 < e <= |t| - d - 1 && AllDigits(t[d + 1..][..e])
    ensures DecimalAt(t[..d + 1 + e], d)
  {
    var u := t[..d + 1 + e];
    assert u[..d] == t[..d];
    assert u[d + 1..] == t[d + 1..][..e];
  }

  lemma UnsignedMatchLongest(t: string, d: nat, n: nat)
    requires d == DigitRun(t)
    requires n == if d < |t| && t[d] == '.' && DigitRun(t[d + 1..]) > 0 then d + 1 + DigitRun(t[d + 1..]) else d
    ensures forall k :: n < k <= |t| ==> !UnsignedNumber(t[..k])
  {
    NoLongerDigits(t, n);
    NoLongerDecimal(t, d, n);
  }

  lemma NoLongerDigits(t: string, n: nat)
    requires DigitRun(t) <= n
    ensures forall k :: n < k <= |t| ==> !IsNumeric(t[..k])
  {
    forall k | n < k <= |t|
      ensures !IsNumeric(t[..k])
    {
      if IsNumeric(t[..k]) {
        DigitRunCovers(t, k);
      }
    }
  }

  lemma NoLongerDecimal(t: string, d: nat, n: nat)
    requires d == DigitRun(t)
    requires n == if d < |t| && t[d] == '.' && DigitRun(t[d + 1..]) > 0 then d + 1 + DigitRun(t[d + 1..]) else d
    ensures forall k, j :: n < k <= |t| && 0 <= j < k ==> !DecimalAt(t[..k], j)
  {
    forall k, j | n < k <= |t| && 0 <= j < k
      ensures !DecimalAt(t[..k], j)
    {
      if DecimalAt(t[..k], j) {
        DecimalWithin(t, k, j);
      }
    }
  }

  /** A prefix of `t` that is `digits.digits` has its dot right after the
      leading digit run, and its fraction inside the digit run after the dot. */
  lemma DecimalWithin(t: string, k: nat, j: nat)
    requires k <= |t| && DecimalAt(t[..k], j)
    ensures j == DigitRun(t) && j < |t| && t[j] == '.'
    ensures 0 < k - j - 1 <= DigitRun(t[j + 1..])
  {
    DecimalAtIsDigitRun(t, k, j);
    assert t[j + 1..][..k - j - 1] == t[..k][j + 1..];
    DigitRunCovers(t[j + 1..], k - j - 1);
  }

  /** In a prefix `digits.digits` of `t`, the dot sits right after the leading digit run. */
  lemma DecimalAtIsDigitRun(t: string, k: nat, j: nat)
    requires k <= |t| && DecimalAt(t[..k], j)
    ensures j == DigitRun(t) && j < |t| && t[j] == '.'
  {
    assert t[..k][..j] == t[..j];
    DigitRunSpec(t);
    DigitRunCovers(t, j);
    assert t[j] == t[..k][j];
  }

  function SignLen(s: string): nat {
    if |s| > 0 && IsSign(s[0]) then 1 else 0
  }

  /** Past an optional sign, a prefix of `s` is the same prefix of `s` unsigned. */
  lemma UnsignedPrefix(s: string, k: nat)
    requires 0 < k <= |s| && SignLen(s) <= k
    ensures Unsigned(s[..k]) == s[SignLen(s)..][..k - SignLen(s)]
  {
    if SignLen(s) == 1 {
      assert s[..k][1..] == s[1..][..k - 1];
    }
  }

  /** The length of the prefix of `s` taken by the second alternative
      `[-+]?[0-9]*\.?[0-9]+`, or 0 when it takes none. */
  function NumberMatch(s: string): (n: nat)
    ensures n <= |s|
  {
    var m := UnsignedMatch(s[SignLen(s)..]);
    if m > 0 then SignLen(s) + m else 0
  }

  /** `NumberMatch` is the longest prefix the second alternative matches, or
      0 when it matches no prefix. */
  lemma NumberMatchIsLongest(s: string)
    ensures NumberMatch(s) > 0 ==> NumberRun(s[..NumberMatch(s)])
    ensures forall k :: NumberMatch(s) < k <= |s| ==> !NumberRun(s[..k])
  {
    UnsignedMatchIsLongest(s[SignLen(s)..]);
    NumberMatchLongest(s, UnsignedMatch(s[SignLen(s)..]), NumberMatch(s));
  }

  lemma NumberMatchLongest(s: string, m: nat, n: nat)
    requires m == UnsignedMatch(s[SignLen(s)..])
    requires m > 0 ==> UnsignedNumber(s[SignLen(s)..][..m])
    requires forall k :: m < k <= |s[SignLen(s)..]| ==> !UnsignedNumber(s[SignLen(s)..][..k])
    requires n == if m > 0 then SignLen(s) + m else 0
    ensures n > 0 ==> NumberRun(s[..n])
    ensures forall k :: n < k <= |s| ==> !NumberRun(s[..k])
  {
    if n > 0 {
      UnsignedPrefix(s, n);
    }
    forall k | n < k <= |s|
      ensures !NumberRun(s[..k])
    {
      UnsignedPrefix(s, k);
    }
  }

  /** The length of the longest prefix of word characters. */
  function WordLen(s: string): (n: nat)
    ensures n <= |s|
  {
    if s == [] || !IsWordChar(s[0]) then 0 else 1 + WordLen(s[1..])
  }

  /** The word prefix is all word characters and stops at one that is not. */
  lemma {:induction false} WordLenSpec(s: string)
    ensures forall i :: 0 <= i < WordLen(s) ==> IsWordChar(s[i])
    ensures WordLen(s) < |s| ==> !IsWordChar(s[WordLen(s)])
  {
    if s != [] && IsWordChar(s[0]) {
      WordLenSpec(s[1..]);
      assert forall i :: 1 <= i < WordLen(s) ==> s[i] == s[1..][i - 1];
    }
  }

  /** A run `findall` can return: one parenthesis, or a non-empty stretch of
      characters that are neither whitespace nor parentheses. */
  predicate IsRun(w: string) {
    w == "(" || w == ")" || (|w| > 0 && forall i :: 0 <= i < |w| ==> IsWordChar(w[i]))
  }

  /** The text with every whitespace character removed. */
  function Squeeze(s: string): string {
    if s == [] then []
    else if IsSpace(s[0]) then Squeeze(s[1..])
    else [s[0]] + Squeeze(s[1..])
  }

  function Concat(runs: seq<string>): string {
    if runs == [] then [] else runs[0] + Concat(runs[1..])
  }

  lemma {:induction false} SqueezeWordPrefix(s: string, n: nat)
    requires n <= |s|
    requires forall i :: 0 <= i < n ==> !IsSpace(s[i])
    ensures Squeeze(s) == s[..n] + Squeeze(s[n..])
  {
    if n > 0 {
      SqueezeWordPrefix(s[1..], n - 1);
      assert s[1..][n - 1..] == s[n..];
      assert s[..n] == [s[0]] + s[1..][..n - 1];
    }
  }

  lemma NumberRunWordChars(w: string)
    requires NumberRun(w)
    ensures forall i :: 0 <= i < |w| ==> IsWordChar(w[i])
  {
  }

  /** A prefix of word characters is a run, and the whitespace-free text starts with it. */
  lemma WordPrefixIsRun(s: string, n: nat)
    requires 0 < n <= |s|
    requires forall i :: 0 <= i < n ==> IsWordChar(s[i])
    ensures IsRun(s[..n])
    ensures Squeeze(s) == s[..n] + Squeeze(s[n..])
  {
    assert forall i :: 0 <= i < n ==> s[..n][i] == s[i];
    SqueezeWordPrefix(s, n);
  }

  /** The run taken at a non-space position is a run, and the whitespace-free
      text starts with it. */
  lemma RunAtFront(s: string, n: nat)
    requires s != [] && !IsSpace(s[0])
    requires n == if IsParen(s[0]) then 1
                  else if NumberMatch(s) > 0 then NumberMatch(s)
                  else WordLen(s)
    ensures 0 < n <= |s|
    ensures IsRun(s[..n])
    ensures Squeeze(s) == s[..n] + Squeeze(s[n..])
  {
    if IsParen(s[0]) {
      ParenRun(s);
    } else if NumberMatch(s) > 0 {
      NumberMatchIsLongest(s);
      NumberRunWordChars(s[..n]);
      assert forall i :: 0 <= i < n ==> s[..n][i] == s[i];
      WordPrefixIsRun(s, n);
    } else {
      WordLenSpec(s);
      WordPrefixIsRun(s, n);
    }
  }

  lemma ParenRun(s: string)
    requires s != [] && IsParen(s[0])
    ensures IsRun(s[..1])
    ensures Squeeze(s) == s[..1] + Squeeze(s[1..])
  {
  }

  /** Every run the number alternative matches is a literal `float()`
      reads.  A signed run is a SYM to `determine`, so this is what a fold
      that hands such a run back, say `(- -5)`, leaves in its FLO token for
      the next fold to read. */
  lemma NumberRunAsFloat(w: string)
    requires NumberRun(w)
    ensures ParseFloat(w).Some?
    ensures TokValue(Tok(Text(w), FLO)) == Some(PFloat(ParseFloat(w).value))
  {
    if IsNumeric(Unsigned(w)) {
      DigitRunAsFloat(w);
    } else {
      var k :| 0 <= k < |Unsigned(w)| && DecimalAt(Unsigned(w), k);
      DecimalRunAsFloat(w, k);
    }
  }

  /** A signed integer run reads as its digits' value with its sign. */
  lemma DigitRunAsFloat(w: string)
    requires IsNumeric(Unsigned(w))
    ensures ParseFloat(w) == Some((if w[0] == '-' then -1.0 else 1.0) * DecimalValue(Unsigned(w)) as real)
  {
    DigitsMantissa(Unsigned(w));
    SignedMantissa(w);
  }

  /** A signed decimal run reads as the value of its two digit strings with its sign. */
  lemma DecimalRunAsFloat(w: string, k: nat)
    requires DecimalAt(Unsigned(w), k)
    ensures var u := Unsigned(w);
      ParseFloat(w) == Some((if w[0] == '-' then -1.0 else 1.0) * FloatValue(u[..k], u[k + 1..]))
  {
    DecimalMantissa(Unsigned(w), k);
    SignedMantissa(w);
  }

  /** `float()` of a run with a sign in front reads the rest and applies the sign. */
  lemma SignedMantissa(w: string)
    requires Unsigned(w) != [] && Unsigned(w)[0] != '-' && Unsigned(w)[0] != '+'
    requires forall i :: 0 <= i < |Unsigned(w)| ==> !IsExpMark(Unsigned(w)[i])
    requires MantissaValue(Unsigned(w)).Some?
    ensures ParseFloat(w) == Some((if w[0] == '-' then -1.0 else 1.0) * MantissaValue(Unsigned(w)).value)
  {
    if IsSign(w[0]) {
      assert forall i :: 1 <= i < |w| ==> w[i] == Unsigned(w)[i - 1];
      ParseFloatSigned(w);
    } else {
      ParseFloatPlain(w);
    }
  }

  lemma DigitsMantissa(u: string)
    requires IsNumeric(u)
    ensures u[0] != '-' && u[0] != '+'
    ensures forall i :: 0 <= i < |u| ==> !IsExpMark(u[i])
    ensures MantissaValue(u) == Some(DecimalValue(u) as real)
  {
    assert '.' !in u;
  }

  /** A decimal has one dot, so `k` is the only place it can be split. */
  lemma DecimalMantissa(u: string, k: nat)
    requires DecimalAt(u, k)
    ensures u[0] != '-' && u[0] != '+'
    ensures forall i :: 0 <= i < |u| ==> !IsExpMark(u[i])
    ensures MantissaValue(u) == Some(FloatValue(u[..k], u[k + 1..]))
  {
    forall i | 0 <= i < |u|
      ensures u[i] == '.' || IsDigit(u[i])
    {
      if i < k { assert u[..k][i] == u[i]; }
      if i > k { assert u[k + 1..][i - k - 1] == u[i]; }
    }
    assert '.' !in u[..k] && '.' !in u[k + 1..];
    SplitAtOnlyDot(u, k);
  }

  /** `findall` over the whole text: the runs in order.  Joined together they
      give back the text with its whitespace removed, and every run is a
      single parenthesis or a stretch without whitespace or parentheses. */
  function Scan(s: string): seq<string>
    decreases |s|
  {
    if s == [] then []
    else if IsSpace(s[0]) then Scan(s[1..])
    else
      var n := if IsParen(s[0]) then 1
               else if NumberMatch(s) > 0 then NumberMatch(s)
               else WordLen(s);
      RunAtFront(s, n);
      [s[..n]] + Scan(s[n..])
  }

  /** Every run `findall` returns is a parenthesis or a word, and the runs
      laid end to end are the text with its whitespace removed: nothing is
      lost but whitespace, and nothing is read twice. */
  lemma {:induction false} ScanRuns(s: string)
    ensures forall i :: 0 <= i < |Scan(s)| ==> IsRun(Scan(s)[i])
    ensures Concat(Scan(s)) == Squeeze(s)
    decreases |s|
  {
    if s != [] {
      if IsSpace(s[0]) {
        ScanRuns(s[1..]);
      } else {
        var n := if IsParen(s[0]) then 1
                 else if NumberMatch(s) > 0 then NumberMatch(s)
                 else WordLen(s);
        RunAtFront(s, n);
        ScanRuns(s[n..]);
        var runs := Scan(s);
        assert runs[1..] == Scan(s[n..]);
      }
    }
  }

  /** `tokenize`: the runs, each classified; `None` stands for a run
      `determine` gives no token for.  A "(" or ")" token stands exactly
      where the text has a "(" or ")" run. */
  function Tokenize(s: string): (ts: seq<Option<Tok>>)
    ensures |ts| == |Scan(s)|
    ensures forall i :: 0 <= i < |ts| ==> ts[i] == Determine(Scan(s)[i])
    ensures forall i :: 0 <= i < |ts| ==> (ts[i] == Some(LeftParen) <==> Scan(s)[i] == "(")
    ensures forall i :: 0 <= i < |ts| ==> (ts[i] == Some(RightParen) <==> Scan(s)[i] == ")")
  {
    var runs := Scan(s);
    assert forall i :: 0 <= i < |runs| ==>
      (Determine(runs[i]) == Some(LeftParen) <==> runs[i] == "(") &&
      (Determine(runs[i]) == Some(RightParen) <==> runs[i] == ")") by {
      forall i | 0 <= i < |runs| {
        DetermineParen(runs[i]);
      }
    }
    seq(|runs|, i requires 0 <= i < |runs| => Determine(runs[i]))
  }

  // ---------------------------------------------------------------------
  // Parentheses in the text and in the runs

  /** How many times `c` occurs in `s`. */
  function CharCount(s: string, c: char): nat {
    if s == [] then 0 else (if s[0] == c then 1 else 0) + CharCount(s[1..], c)
  }

  /** How many of the runs are exactly `w`. */
  function RunCount(runs: seq<string>, w: string): nat {
    if runs == [] then 0 else (if runs[0] == w then 1 else 0) + RunCount(runs[1..], w)
  }

  lemma {:induction false} CharCountAppend(a: string, b: string, c: char)
    ensures CharCount(a + b, c) == CharCount(a, c) + CharCount(b, c)
  {
    if a == [] {
      assert a + b == b;
    } else {
      assert (a + b)[1..] == a[1..] + b;
      CharCountAppend(a[1..], b, c);
    }
  }

  /** Removing whitespace keeps every other character. */
  lemma {:induction false} CharCountSqueeze(s: string, c: char)
    requires !IsSpace(c)
    ensures CharCount(Squeeze(s), c) == CharCount(s, c)
  {
    if s != [] {
      CharCountSqueeze(s[1..], c);
      if !IsSpace(s[0]) {
        CharCountAppend([s[0]], Squeeze(s[1..]), c);
      }
    }
  }

  lemma {:induction false} CharCountAbsent(w: string, c: char)
    requires forall i :: 0 <= i < |w| ==> w[i] != c
    ensures CharCount(w, c) == 0
  {
    if w != [] {
      CharCountAbsent(w[1..], c);
    }
  }

  /** A run holds a parenthesis only when it is that parenthesis alone. */
  lemma CharCountRun(w: string, c: char)
    requires IsRun(w) && IsParen(c)
    ensures CharCount(w, c) == if w == [c] then 1 else 0
  {
    if w != "(" && w != ")" {
      CharCountAbsent(w, c);
    } else {
      assert CharCount(w[1..], c) == 0;
    }
  }

  lemma {:induction false} CharCountConcat(runs: seq<string>, c: char)
    requires forall i :: 0 <= i < |runs| ==> IsRun(runs[i])
    requires IsParen(c)
    ensures CharCount(Concat(runs), c) == RunCount(runs, [c])
  {
    if runs != [] {
      CharCountConcat(runs[1..], c);
      CharCountAppend(runs[0], Concat(runs[1..]), c);
      CharCountRun(runs[0], c);
    }
  }

  /** `findall` returns one "(" run per "(" of the text and one ")" run
      per ")": no parenthesis is dropped or merged into another run. */
  lemma ScanParenCount(s: string, c: char)
    requires IsParen(c)
    ensures RunCount(Scan(s), [c]) == CharCount(s, c)
  {
    ScanRuns(s);
    CharCountConcat(Scan(s), c);
    CharCountSqueeze(s, c);
  }
}

=== FILE: oracle.dfy ===
/** Cases from the program's own test suite and its documented quirks,
    followed through the scanner, the classifier, the parser and the
    evaluator from the source text. */
module Oracle {
  import opened Wrappers
  import opened Digits
  import opened Tokens
  import opened Lexer
  import opened Parser
  import opened Evaluator
  import opened Semantics
  import opened Interpreter

  /** `s` is the text `w`, character by character. */
  predicate Spells(s: string, w: string) {
    |s| == |w| && forall i :: 0 <= i < |w| ==> s[i] == w[i]
  }

  /** One step of `findall` at a non-space character: the run taken is the
      parenthesis, else the longest number, else the longest word. */
  lemma ScanTake(s: string, n: nat)
    requires s != [] && !IsSpace(s[0])
    requires n == if IsParen(s[0]) then 1 else if NumberMatch(s) > 0 then NumberMatch(s) else WordLen(s)
    ensures 0 < n <= |s| && Scan(s) == [s[..n]] + Scan(s[n..])
  {
  }

  lemma ScanSkip(s: string)
    requires s != [] && IsSpace(s[0])
    ensures Scan(s) == Scan(s[1..])
  {
  }

  /** A signed literal is one number run, yet `determine` makes it a symbol:
      `-5` is not numeric text. */
  lemma SignedLiteralIsSymbol()
    ensures NumberMatch("-5") == 2
    ensures Determine("-5") == Some(Sym("-5"))
  {
  }

  /** A dotted run that is not `digits.digits` is no token at all. */
  lemma DottedRunsRejected()
    ensures Determine(".5") == None
    ensures Determine("a.b") == None
  {
  }

  /** Two dots make no float either. */
  lemma TwoDotsRejected()
    ensures Determine("1.2.3") == None
  {
  }

  /** `2.5` is the FLO token 2.5. */
  lemma FloatRun()
    ensures Determine("2.5") == Some(FloTok(2.5))
  {
    assert FloatAt("2.5", 1) by {
      assert "2.5"[..1] == "2" && "2.5"[2..] == "5";
    }
    assert FloatValue("2", "5") == 2.5 by {
      assert DecimalValue("2") == 2 by { assert "2"[..0] == ""; }
      assert DecimalValue("5") == 5 by { assert "5"[..0] == ""; }
    }
    assert "2.5"[..1] == "2" && "2.5"[2..] == "5";
  }

  /** Scanning past a parenthesis, a lone digit, a sign before a space, and a space. */
  lemma ScanParenAt(s: string)
    requires s != [] && IsParen(s[0])
    ensures Scan(s) == [[s[0]]] + Scan(s[1..])
  {
    ScanTake(s, 1);
    assert s[..1] == [s[0]];
  }

  lemma ScanDigitAt(s: string)
    requires |s| >= 2 && IsDigit(s[0]) && (IsSpace(s[1]) || IsParen(s[1]))
    ensures Scan(s) == [[s[0]]] + Scan(s[1..])
  {
    assert DigitRun(s[1..]) == 0;
    assert DigitRun(s) == 1;
    assert s[..1] == [s[0]];
    ScanTake(s, 1);
  }

  lemma ScanSignAt(s: string)
    requires |s| >= 2 && IsSign(s[0]) && IsSpace(s[1])
    ensures Scan(s) == [[s[0]]] + Scan(s[1..])
  {
    assert s[1..][0] == s[1];
    assert DigitRun(s[1..]) == 0;
    assert NumberMatch(s) == 0;
    assert WordLen(s) == 1;
    assert s[..1] == [s[0]];
    ScanTake(s, 1);
  }

  /** A space, a digit, then a space or a parenthesis: the digit is one run. */
  lemma ScanSpaceDigit(s: string, r: seq<string>)
    requires |s| >= 3 && IsSpace(s[0]) && IsDigit(s[1]) && (IsSpace(s[2]) || IsParen(s[2]))
    requires Scan(s[2..]) == r
    ensures Scan(s) == [[s[1]]] + r
  {
    assert s[1..][1..] == s[2..];
    ScanDigitAt(s[1..]);
    ScanSkip(s);
  }

  /** The runs of `(+ 1 2 3)`, one position at a time from the end; each
      step sees only the characters it needs, and each run is one character. */
  lemma ScanSumTail(s: string)
    requires |s| == 3 && s[0] == ' ' && IsDigit(s[1]) && s[2] == ')'
    ensures Scan(s) == [[s[1]], [s[2]]]
  {
    assert s[2..][1..] == [];
    ScanParenAt(s[2..]);
    ScanSpaceDigit(s, [[s[2]]]);
  }

  lemma ScanSumTwo(s: string)
    requires |s| == 5 && s[0] == ' ' && IsDigit(s[1])
    requires s[2] == ' ' && IsDigit(s[3]) && s[4] == ')'
    ensures Scan(s) == [[s[1]], [s[3]], [s[4]]]
  {
    var t := s[2..];
    assert t[1] == s[3] && t[2] == s[4];
    ScanSumTail(t);
    ScanSpaceDigit(s, [[s[3]], [s[4]]]);
  }

  lemma ScanSumOne(s: string)
    requires |s| == 7 && s[0] == ' ' && IsDigit(s[1])
    requires s[2] == ' ' && IsDigit(s[3]) && s[4] == ' ' && IsDigit(s[5]) && s[6] == ')'
    ensures Scan(s) == [[s[1]], [s[3]], [s[5]], [s[6]]]
  {
    var t := s[2..];
    assert t[1] == s[3] && t[3] == s[5] && t[4] == s[6];
    ScanSumTwo(t);
    ScanSpaceDigit(s, [[s[3]], [s[5]], [s[6]]]);
  }

  /** The text `(+ 1 2 3)`, character by character. */
  predicate SumText(s: string) {
    && |s| == 9 && s[0] == '(' && s[1] == '+' && s[2] == ' ' && s[3] == '1' && s[4] == ' '
    && s[5] == '2' && s[6] == ' ' && s[7] == '3' && s[8] == ')'
  }

  lemma ScanSum(s: string)
    requires SumText(s)
    ensures Scan(s) == [[s[0]], [s[1]], [s[3]], [s[5]], [s[7]], [s[8]]]
  {
    var t := s[2..];
    assert t[1] == s[3] && t[3] == s[5] && t[5] == s[7] && t[6] == s[8];
    ScanSumOne(t);
    assert s[1..][1..] == t;
    ScanSignAt(s[1..]);
    ScanParenAt(s);
  }

  lemma DetermineDigit(w: string, n: nat)
    requires n < 10 && w == [DigitChar(n)]
    ensures Determine(w) == Some(IntTok(n))
  {
    assert NatText(n) == w;
  }

  /** A one-character run that is neither a digit nor a dot is a symbol. */
  lemma DetermineOther(w: string)
    requires |w| == 1 && !IsDigit(w[0]) && w[0] != '.'
    ensures Determine(w) == Some(Tok(Text(w), SYM))
  {
  }

  /** The text tokenizes to `toks` when every run is classified as the token in its place. */
  lemma TokenizeRuns(s: string, toks: seq<Tok>)
    requires |Scan(s)| == |toks|
    requires forall i :: 0 <= i < |toks| ==> Determine(Scan(s)[i]) == Some(toks[i])
    ensures Tokenize(s) == Lift(toks)
  {
  }

  /** `(+ 1 2 3)` tokenizes as in the test suite: "(", the symbol "+", the
      integers 1, 2 and 3, and ")". */
  lemma TokenizeSum(s: string)
    requires SumText(s)
    ensures Tokenize(s) == Lift([LeftParen, Sym("+"), IntTok(1), IntTok(2), IntTok(3), RightParen])
  {
    ScanSum(s);
    ClassifySumRuns(Scan(s));
    TokenizeRuns(s, [LeftParen, Sym("+"), IntTok(1), IntTok(2), IntTok(3), RightParen]);
  }

  /** A character that is a run on its own when a space or a parenthesis
      follows: a digit, or a word character that cannot start a number. */
  predicate OneCharRun(c: char) {
    IsWordChar(c) && !IsSign(c) && c != '.'
  }

  lemma ScanSymbolAt(s: string)
    requires |s| >= 2 && OneCharRun(s[0]) && !IsDigit(s[0]) && (IsSpace(s[1]) || IsParen(s[1]))
    ensures Scan(s) == [[s[0]]] + Scan(s[1..])
  {
    assert DigitRun(s) == 0;
    assert NumberMatch(s) == 0;
    assert WordLen(s[1..]) == 0;
    assert WordLen(s) == 1;
    assert s[..1] == [s[0]];
    ScanTake(s, 1);
  }

  lemma ScanOneAt(s: string)
    requires |s| >= 2 && OneCharRun(s[0]) && (IsSpace(s[1]) || IsParen(s[1]))
    ensures Scan(s) == [[s[0]]] + Scan(s[1..])
  {
    if IsDigit(s[0]) {
      ScanDigitAt(s);
    } else {
      ScanSymbolAt(s);
    }
  }

  /** A space and a one-character run, in front of text that scans to `r`. */
  lemma ScanSpaceOne(s: string, r: seq<string>)
    requires |s| > 2 && s[0] == ' ' && OneCharRun(s[1]) && (IsSpace(s[2]) || IsParen(s[2]))
    requires Scan(s[2..]) == r
    ensures Scan(s) == [[s[1]]] + r
  {
    assert s[1..][1..] == s[2..];
    ScanOneAt(s[1..]);
    ScanSkip(s);
  }

  /** A parenthesis in front of text that scans to `r`. */
  lemma ScanParenThen(s: string, r: seq<string>)
    requires |s| > 0 && IsParen(s[0]) && Scan(s[1..]) == r
    ensures Scan(s) == [[s[0]]] + r
  {
    ScanParenAt(s);
  }

  /** ` y)` with a one-character run `y`, then nothing, a space or a parenthesis. */
  lemma ScanOneClose(t: string)
    requires |t| >= 3 && t[0] == ' ' && OneCharRun(t[1]) && t[2] == ')'
    requires |t| == 3 || IsSpace(t[3]) || IsParen(t[3])
    ensures Scan(t) == [[t[1]], [t[2]]] + Scan(t[3..])
  {
    assert t[2..][1..] == t[3..];
    ScanParenAt(t[2..]);
    ScanSpaceOne(t, [[t[2]]] + Scan(t[3..]));
  }

  /** ` x y)` with one-character runs `x` and `y`, then nothing, a space or a parenthesis. */
  lemma ScanPairTail(s: string)
    requires |s| >= 5 && s[0] == ' ' && OneCharRun(s[1]) && s[2] == ' ' && OneCharRun(s[3]) && s[4] == ')'
    requires |s| == 5 || IsSpace(s[5]) || IsParen(s[5])
    ensures Scan(s) == [[s[1]], [s[3]], [s[4]]] + Scan(s[5..])
  {
    var t := s[2..];
    assert t[1] == s[3] && t[2] == s[4] && t[3..] == s[5..];
    ScanOneClose(t);
    ScanSpaceOne(s, Scan(t));
  }

  /** A word of `n` characters that cannot start a number, ended by a space
      or a parenthesis, is one run. */
  lemma ScanWordAt(s: string, n: nat)
    requires 0 < n < |s| && !IsDigit(s[0]) && (IsSpace(s[n]) || IsParen(s[n]))
    requires forall i :: 0 <= i < n ==> OneCharRun(s[i])
    ensures Scan(s) == [s[..n]] + Scan(s[n..])
  {
    assert DigitRun(s) == 0;
    assert NumberMatch(s) == 0;
    WordLenUpTo(s, n);
    ScanTake(s, n);
  }

  lemma {:induction false} WordLenUpTo(s: string, n: nat)
    requires n < |s| && (IsSpace(s[n]) || IsParen(s[n]))
    requires forall i :: 0 <= i < n ==> IsWordChar(s[i])
    ensures WordLen(s) == n
    decreases n
  {
    if n > 0 {
      WordLenUpTo(s[1..], n - 1);
    }
  }

  /** `+ x y)` with one-character runs `x` and `y`. */
  lemma ScanSignPair(s: string)
    requires |s| == 6 && IsSign(s[0]) && s[1] == ' '
    requires OneCharRun(s[2]) && s[3] == ' ' && OneCharRun(s[4]) && s[5] == ')'
    ensures Scan(s) == [[s[0]], [s[2]], [s[4]], [s[5]]]
  {
    var t := s[1..];
    assert t[1] == s[2] && t[3] == s[4] && t[4] == s[5];
    ScanPairTail(t);
    ScanSignAt(s);
  }

  /** `(+ x y)` with one-character runs `x` and `y`. */
  lemma ScanPair(s: string)
    requires |s| == 7 && s[0] == '(' && s[1] == '+' && s[2] == ' '
    requires OneCharRun(s[3]) && s[4] == ' ' && OneCharRun(s[5]) && s[6] == ')'
    ensures Scan(s) == [[s[0]], [s[1]], [s[3]], [s[5]], [s[6]]]
  {
    var t := s[1..];
    assert t[2] == s[3] && t[4] == s[5] && t[5] == s[6];
    ScanSignPair(t);
    ScanParenAt(s);
  }

  lemma ScanIntPair(s: string)
    requires Spells(s, "(+ 1 2)")
    ensures Scan(s) == ["(", "+", "1", "2", ")"]
  {
    assert s[0] == '(' && s[1] == '+' && s[2] == ' ' && s[3] == '1' && s[4] == ' ' && s[5] == '2' && s[6] == ')';
    ScanPair(s);
  }

  lemma ScanSymPair(s: string)
    requires Spells(s, "(+ x y)")
    ensures Scan(s) == ["(", "+", "x", "y", ")"]
  {
    assert s[0] == '(' && s[1] == '+' && s[2] == ' ' && s[3] == 'x' && s[4] == ' ' && s[5] == 'y' && s[6] == ')';
    ScanPair(s);
  }

  /** `(+ 1 2)` tokenizes as in the test suite: "(", the symbol "+", the
      integers 1 and 2, and ")". */
  lemma TokenizeIntPair(s: string)
    requires Spells(s, "(+ 1 2)")
    ensures Tokenize(s) == Lift([LeftParen, Sym("+"), IntTok(1), IntTok(2), RightParen])
  {
    ScanIntPair(s);
    DetermineDigit("1", 1);
    DetermineDigit("2", 2);
    DetermineOther("(");
    DetermineOther("+");
    DetermineOther(")");
    var toks := [LeftParen, Sym("+"), IntTok(1), IntTok(2), RightParen];
    TokenizeRuns(s, toks);
  }

  /** `(+ x y)` tokenizes as in the test suite: "(", the symbols "+", "x"
      and "y", and ")". */
  lemma TokenizeSymPair(s: string)
    requires Spells(s, "(+ x y)")
    ensures Tokenize(s) == Lift([LeftParen, Sym("+"), Sym("x"), Sym("y"), RightParen])
  {
    ScanSymPair(s);
    DetermineOther("x");
    DetermineOther("y");
    DetermineOther("(");
    DetermineOther("+");
    DetermineOther(")");
    var toks := [LeftParen, Sym("+"), Sym("x"), Sym("y"), RightParen];
    TokenizeRuns(s, toks);
  }

  /** ` c d))`: two symbols and two closing parentheses. */
  lemma ScanPairClose(u: string)
    requires |u| == 6 && u[0] == ' ' && u[1] == 'c' && u[2] == ' ' && u[3] == 'd' && u[4] == ')' && u[5] == ')'
    ensures Scan(u) == ["c", "d", ")", ")"]
  {
    var a := u[5..];
    assert a[1..] == [];
    ScanParenAt(a);
    assert Scan(a) == [[u[5]]];
    ScanPairTail(u);
  }

  /** The word `expt` ended by a space, in front of text that scans to `r`. */
  lemma ScanExptWord(w: string, r: seq<string>)
    requires |w| > 4 && w[0] == 'e' && w[1] == 'x' && w[2] == 'p' && w[3] == 't' && w[4] == ' '
    requires Scan(w[4..]) == r
    ensures Scan(w) == ["expt"] + r
  {
    assert w[..4] == "expt";
    ScanWordAt(w, 4);
  }

  /** ` (expt ` in front of text that scans to `r`. */
  lemma ScanOpenExpt(s: string, r: seq<string>)
    requires |s| > 6 && s[0] == ' ' && s[1] == '(' && s[2] == 'e' && s[3] == 'x' && s[4] == 'p' && s[5] == 't' && s[6] == ' '
    requires Scan(s[6..]) == r
    ensures Scan(s) == ["(", "expt"] + r
  {
    var w := s[2..];
    assert w[0] == 'e' && w[1] == 'x' && w[2] == 'p' && w[3] == 't' && w[4] == ' ' && w[4..] == s[6..];
    ScanExptWord(w, r);
    assert s[1..][1..] == w;
    ScanParenThen(s[1..], Scan(w));
    ScanSkip(s);
  }

  /** ` (expt c d))`: the word, the two symbols and both closing parentheses. */
  lemma ScanExptTail(s: string)
    requires |s| == 12 && s[0] == ' ' && s[1] == '(' && s[2] == 'e' && s[3] == 'x' && s[4] == 'p' && s[5] == 't'
    requires s[6] == ' ' && s[7] == 'c' && s[8] == ' ' && s[9] == 'd' && s[10] == ')' && s[11] == ')'
    ensures Scan(s) == ["(", "expt", "c", "d", ")", ")"]
  {
    var u := s[6..];
    assert u[1] == s[7] && u[3] == s[9] && u[4] == s[10] && u[5] == s[11];
    ScanPairClose(u);
    ScanOpenExpt(s, Scan(u));
  }

  /** ` a b) (expt c d))`, from the first inner argument on. */
  lemma ScanInnerTail(s: string)
    requires |s| == 17 && s[0] == ' ' && s[1] == 'a' && s[2] == ' ' && s[3] == 'b' && s[4] == ')'
    requires s[5] == ' ' && s[6] == '(' && s[7] == 'e' && s[8] == 'x' && s[9] == 'p' && s[10] == 't'
    requires s[11] == ' ' && s[12] == 'c' && s[13] == ' ' && s[14] == 'd' && s[15] == ')' && s[16] == ')'
    ensures Scan(s) == ["a", "b", ")", "(", "expt", "c", "d", ")", ")"]
  {
    var v := s[5..];
    assert v[1] == s[6] && v[2] == s[7] && v[3] == s[8] && v[4] == s[9] && v[5] == s[10];
    assert v[6] == s[11] && v[7] == s[12] && v[8] == s[13] && v[9] == s[14] && v[10] == s[15] && v[11] == s[16];
    ScanExptTail(v);
    ScanPairTail(s);
  }

  /** `(x` with a one-character run `x`, in front of a space and text that scans to `r`. */
  lemma ScanParenOne(s: string, r: seq<string>)
    requires |s| > 2 && IsParen(s[0]) && OneCharRun(s[1]) && s[2] == ' '
    requires Scan(s[2..]) == r
    ensures Scan(s) == [[s[0]], [s[1]]] + r
  {
    assert s[1..][1..] == s[2..];
    ScanOneAt(s[1..]);
    ScanParenAt(s);
  }

  /** `(+ ` in front of text that scans to `r`. */
  lemma ScanParenSign(s: string, r: seq<string>)
    requires |s| > 3 && IsParen(s[0]) && IsSign(s[1]) && s[2] == ' '
    requires Scan(s[3..]) == r
    ensures Scan(s) == [[s[0]], [s[1]]] + r
  {
    assert s[2..][1..] == s[3..];
    ScanSkip(s[2..]);
    assert s[1..][1..] == s[2..];
    ScanSignAt(s[1..]);
    ScanParenAt(s);
  }

  /** `(+ (* ` in front of text that scans to `r`. */
  lemma ScanNestedHead(s: string, r: seq<string>)
    requires |s| > 5 && s[0] == '(' && s[1] == '+' && s[2] == ' ' && s[3] == '(' && s[4] == '*' && s[5] == ' '
    requires Scan(s[5..]) == r
    ensures Scan(s) == ["(", "+", "(", "*"] + r
  {
    var t := s[3..];
    assert t[0] == '(' && t[1] == '*' && t[2] == ' ' && t[2..] == s[5..];
    ScanParenOne(t, r);
    ScanParenSign(s, Scan(t));
  }

  /** `(+ (* a b) (expt c d))`, scanned run by run. */
  lemma ScanNestedPair(s: string)
    requires Spells(s, "(+ (* a b) (expt c d))")
    ensures Scan(s) == ["(", "+", "(", "*", "a", "b", ")", "(", "expt", "c", "d", ")", ")"]
  {
    var u := s[5..];
    NestedPairText(s, u);
    ScanInnerTail(u);
    ScanNestedHead(s, Scan(u));
  }

  /** The characters of `(+ (* a b) (expt c d))` that the scanning steps look at. */
  lemma NestedPairText(s: string, u: string)
    requires Spells(s, "(+ (* a b) (expt c d))") && u == s[5..]
    ensures |s| == 22 && s[0] == '(' && s[1] == '+' && s[2] == ' ' && s[3] == '(' && s[4] == '*' && s[5] == ' '
    ensures |u| == 17 && u[0] == ' ' && u[1] == 'a' && u[2] == ' ' && u[3] == 'b' && u[4] == ')'
    ensures u[5] == ' ' && u[6] == '(' && u[7] == 'e' && u[8] == 'x' && u[9] == 'p' && u[10] == 't'
    ensures u[11] == ' ' && u[12] == 'c' && u[13] == ' ' && u[14] == 'd' && u[15] == ')' && u[16] == ')'
  {
    assert s[0] == '(' && s[1] == '+' && s[2] == ' ' && s[3] == '(' && s[4] == '*';
    assert s[5] == ' ' && s[6] == 'a' && s[7] == ' ' && s[8] == 'b' && s[9] == ')' && s[10] == ' ';
    assert s[11] == '(' && s[12] == 'e' && s[13] == 'x' && s[14] == 'p' && s[15] == 't' && s[16] == ' ';
    assert s[17] == 'c' && s[18] == ' ' && s[19] == 'd' && s[20] == ')' && s[21] == ')';
  }

  /** `(+ (* a b) (expt c d))` tokenizes as in the test suite: every run
      is a symbol or a parenthesis, `expt` among them. */
  lemma TokenizeNestedPair(s: string)
    requires Spells(s, "(+ (* a b) (expt c d))")
    ensures Tokenize(s) == Lift([LeftParen, Sym("+"), LeftParen, Sym("*"), Sym("a"), Sym("b"), RightParen,
                                 LeftParen, Sym("expt"), Sym("c"), Sym("d"), RightParen, RightParen])
  {
    ScanNestedPair(s);
    var runs := Scan(s);
    var toks := [LeftParen, Sym("+"), LeftParen, Sym("*"), Sym("a"), Sym("b"), RightParen,
                 LeftParen, Sym("expt"), Sym("c"), Sym("d"), RightParen, RightParen];
    ClassifyNestedRuns(runs, toks);
    TokenizeRuns(s, toks);
  }

  /** The runs of `(+ (* a b) (expt c d))` classify as the tokens of the test suite. */
  lemma ClassifyNestedRuns(runs: seq<string>, toks: seq<Tok>)
    requires runs == ["(", "+", "(", "*", "a", "b", ")", "(", "expt", "c", "d", ")", ")"]
    requires toks == [LeftParen, Sym("+"), LeftParen, Sym("*"), Sym("a"), Sym("b"), RightParen,
                      LeftParen, Sym("expt"), Sym("c"), Sym("d"), RightParen, RightParen]
    ensures forall i :: 0 <= i < |toks| ==> Determine(runs[i]) == Some(toks[i])
  {
    DetermineOther("(");
    DetermineOther(")");
    DetermineOther("+");
    DetermineOther("*");
    DetermineOther("a");
    DetermineOther("b");
    DetermineOther("c");
    DetermineOther("d");
    assert Determine("expt") == Some(Sym("expt")) by {
      assert !IsDigit("expt"[0]);
      assert '.' !in "expt";
    }
  }

  /** `parse(tokenize("(+ 1 2)"))` is the one form `(+ 1 2)`, as in the test suite. */
  lemma ParseIntPair(s: string)
    requires Spells(s, "(+ 1 2)")
    ensures Present(Tokenize(s)).Some?
    ensures Parse(Present(Tokenize(s)).value) == Some([Form(Sym("+"), Atoms([IntTok(1), IntTok(2)]))])
  {
    var args := [IntTok(1), IntTok(2)];
    var e := Form(Sym("+"), Atoms(args));
    var ts := [LeftParen, Sym("+"), IntTok(1), IntTok(2), RightParen];
    TokenizeIntPair(s);
    assert Present(Lift(ts)).value == ts;
    FormTokens(Sym("+"), args);
    assert [LeftParen, Sym("+")] + args + [RightParen] == ts;
    assert LeftParen !in [Sym("+")] + args && RightParen !in [Sym("+")] + args;
    ParseUnparse([e]);
  }

  /** The runs "(", "+", "1", "2", "3", ")" classify as the tokens of the test suite. */
  lemma ClassifySumRuns(runs: seq<string>)
    requires |runs| == 6 && forall i :: 0 <= i < 6 ==> |runs[i]| == 1
    requires runs[0][0] == '(' && runs[1][0] == '+' && runs[2][0] == '1'
    requires runs[3][0] == '2' && runs[4][0] == '3' && runs[5][0] == ')'
    ensures var toks := [LeftParen, Sym("+"), IntTok(1), IntTok(2), IntTok(3), RightParen];
      forall i :: 0 <= i < 6 ==> Determine(runs[i]) == Some(toks[i])
  {
    DetermineOther(runs[0]);
    DetermineOther(runs[1]);
    DetermineDigit(runs[2], 1);
    DetermineDigit(runs[3], 2);
    DetermineDigit(runs[4], 3);
    DetermineOther(runs[5]);
    assert runs[0] == "(" && runs[1] == "+" && runs[5] == ")";
  }

  /** A list of atoms writes out as its tokens, and those are its leaves. */
  lemma {:induction false} UnparseAtoms(ts: seq<Tok>)
    ensures Unparse(Atoms(ts)) == ts && Leaves(Atoms(ts)) == ts
  {
    if ts != [] {
      UnparseAtoms(ts[1..]);
      assert Atoms(ts)[1..] == Atoms(ts[1..]);
    }
  }

  /** A flat form `(head t1 ... tn)` writes out as "(", its tokens and ")". */
  lemma FormTokens(head: Tok, ts: seq<Tok>)
    ensures Unparse([Form(head, Atoms(ts))]) == [LeftParen, head] + ts + [RightParen]
    ensures Leaves([Form(head, Atoms(ts))]) == [head] + ts
  {
    var xs := [Atom(head)] + Atoms(ts);
    UnparseAtoms(ts);
    assert xs[0] == Atom(head) && xs[1..] == Atoms(ts);
    FormUnparse(head, xs);
    FormLeaves(head, xs);
  }

  lemma FormUnparse(head: Tok, xs: seq<Expr>)
    requires xs != [] && xs[0] == Atom(head)
    ensures Unparse([List(xs)]) == [LeftParen, head] + Unparse(xs[1..]) + [RightParen]
  {
    assert [List(xs)][1..] == [];
    assert Unparse(xs) == [head] + Unparse(xs[1..]);
    assert Unparse([List(xs)]) == [LeftParen] + Unparse(xs) + [RightParen];
  }

  lemma FormLeaves(head: Tok, xs: seq<Expr>)
    requires xs != [] && xs[0] == Atom(head)
    ensures Leaves([List(xs)]) == [head] + Leaves(xs[1..])
  {
    assert [List(xs)][1..] == [];
    assert Leaves(xs) == [head] + Leaves(xs[1..]);
    assert Leaves([List(xs)]) == Leaves(xs) + [];
  }

  /** An expression followed by one atom writes out, and reads its atoms, in that order. */
  lemma ThenAtom(e: Expr, z: Tok)
    ensures Unparse([e, Atom(z)]) == Unparse([e]) + [z]
    ensures Leaves([e, Atom(z)]) == Leaves([e]) + [z]
  {
    assert [e, Atom(z)][1..] == [Atom(z)] && [e][1..] == [] && [Atom(z)][1..] == [];
    assert Unparse([Atom(z)]) == [z];
    assert LeavesOne(Atom(z)) == [z] && Leaves([Atom(z)][1..]) == [];
    assert Leaves([Atom(z)]) == [z];
    assert Unparse([e]) == UnparseOne(e) && Leaves([e]) == LeavesOne(e);
  }

  /** A form `(a (b x y) z)` of non-parenthesis tokens writes out as its
      nine tokens and has no parenthesis atom. */
  lemma NestedForm(a: Tok, b: Tok, x: Tok, y: Tok, z: Tok)
    requires a != LeftParen && b != LeftParen && x != LeftParen && y != LeftParen && z != LeftParen
    requires a != RightParen && b != RightParen && x != RightParen && y != RightParen && z != RightParen
    ensures var e := List([Atom(a), List([Atom(b), Atom(x), Atom(y)]), Atom(z)]);
      && Unparse([e]) == [LeftParen, a, LeftParen, b, x, y, RightParen, z, RightParen]
      && WellFormed([e])
  {
    var inner := Form(b, Atoms([x, y]));
    assert inner == List([Atom(b), Atom(x), Atom(y)]);
    var xs := [Atom(a), inner, Atom(z)];
    FormTokens(b, [x, y]);
    ThenAtom(inner, z);
    assert xs[1..] == [inner, Atom(z)];
    FormUnparse(a, xs);
    FormLeaves(a, xs);
  }

  /** `(* (- 1 2) 2)` parses, as in the test suite, into one form holding
      the inner list in its second place. */
  lemma ParseNested()
    ensures Parse([LeftParen, Sym("*"), LeftParen, Sym("-"), IntTok(1), IntTok(2), RightParen, IntTok(2), RightParen])
      == Some([List([Atom(Sym("*")), List([Atom(Sym("-")), Atom(IntTok(1)), Atom(IntTok(2))]), Atom(IntTok(2))])])
  {
    var e := List([Atom(Sym("*")), List([Atom(Sym("-")), Atom(IntTok(1)), Atom(IntTok(2))]), Atom(IntTok(2))]);
    NestedForm(Sym("*"), Sym("-"), IntTok(1), IntTok(2), IntTok(2));
    ParseUnparse([e]);
  }

  /** `eval_expr("(+ 1 2 3)")` is FLO 6 and leaves the table as it was. */
  lemma EvalExprSum(src: string, st: Env)
    requires Spells(src, "(+ 1 2 3)")
    ensures EvalExpr(src, st) == Done(VTok(FloTok(6.0)), st)
  {
    var args := [IntTok(1), IntTok(2), IntTok(3)];
    var e := Form(Sym("+"), Atoms(args));
    FormTokens(Sym("+"), args);
    assert [LeftParen, Sym("+")] + args + [RightParen]
      == [LeftParen, Sym("+"), IntTok(1), IntTok(2), IntTok(3), RightParen];
    assert LeftParen !in [Sym("+")] + args && RightParen !in [Sym("+")] + args;
    assert SumText(src) by {
      assert src[0] == '(' && src[1] == '+' && src[2] == ' ' && src[3] == '1' && src[4] == ' ';
      assert src[5] == '2' && src[6] == ' ' && src[7] == '3' && src[8] == ')';
    }
    TokenizeSum(src);
    EvalExprFirstForm(src, [e], st);
    ExampleSum(st);
  }
}

=== FILE: parser.dfy ===
/** The stack parser `parse`: it turns the flat token list into nested lists
    by pushing the current accumulator at every "(" and closing it into its
    parent at every ")".  It does not check balance itself: an excess ")"
    pops an empty stack (an exception in the source, `None` here) and an
    excess "(" leaves the innermost open list as the result. */
module Parser {
  import opened Wrappers
  import opened Tokens

  /** A parse tree node: an atom or a parenthesised list. */
  datatype Expr = Atom(t: Tok) | List(items: seq<Expr>)

  function Size(e: Expr): (n: nat)
    ensures n >= 1
    decreases e, 1
  {
    match e
    case Atom(_) => 1
    case List(xs) => 1 + SizeSeq(xs)
  }

  function SizeSeq(es: seq<Expr>): nat
    decreases es, 0
  {
    if es == [] then 0 else Size(es[0]) + SizeSeq(es[1..])
  }

  // ---------------------------------------------------------------------
  // Reference views of a tree: the tokens it is written with, its leaves,
  // and the number of lists in it

  /** The tokens a tree is written with: a list in parentheses, an atom as itself. */
  function UnparseOne(e: Expr): seq<Tok>
    decreases Size(e), 0
  {
    match e
    case Atom(t) => [t]
    case List(xs) => [LeftParen] + Unparse(xs) + [RightParen]
  }

  function Unparse(es: seq<Expr>): seq<Tok>
    decreases SizeSeq(es), 1
  {
    if es == [] then [] else UnparseOne(es[0]) + Unparse(es[1..])
  }

  /** The atoms of a tree, read left to right. */
  function LeavesOne(e: Expr): seq<Tok>
    decreases Size(e), 0
  {
    match e
    case Atom(t) => [t]
    case List(xs) => Leaves(xs)
  }

  function Leaves(es: seq<Expr>): seq<Tok>
    decreases SizeSeq(es), 1
  {
    if es == [] then [] else LeavesOne(es[0]) + Leaves(es[1..])
  }

  /** The number of list nodes in a tree. */
  function ListsOne(e: Expr): nat
    decreases Size(e), 0
  {
    match e
    case Atom(_) => 0
    case List(xs) => 1 + Lists(xs)
  }

  function Lists(es: seq<Expr>): nat
    decreases SizeSeq(es), 1
  {
    if es == [] then 0 else ListsOne(es[0]) + Lists(es[1..])
  }

  /** No atom of the trees is a parenthesis token. */
  predicate WellFormed(es: seq<Expr>) {
    LeftParen !in Leaves(es) && RightParen !in Leaves(es)
  }

  function Count(ts: seq<Tok>, x: Tok): nat {
    if ts == [] then 0 else (if ts[0] == x then 1 else 0) + Count(ts[1..], x)
  }

  /** The tokens with the parenthesis tokens removed. */
  function NonParen(ts: seq<Tok>): seq<Tok> {
    if ts == [] then []
    else if ts[0] == LeftParen || ts[0] == RightParen then NonParen(ts[1..])
    else [ts[0]] + NonParen(ts[1..])
  }

  /** The net parenthesis count `eval_expr` computes: opens minus closes. */
  function Balance(ts: seq<Tok>): int {
    Count(ts, LeftParen) - Count(ts, RightParen)
  }

  /** How a single token moves the depth. */
  function Delta(t: Tok): int {
    if t == LeftParen then 1 else if t == RightParen then -1 else 0
  }

  /** Starting at depth `d`, no prefix of `ts` closes more lists than are open. */
  predicate NeverBelow(ts: seq<Tok>, d: int) {
    forall k :: 0 <= k <= |ts| ==> d + Balance(ts[..k]) >= 0
  }

  /** Every prefix has at least as many "(" as ")", and the whole has equally many. */
  predicate Balanced(ts: seq<Tok>) {
    NeverBelow(ts, 0) && Balance(ts) == 0
  }

  // ---------------------------------------------------------------------
  // The parser

  /** The loop of `parse` from a given stack and accumulator; `None` when a
      ")" finds the stack empty. */
  function ParseFrom(ts: seq<Tok>, stack: seq<seq<Expr>>, acc: seq<Expr>): Option<seq<Expr>>
    decreases |ts|
  {
    if ts == [] then Some(acc)
    else if ts[0] == LeftParen then ParseFrom(ts[1..], stack + [acc], [])
    else if ts[0] == RightParen then
      if stack == [] then None
      else ParseFrom(ts[1..], stack[..|stack| - 1], stack[|stack| - 1] + [List(acc)])
    else ParseFrom(ts[1..], stack, acc + [Atom(ts[0])])
  }

  /** `parse`: the top-level forms of the token list. */
  function Parse(ts: seq<Tok>): Option<seq<Expr>> {
    ParseFrom(ts, [], [])
  }

  // ---------------------------------------------------------------------
  // Success: the stack underflows exactly when some prefix closes too much

  lemma CountCons(t: Tok, rest: seq<Tok>, x: Tok)
    ensures Count([t] + rest, x) == (if t == x then 1 else 0) + Count(rest, x)
  {
  }

  lemma BalanceCons(t: Tok, rest: seq<Tok>)
    ensures Balance([t] + rest) == Delta(t) + Balance(rest)
  {
  }

  lemma BalanceStep(ts: seq<Tok>, k: nat)
    requires 0 < |ts| && k < |ts|
    ensures Balance(ts[..k + 1]) == Delta(ts[0]) + Balance(ts[1..][..k])
  {
    assert ts[..k + 1] == [ts[0]] + ts[1..][..k];
    BalanceCons(ts[0], ts[1..][..k]);
  }

  lemma NeverBelowStep(ts: seq<Tok>, d: int)
    requires ts != []
    ensures NeverBelow(ts, d) <==> d >= 0 && NeverBelow(ts[1..], d + Delta(ts[0]))
  {
    assert ts[..0] == [];
    assert Balance([]) == 0;
    forall k | 0 <= k < |ts|
      ensures Balance(ts[..k + 1]) == Delta(ts[0]) + Balance(ts[1..][..k])
    {
      BalanceStep(ts, k);
    }
    if NeverBelow(ts, d) {
      forall k | 0 <= k <= |ts[1..]|
        ensures d + Delta(ts[0]) + Balance(ts[1..][..k]) >= 0
      {
        assert d + Balance(ts[..k + 1]) >= 0;
      }
    }
    if d >= 0 && NeverBelow(ts[1..], d + Delta(ts[0])) {
      forall k | 0 <= k <= |ts|
        ensures d + Balance(ts[..k]) >= 0
      {
        if k > 0 {
          assert d + Delta(ts[0]) + Balance(ts[1..][..k - 1]) >= 0;
        }
      }
    }
  }

  /** The parse loop finishes, from any stack, exactly when no prefix of the
      rest closes more lists than the stack and the prefix have opened. */
  lemma {:induction false} ParseFromSucceedsIff(ts: seq<Tok>, stack: seq<seq<Expr>>, acc: seq<Expr>)
    ensures ParseFrom(ts, stack, acc).Some? <==> NeverBelow(ts, |stack|)
    decreases |ts|
  {
    if ts == [] {
      assert ts[..0] == [];
    } else {
      NeverBelowStep(ts, |stack|);
      if ts[0] == LeftParen {
        ParseFromSucceedsIff(ts[1..], stack + [acc], []);
      } else if ts[0] == RightParen {
        if stack == [] {
          assert ts[1..][..0] == [];
          assert !NeverBelow(ts, 0);
        } else {
          ParseFromSucceedsIff(ts[1..], stack[..|stack| - 1], stack[|stack| - 1] + [List(acc)]);
        }
      } else {
        ParseFromSucceedsIff(ts[1..], stack, acc + [Atom(ts[0])]);
      }
    }
  }

  /** `parse` never pops an empty stack exactly when every prefix has at
      least as many "(" as ")"; in particular it succeeds on balanced input. */
  lemma ParseSucceedsIff(ts: seq<Tok>)
    ensures Parse(ts).Some? <==> NeverBelow(ts, 0)
    ensures Balanced(ts) ==> Parse(ts).Some?
  {
    ParseFromSucceedsIff(ts, [], []);
  }

  // ---------------------------------------------------------------------
  // Structure of the result

  lemma {:induction false} UnparseAppend(xs: seq<Expr>, e: Expr)
    ensures Unparse(xs + [e]) == Unparse(xs) + UnparseOne(e)
    ensures Leaves(xs + [e]) == Leaves(xs) + LeavesOne(e)
    ensures Lists(xs + [e]) == Lists(xs) + ListsOne(e)
  {
    UnparseSnoc(xs, e);
    LeavesSnoc(xs, e);
    ListsSnoc(xs, e);
  }

  lemma {:induction false} UnparseSnoc(xs: seq<Expr>, e: Expr)
    ensures Unparse(xs + [e]) == Unparse(xs) + UnparseOne(e)
    decreases |xs|
  {
    if xs == [] {
      assert [] + [e] == [e];
    } else {
      var ys := xs + [e];
      assert ys[0] == xs[0] && ys[1..] == xs[1..] + [e];
      UnparseSnoc(xs[1..], e);
    }
  }

  lemma {:induction false} LeavesSnoc(xs: seq<Expr>, e: Expr)
    ensures Leaves(xs + [e]) == Leaves(xs) + LeavesOne(e)
    decreases |xs|
  {
    if xs == [] {
      assert [] + [e] == [e];
    } else {
      var ys := xs + [e];
      assert ys[0] == xs[0] && ys[1..] == xs[1..] + [e];
      LeavesSnoc(xs[1..], e);
    }
  }

  lemma {:induction false} ListsSnoc(xs: seq<Expr>, e: Expr)
    ensures Lists(xs + [e]) == Lists(xs) + ListsOne(e)
    decreases |xs|
  {
    if xs == [] {
      assert [] + [e] == [e];
    } else {
      var ys := xs + [e];
      assert ys[0] == xs[0] && ys[1..] == xs[1..] + [e];
      ListsSnoc(xs[1..], e);
    }
  }

  /** The tokens still owed to a stack of open lists: each frame's contents
      followed by the "(" that opened the next one. */
  function PendingStack(stack: seq<seq<Expr>>): seq<Tok> {
    if stack == [] then []
    else PendingStack(stack[..|stack| - 1]) + Unparse(stack[|stack| - 1]) + [LeftParen]
  }

  function LeavesStack(stack: seq<seq<Expr>>): seq<Tok> {
    if stack == [] then [] else LeavesStack(stack[..|stack| - 1]) + Leaves(stack[|stack| - 1])
  }

  function ListsStack(stack: seq<seq<Expr>>): nat {
    if stack == [] then 0 else ListsStack(stack[..|stack| - 1]) + Lists(stack[|stack| - 1])
  }

  /** The loop invariant of `parse`: what has been built, together with the
      rest of the input, writes out as the input; leaves and lists are kept. */
  predicate Accounts(stack: seq<seq<Expr>>, acc: seq<Expr>, ts: seq<Tok>, es: seq<Expr>) {
    && Unparse(es) == PendingStack(stack) + Unparse(acc) + ts
    && Leaves(es) == LeavesStack(stack) + Leaves(acc) + NonParen(ts)
    && Lists(es) == ListsStack(stack) + Lists(acc) + Count(ts, RightParen)
  }

  lemma OpenStep(stack: seq<seq<Expr>>, acc: seq<Expr>, rest: seq<Tok>, es: seq<Expr>)
    requires Accounts(stack + [acc], [], rest, es)
    ensures Accounts(stack, acc, [LeftParen] + rest, es)
  {
    var stack' := stack + [acc];
    assert stack'[..|stack'| - 1] == stack;
    CountCons(LeftParen, rest, RightParen);
    assert ([LeftParen] + rest)[1..] == rest;
  }

  lemma CloseStep(stack: seq<seq<Expr>>, acc: seq<Expr>, rest: seq<Tok>, es: seq<Expr>)
    requires stack != []
    requires Accounts(stack[..|stack| - 1], stack[|stack| - 1] + [List(acc)], rest, es)
    ensures Accounts(stack, acc, [RightParen] + rest, es)
  {
    var below, top := stack[..|stack| - 1], stack[|stack| - 1];
    CloseUnparse(below, top, acc, rest);
    CloseLeaves(below, top, acc, rest);
    CloseLists(below, top, acc, rest);
  }

  lemma CloseUnparse(below: seq<seq<Expr>>, top: seq<Expr>, acc: seq<Expr>, rest: seq<Tok>)
    ensures PendingStack(below) + Unparse(top + [List(acc)]) + rest
      == PendingStack(below + [top]) + Unparse(acc) + ([RightParen] + rest)
  {
    UnparseSnoc(top, List(acc));
    assert (below + [top])[..|below|] == below;
  }

  lemma CloseLeaves(below: seq<seq<Expr>>, top: seq<Expr>, acc: seq<Expr>, rest: seq<Tok>)
    ensures LeavesStack(below) + Leaves(top + [List(acc)]) + NonParen(rest)
      == LeavesStack(below + [top]) + Leaves(acc) + NonParen([RightParen] + rest)
  {
    LeavesSnoc(top, List(acc));
    assert (below + [top])[..|below|] == below;
    assert ([RightParen] + rest)[1..] == rest;
  }

  lemma CloseLists(below: seq<seq<Expr>>, top: seq<Expr>, acc: seq<Expr>, rest: seq<Tok>)
    ensures ListsStack(below) + Lists(top + [List(acc)]) + Count(rest, RightParen)
      == ListsStack(below + [top]) + Lists(acc) + Count([RightParen] + rest, RightParen)
  {
    ListsSnoc(top, List(acc));
    assert (below + [top])[..|below|] == below;
    CountCons(RightParen, rest, RightParen);
  }

  lemma AtomStep(stack: seq<seq<Expr>>, acc: seq<Expr>, t: Tok, rest: seq<Tok>, es: seq<Expr>)
    requires t != LeftParen && t != RightParen
    requires Accounts(stack, acc + [Atom(t)], rest, es)
    ensures Accounts(stack, acc, [t] + rest, es)
  {
    AtomUnparse(stack, acc, t, rest);
    AtomLeaves(stack, acc, t, rest);
    AtomLists(stack, acc, t, rest);
  }

  lemma AtomUnparse(stack: seq<seq<Expr>>, acc: seq<Expr>, t: Tok, rest: seq<Tok>)
    ensures PendingStack(stack) + Unparse(acc + [Atom(t)]) + rest
      == PendingStack(stack) + Unparse(acc) + ([t] + rest)
  {
    UnparseSnoc(acc, Atom(t));
    assert UnparseOne(Atom(t)) == [t];
  }

  lemma AtomLeaves(stack: seq<seq<Expr>>, acc: seq<Expr>, t: Tok, rest: seq<Tok>)
    requires t != LeftParen && t != RightParen
    ensures LeavesStack(stack) + Leaves(acc + [Atom(t)]) + NonParen(rest)
      == LeavesStack(stack) + Leaves(acc) + NonParen([t] + rest)
  {
    LeavesSnoc(acc, Atom(t));
    assert LeavesOne(Atom(t)) == [t];
    assert ([t] + rest)[0] == t && ([t] + rest)[1..] == rest;
    assert NonParen([t] + rest) == [t] + NonParen(rest);
  }

  lemma AtomLists(stack: seq<seq<Expr>>, acc: seq<Expr>, t: Tok, rest: seq<Tok>)
    requires t != RightParen
    ensures ListsStack(stack) + Lists(acc + [Atom(t)]) + Count(rest, RightParen)
      == ListsStack(stack) + Lists(acc) + Count([t] + rest, RightParen)
  {
    ListsSnoc(acc, Atom(t));
    assert ListsOne(Atom(t)) == 0;
    CountCons(t, rest, RightParen);
  }

  lemma {:induction false} ParseFromInvariant(ts: seq<Tok>, stack: seq<seq<Expr>>, acc: seq<Expr>)
    requires ParseFrom(ts, stack, acc).Some?
    requires |stack| + Balance(ts) == 0
    ensures Accounts(stack, acc, ts, ParseFrom(ts, stack, acc).value)
    decreases |ts|
  {
    var es := ParseFrom(ts, stack, acc).value;
    if ts == [] {
      assert stack == [];
    } else {
      var t := ts[0];
      var rest := ts[1..];
      assert ts == [t] + rest;
      BalanceCons(t, rest);
      if t == LeftParen {
        ParseFromInvariant(rest, stack + [acc], []);
        OpenStep(stack, acc, rest, es);
      } else if t == RightParen {
        ParseFromInvariant(rest, stack[..|stack| - 1], stack[|stack| - 1] + [List(acc)]);
        CloseStep(stack, acc, rest, es);
      } else {
        ParseFromInvariant(rest, stack, acc + [Atom(t)]);
        AtomStep(stack, acc, t, rest, es);
      }
    }
  }

  /** On balanced input, `parse` gives trees that write back out as exactly
      the input tokens; their leaves, left to right, are the input without
      parentheses; and each "(" ... ")" pair became exactly one list. */
  lemma ParseStructure(ts: seq<Tok>)
    requires Balanced(ts)
    ensures Parse(ts).Some?
    ensures Unparse(Parse(ts).value) == ts
    ensures Leaves(Parse(ts).value) == NonParen(ts)
    ensures Lists(Parse(ts).value) == Count(ts, LeftParen)
  {
    ParseSucceedsIff(ts);
    ParseFromInvariant(ts, [], []);
    assert Count(ts, LeftParen) == Count(ts, RightParen);
  }

  /** The other direction of the round trip: writing out trees without
      parenthesis atoms and parsing the tokens gives the same trees back. */
  lemma {:induction false} ParseFromUnparse(es: seq<Expr>, rest: seq<Tok>, stack: seq<seq<Expr>>, acc: seq<Expr>)
    requires WellFormed(es)
    ensures ParseFrom(Unparse(es) + rest, stack, acc) == ParseFrom(rest, stack, acc + es)
    decreases SizeSeq(es)
  {
    if es == [] {
      assert acc + es == acc;
      assert Unparse(es) + rest == rest;
    } else {
      var e := es[0];
      var tail := es[1..];
      assert es == [e] + tail;
      assert Leaves(es) == LeavesOne(e) + Leaves(tail);
      assert SizeSeq(es) == Size(e) + SizeSeq(tail);
      assert WellFormed(tail);
      assert acc + es == acc + [e] + tail;
      match e
      case Atom(t) => {
        var ts := [t] + (Unparse(tail) + rest);
        assert Unparse(es) + rest == ts;
        assert ts[1..] == Unparse(tail) + rest;
        ParseFromUnparse(tail, rest, stack, acc + [e]);
      }
      case List(xs) => {
        assert WellFormed(xs);
        var after := [RightParen] + Unparse(tail) + rest;
        ParseFromUnparse(xs, after, stack + [acc], []);
        assert [] + xs == xs;
        ParseListAround(xs, tail, rest, stack, acc);
        ParseFromUnparse(tail, rest, stack, acc + [e]);
      }
    }
  }

  /** One list written out: "(" opens a frame, and once its contents are
      parsed, ")" closes it onto the enclosing list. */
  lemma ParseListAround(xs: seq<Expr>, tail: seq<Expr>, rest: seq<Tok>, stack: seq<seq<Expr>>, acc: seq<Expr>)
    requires var after := [RightParen] + Unparse(tail) + rest;
      ParseFrom(Unparse(xs) + after, stack + [acc], []) == ParseFrom(after, stack + [acc], xs)
    ensures ParseFrom(Unparse([List(xs)] + tail) + rest, stack, acc)
      == ParseFrom(Unparse(tail) + rest, stack, acc + [List(xs)])
  {
    var es := [List(xs)] + tail;
    var after := [RightParen] + Unparse(tail) + rest;
    var ts := [LeftParen] + (Unparse(xs) + after);
    assert es[0] == List(xs) && es[1..] == tail;
    assert Unparse(es) + rest == ts;
    assert ts[1..] == Unparse(xs) + after;
    assert (stack + [acc])[..|stack|] == stack;
    assert after[0] == RightParen && after[1..] == Unparse(tail) + rest;
  }

  lemma ParseUnparse(es: seq<Expr>)
    requires WellFormed(es)
    ensures Parse(Unparse(es)) == Some(es)
  {
    ParseFromUnparse(es, [], [], []);
    assert Unparse(es) + [] == Unparse(es);
    assert [] + es == es;
  }

  lemma {:induction false} CountAppend(a: seq<Tok>, b: seq<Tok>, x: Tok)
    ensures Count(a + b, x) == Count(a, x) + Count(b, x)
    decreases |a|
  {
    if a != [] {
      assert (a + b)[1..] == a[1..] + b;
      CountAppend(a[1..], b, x);
    } else {
      assert a + b == b;
    }
  }

  /** The net count of a text is the sum of the net counts of its parts. */
  lemma BalanceAppend(a: seq<Tok>, b: seq<Tok>)
    ensures Balance(a + b) == Balance(a) + Balance(b)
  {
    CountAppend(a, b, LeftParen);
    CountAppend(a, b, RightParen);
  }

  /** Written-out trees hold one "(" and one ")" per list, so their net
      parenthesis count is zero. */
  lemma {:induction false} UnparseCounts(es: seq<Expr>)
    requires WellFormed(es)
    ensures Count(Unparse(es), LeftParen) == Lists(es)
    ensures Count(Unparse(es), RightParen) == Lists(es)
    ensures Balance(Unparse(es)) == 0
    decreases SizeSeq(es)
  {
    if es != [] {
      var e := es[0];
      var tail := es[1..];
      assert Leaves(es) == LeavesOne(e) + Leaves(tail);
      assert SizeSeq(es) == Size(e) + SizeSeq(tail);
      assert WellFormed(tail);
      UnparseCounts(tail);
      CountAppend(UnparseOne(e), Unparse(tail), LeftParen);
      CountAppend(UnparseOne(e), Unparse(tail), RightParen);
      match e
      case Atom(t) => {
        assert t in Leaves(es);
      }
      case List(xs) => {
        assert WellFormed(xs);
        UnparseCounts(xs);
        CountAppend([LeftParen] + Unparse(xs), [RightParen], LeftParen);
        CountAppend([LeftParen] + Unparse(xs), [RightParen], RightParen);
        CountAppend([LeftParen], Unparse(xs), LeftParen);
        CountAppend([LeftParen], Unparse(xs), RightParen);
      }
    }
  }
}

=== FILE: semantics.dfy ===
/** What `evaluate` does, form by form, stated against the interpreter state:
    how atoms resolve, that a form head is taken literally, that builtins fold
    their evaluated arguments, and how the three special forms use their
    unevaluated arguments and the global table. */
module Semantics {
  import opened Wrappers
  import opened Digits
  import opened Tokens
  import opened Parser
  import opened Builtins
  import opened Evaluator

  /** A sequence of tokens written as atoms. */
  function Atoms(ts: seq<Tok>): (es: seq<Expr>)
    ensures |es| == |ts|
    ensures forall i :: 0 <= i < |ts| ==> es[i] == Atom(ts[i])
  {
    seq(|ts|, i requires 0 <= i < |ts| => Atom(ts[i]))
  }

  /** The form `(f a b ...)` with a literal head. */
  function Form(head: Tok, args: seq<Expr>): Expr {
    List([Atom(head)] + args)
  }

  function IntTok(n: int): Tok {
    Tok(Num(n as real), INT)
  }

  function FloTok(x: real): Tok {
    Tok(Num(x), FLO)
  }

  // ---------------------------------------------------------------------
  // Atoms

  /** Integer and float atoms evaluate to themselves, whatever is bound. */
  lemma EvalNumber(t: Tok, scope: Env, st: Env)
    requires t.kind == INT || t.kind == FLO
    ensures Eval(Atom(t), scope, st) == Done(VTok(t), st)
  {
  }

  /** A scope binding wins over every table. */
  lemma LookupScopeFirst(t: Tok, v: Val, scope: Env, st: Env)
    requires t.kind == SYM || t.kind == FUN
    ensures Eval(Atom(t), scope[t := v], st) == Done(v, st)
  {
  }

  /** A symbol-table binding wins over the builtins: after `(define + 5)`
      the atom `+` is 5. */
  lemma LookupTableBeforeBuiltins(t: Tok, v: Val, scope: Env, st: Env)
    requires t.kind == SYM || t.kind == FUN
    requires t !in scope
    ensures Eval(Atom(t), scope, st[t := v]) == Done(v, st[t := v])
  {
  }

  /** An unbound builtin name evaluates to the builtin itself, so the
      parenthesised `(+)` is the function, not an empty sum. */
  lemma LookupBuiltin(name: string, st: Env)
    requires Sym(name) in FunctionTable && Sym(name) !in st
    ensures Eval(Atom(Sym(name)), map[], st) == Done(VBuiltin(FunctionTable[Sym(name)]), st)
    ensures Eval(List([Atom(Sym(name))]), map[], st) == Done(VBuiltin(FunctionTable[Sym(name)]), st)
  {
  }

  /** An unbound token evaluates to itself; the constants table, keyed by
      strings, is never consulted successfully, so `pi` is just a symbol. */
  lemma LookupUnbound(t: Tok, scope: Env, st: Env)
    requires t !in scope && t !in st && t !in FunctionTable
    ensures TokKey(t) !in ConstantTable
    ensures Eval(Atom(t), scope, st) == Done(VTok(t), st)
  {
  }

  /** Binding one token leaves the value of every other atom alone. */
  lemma LookupOther(t: Tok, u: Tok, v: Val, scope: Env, st: Env)
    requires t != u
    ensures Eval(Atom(t), scope, st[u := v]).val == Eval(Atom(t), scope, st).val
  {
  }

  // ---------------------------------------------------------------------
  // Form heads

  /** A one-element list is its element; an empty list raises. */
  lemma EvalParenthesised(e: Expr, scope: Env, st: Env)
    ensures Eval(List([e]), scope, st) == Eval(e, scope, st)
    ensures Eval(List([]), scope, st) == Crash
  {
  }

  /** `quote` and `q` give the whole form back, head included, unevaluated. */
  lemma EvalQuote(name: string, args: seq<Expr>, scope: Env, st: Env)
    requires name == "quote" || name == "q"
    requires |args| >= 1
    ensures Eval(Form(Sym(name), args), scope, st) == Done(VForm([Atom(Sym(name))] + args), st)
  {
  }

  /** Any other symbol head yields `None` without evaluating its arguments,
      and the head is never looked up: binding it changes nothing. */
  lemma EvalUnknownHead(name: string, args: seq<Expr>, v: Val, scope: Env, st: Env)
    requires Sym(name) !in FunctionTable && Sym(name) !in MacroTable
    requires name != "quote" && name != "q"
    requires |args| >= 1
    ensures Eval(Form(Sym(name), args), scope, st) == Done(VNone, st)
    ensures Eval(Form(Sym(name), args), scope, st[Sym(name) := v]) == Done(VNone, st[Sym(name) := v])
  {
  }

  /** A number as head gives -1; a FUN token or a list as head raises. */
  lemma EvalBadHead(t: Tok, xs: seq<Expr>, args: seq<Expr>, scope: Env, st: Env)
    requires |args| >= 1
    ensures t.kind == INT || t.kind == FLO ==> Eval(Form(t, args), scope, st) == Done(VMinusOne, st)
    ensures t.kind == FUN ==> Eval(Form(t, args), scope, st) == Crash
    ensures Eval(List([List(xs)] + args), scope, st) == Crash
  {
  }

  // ---------------------------------------------------------------------
  // Builtins

  /** Argument atoms evaluate one by one, each to its lookup, and leave the table as it was. */
  lemma {:induction false} EvalArgsAtoms(ts: seq<Tok>, scope: Env, st: Env)
    ensures EvalArgs(Atoms(ts), scope, st).Done?
    ensures EvalArgs(Atoms(ts), scope, st).st == st
    ensures forall i :: 0 <= i < |ts| ==> EvalArgs(Atoms(ts), scope, st).val[i] == LookupAtom(ts[i], scope, st)
  {
    if ts != [] {
      var es := Atoms(ts);
      EvalArgsAtoms(ts[1..], scope, st);
      assert es[0] == Atom(ts[0]) && es[1..] == Atoms(ts[1..]);
      var v := LookupAtom(ts[0], scope, st);
      assert Eval(es[0], scope, st) == Done(v, st);
      var vs := EvalArgs(Atoms(ts[1..]), scope, st).val;
      assert EvalArgs(es, scope, st) == Done([v] + vs, st);
      forall i | 1 <= i < |ts|
        ensures ([v] + vs)[i] == LookupAtom(ts[i], scope, st)
      {
        assert ts[1..][i - 1] == ts[i];
      }
    }
  }

  /** Arguments are evaluated left to right with the table threaded
      through: evaluating `a + b` is evaluating `a`, then `b` from the table
      `a` left, and the values come out in the same order.  A raise in `a`
      means `b` is never evaluated. */
  lemma {:induction false} EvalArgsAppend(a: seq<Expr>, b: seq<Expr>, scope: Env, st: Env)
    ensures EvalArgs(a + b, scope, st) ==
      match EvalArgs(a, scope, st)
      case Crash => Crash
      case Done(va, st1) =>
        match EvalArgs(b, scope, st1)
        case Crash => Crash
        case Done(vb, st2) => Done(va + vb, st2)
    decreases |a|
  {
    if a == [] {
      assert a + b == b;
      assert EvalArgs(a, scope, st) == Done([], st);
      match EvalArgs(b, scope, st)
      case Crash =>
      case Done(vb, st1) =>
        assert [] + vb == vb;
    } else {
      assert (a + b)[0] == a[0];
      assert (a + b)[1..] == a[1..] + b;
      match Eval(a[0], scope, st)
      case Crash =>
      case Done(v, st1) =>
        EvalArgsAppend(a[1..], b, scope, st1);
        match EvalArgs(a[1..], scope, st1)
        case Crash =>
        case Done(va, st2) =>
          match EvalArgs(b, scope, st2)
          case Crash =>
          case Done(vb, st3) =>
            assert [v] + (va + vb) == ([v] + va) + vb;
    }
  }

  /** A builtin form evaluates its arguments, then folds them; a fold that
      raises makes the form raise. */
  lemma EvalBuiltinForm(name: string, args: seq<Expr>, scope: Env, st: Env)
    requires Sym(name) in FunctionTable && |args| >= 1
    requires EvalArgs(args, scope, st).Done?
    ensures var r := EvalArgs(args, scope, st);
      Eval(Form(Sym(name), args), scope, st)
        == match ApplyBuiltin(FunctionTable[Sym(name)], r.val)
           case None => Crash
           case Some(t) => Done(VTok(t), r.st)
  {
  }

  /** A builtin over atoms that resolve to numeric tokens folds their
      payloads left to right with its real operator and tags the result FLO;
      the table is unchanged.  `(+ 1 2 3)` is FLO 6, `(/ 1 2 3)` FLO 1/6. */
  lemma EvalBuiltin(name: string, ts: seq<Tok>, us: seq<Tok>, scope: Env, st: Env)
    requires Sym(name) in FunctionTable
    requires |ts| == |us| >= 1
    requires forall i :: 0 <= i < |ts| ==> LookupAtom(ts[i], scope, st) == VTok(us[i])
    requires forall i :: 0 <= i < |us| ==> NumericTok(us[i])
    requires FunctionTable[Sym(name)] == Div ==> forall i :: 1 <= i < |us| ==> us[i].value != Num(0.0)
    ensures var xs := Payloads(us);
      Eval(Form(Sym(name), Atoms(ts)), scope, st)
        == Done(VTok(FloTok(RealFold(FunctionTable[Sym(name)], xs[0], xs[1..]))), st)
  {
    var op := FunctionTable[Sym(name)];
    EvalArgsAtoms(ts, scope, st);
    EvalBuiltinForm(name, Atoms(ts), scope, st);
    var vs := EvalArgs(Atoms(ts), scope, st).val;
    assert forall i :: 0 <= i < |vs| ==> vs[i] == VTok(us[i]);
    assert Toks(vs).value == us;
    FoldNumeric(op, us);
  }

  /** Whenever a builtin form returns, its value is a FLO token. */
  lemma EvalBuiltinIsFlo(name: string, args: seq<Expr>, scope: Env, st: Env)
    requires Sym(name) in FunctionTable && |args| >= 1
    requires Eval(Form(Sym(name), args), scope, st).Done?
    ensures Eval(Form(Sym(name), args), scope, st).val.VTok?
    ensures Eval(Form(Sym(name), args), scope, st).val.tok.kind == FLO
  {
  }

  // ---------------------------------------------------------------------
  // if

  /** `(if p a b)` returns `a` unevaluated unless `p` is literally `nil`,
      and then `b`; the table is untouched. */
  lemma EvalIf(p: Tok, a: Expr, b: Expr, scope: Env, st: Env)
    ensures p != Nil ==> Eval(Form(Sym("if"), [Atom(p), a, b]), scope, st) == Done(ExprVal(a), st)
    ensures p == Nil ==> Eval(Form(Sym("if"), [Atom(p), a, b]), scope, st) == Done(ExprVal(b), st)
  {
  }

  /** The predicate is not evaluated: a bound `nil`, or a predicate that
      would evaluate to `nil`, still picks the then-branch. */
  lemma EvalIfUnevaluated(c: seq<Expr>, a: Expr, b: Expr, scope: Env, st: Env)
    ensures Eval(Form(Sym("if"), [List(c), a, b]), scope, st) == Crash
    ensures Eval(Form(Sym("if"), [Atom(Sym("t")), a, b]), scope, st[Sym("t") := VTok(Nil)])
      == Done(ExprVal(a), st[Sym("t") := VTok(Nil)])
  {
  }

  /** Any arity other than three gives `None` and leaves the table alone. */
  lemma EvalIfArity(args: seq<Expr>, scope: Env, st: Env)
    requires |args| >= 1 && |args| != 3
    ensures Eval(Form(Sym("if"), args), scope, st) == Done(VNone, st)
  {
  }

  // ---------------------------------------------------------------------
  // define

  /** `(define name body)` stores the body token itself, unevaluated, and
      returns it; reading the name back gives the body. */
  lemma EvalDefine(name: Tok, body: Tok, scope: Env, st: Env)
    requires body.kind != FUN
    ensures Eval(Form(Sym("define"), [Atom(name), Atom(body)]), scope, st)
      == Done(VTok(body), st[name := VTok(body)])
    ensures name.kind == SYM && name !in scope
      ==> Eval(Atom(name), scope, st[name := VTok(body)]) == Done(VTok(body), st[name := VTok(body)])
  {
  }

  /** A list as name gives `None`; a list or a FUN token as body raises; any
      arity other than two gives `None`.  None of these change the table. */
  lemma EvalDefineRejects(xs: seq<Expr>, name: Tok, body: Tok, args: seq<Expr>, e: Expr, scope: Env, st: Env)
    requires |args| >= 1 && |args| != 2
    ensures Eval(Form(Sym("define"), [List(xs), e]), scope, st) == Done(VNone, st)
    ensures Eval(Form(Sym("define"), [Atom(name), List(xs)]), scope, st) == Crash
    ensures body.kind == FUN ==> Eval(Form(Sym("define"), [Atom(name), Atom(body)]), scope, st) == Crash
    ensures Eval(Form(Sym("define"), args), scope, st) == Done(VNone, st)
  {
  }

  // ---------------------------------------------------------------------
  // let

  /** The declaration loop is sequential: the first value is evaluated
      against the table so far and stored before the rest are looked at. */
  lemma BindStep(x: Tok, e: Expr, more: seq<Expr>, ds: seq<Expr>, st: Env, v: Val, st1: Env)
    requires Eval(e, map[], st) == Done(v, st1)
    ensures Bind([List([Atom(x), e] + more)] + ds, st) == Bind(ds, st1[x := v])
  {
  }

  /** A single-declaration `let` evaluates the body against the table with
      the binding added; that binding is still there afterwards unless the
      body itself writes the name. */
  lemma EvalLet(x: Tok, e: Expr, body: Expr, scope: Env, st: Env, v: Val, st1: Env)
    requires Eval(e, map[], st) == Done(v, st1)
    ensures Eval(Form(Sym("let"), [List([List([Atom(x), e])]), body]), scope, st)
      == Eval(body, scope, st1[x := v])
    ensures var r := Eval(body, scope, st1[x := v]);
      r.Done? && x !in LeavesOne(body) ==> x in r.st && r.st[x] == v
  {
    assert Sym("let") !in FunctionTable;
    var args := [List([List([Atom(x), e])]), body];
    BindStep(x, e, [], [], st, v, st1);
    assert [Atom(x), e] + [] == [Atom(x), e];
    assert [List([Atom(x), e])] + [] == [List([Atom(x), e])];
    assert Bind([List([Atom(x), e])], st) == Some(st1[x := v]);
    assert args[1..] == [body];
    assert LetForm(args, scope, st) == Eval(List([body]), scope, st1[x := v]);
    assert MacroTable[Sym("let")] == Let;
    assert ([Atom(Sym("let"))] + args)[1..] == args;
    var r := Eval(body, scope, st1[x := v]);
    if r.Done? && x !in LeavesOne(body) {
      var st2 := st1[x := v];
      assert Frames(st2, r.st, LeavesOne(body));
      assert x in st2.Keys;
      assert x in r.st;
      assert r.st[x] == st2[x];
    }
  }

  // ---------------------------------------------------------------------
  // The evaluate() examples of the test suite, on parsed forms

  /** `(+ 1 2 3)` is FLO 6. */
  lemma ExampleSum(st: Env)
    ensures Eval(Form(Sym("+"), Atoms([IntTok(1), IntTok(2), IntTok(3)])), map[], st)
      == Done(VTok(FloTok(6.0)), st)
  {
    var ts := [IntTok(1), IntTok(2), IntTok(3)];
    assert forall i :: 0 <= i < |ts| ==> LookupAtom(ts[i], map[], st) == VTok(ts[i]);
    assert forall i :: 0 <= i < |ts| ==> NumericTok(ts[i]);
    assert Sym("+") in FunctionTable && FunctionTable[Sym("+")] == Add;
    EvalBuiltin("+", ts, ts, map[], st);
    var xs := Payloads(ts);
    assert xs == [1.0, 2.0, 3.0];
    assert xs[0] == 1.0 && xs[1..] == [2.0, 3.0];
    assert RealFold(Add, 1.0, [2.0, 3.0]) == 6.0;
  }

  /** `(/ 1 2 3)` is FLO 1/6. */
  lemma ExampleQuotient(st: Env)
    ensures Eval(Form(Sym("/"), Atoms([IntTok(1), IntTok(2), IntTok(3)])), map[], st)
      == Done(VTok(FloTok(1.0 / 6.0)), st)
  {
    var ts := [IntTok(1), IntTok(2), IntTok(3)];
    IntAtoms(ts, st);
    assert forall i :: 1 <= i < |ts| ==> ts[i].value != Num(0.0);
    assert Sym("/") in FunctionTable && FunctionTable[Sym("/")] == Div;
    EvalBuiltin("/", ts, ts, map[], st);
    QuotientValue(Payloads(ts));
  }

  lemma QuotientValue(xs: seq<real>)
    requires xs == [1.0, 2.0, 3.0]
    ensures RealFold(Div, xs[0], xs[1..]) == 1.0 / 6.0
  {
    assert xs[1..] == [2.0, 3.0];
    assert RealFold(Div, 1.0 / 2.0, [3.0]) == 1.0 / 6.0;
  }

  /** Integer atoms stand for themselves and are numeric. */
  lemma IntAtoms(ts: seq<Tok>, st: Env)
    requires forall i :: 0 <= i < |ts| ==> ts[i].kind == INT && ts[i].value.Num?
    requires forall i :: 0 <= i < |ts| ==> ts[i].value.x == ts[i].value.x.Floor as real
    ensures forall i :: 0 <= i < |ts| ==> LookupAtom(ts[i], map[], st) == VTok(ts[i])
    ensures forall i :: 0 <= i < |ts| ==> NumericTok(ts[i])
  {
  }

  /** `(* 29 1)` is FLO 29. */
  lemma ExampleProduct(st: Env)
    ensures Eval(Form(Sym("*"), Atoms([IntTok(29), IntTok(1)])), map[], st) == Done(VTok(FloTok(29.0)), st)
  {
    var ts := [IntTok(29), IntTok(1)];
    assert forall i :: 0 <= i < |ts| ==> LookupAtom(ts[i], map[], st) == VTok(ts[i]);
    assert forall i :: 0 <= i < |ts| ==> NumericTok(ts[i]);
    assert Sym("*") in FunctionTable && FunctionTable[Sym("*")] == Mul;
    EvalBuiltin("*", ts, ts, map[], st);
    var xs := Payloads(ts);
    assert xs == [29.0, 1.0];
    assert xs[0] == 29.0 && xs[1..] == [1.0];
    assert RealFold(Mul, 29.0, [1.0]) == 29.0;
  }

  /** `(+ a a 2)` with `a` bound to FLO 29 is FLO 60. */
  lemma ExampleSumOfBound(st: Env)
    requires Sym("a") in st && st[Sym("a")] == VTok(FloTok(29.0))
    ensures Eval(Form(Sym("+"), Atoms([Sym("a"), Sym("a"), IntTok(2)])), map[], st) == Done(VTok(FloTok(60.0)), st)
  {
    var ts := [Sym("a"), Sym("a"), IntTok(2)];
    var us := [FloTok(29.0), FloTok(29.0), IntTok(2)];
    assert forall i :: 0 <= i < |ts| ==> LookupAtom(ts[i], map[], st) == VTok(us[i]);
    assert forall i :: 0 <= i < |us| ==> NumericTok(us[i]);
    assert Sym("+") in FunctionTable && FunctionTable[Sym("+")] == Add;
    EvalBuiltin("+", ts, us, map[], st);
    var xs := Payloads(us);
    assert xs == [29.0, 29.0, 2.0];
    assert xs[0] == 29.0 && xs[1..] == [29.0, 2.0];
    assert RealFold(Add, 29.0, [29.0, 2.0]) == 60.0;
  }

  /** `(+ a b)` with `a` bound to FLO 29 and `b` to FLO 60 is FLO 89. */
  lemma ExampleSumOfTwo(st: Env)
    requires Sym("a") in st && st[Sym("a")] == VTok(FloTok(29.0))
    requires Sym("b") in st && st[Sym("b")] == VTok(FloTok(60.0))
    ensures Eval(Form(Sym("+"), Atoms([Sym("a"), Sym("b")])), map[], st) == Done(VTok(FloTok(89.0)), st)
  {
    var ts := [Sym("a"), Sym("b")];
    var us := [FloTok(29.0), FloTok(60.0)];
    assert forall i :: 0 <= i < |ts| ==> LookupAtom(ts[i], map[], st) == VTok(us[i]);
    assert forall i :: 0 <= i < |us| ==> NumericTok(us[i]);
    assert Sym("+") in FunctionTable && FunctionTable[Sym("+")] == Add;
    EvalBuiltin("+", ts, us, map[], st);
    var xs := Payloads(us);
    assert xs == [29.0, 60.0];
    assert xs[0] == 29.0 && xs[1..] == [60.0];
    assert RealFold(Add, 29.0, [60.0]) == 89.0;
  }

  /** `(let ((a (* 29 1))) (let ((b (+ a a 2))) (+ a b)))` is FLO 89: the
      inner declaration sees `a` through the global table, and both
      bindings remain in the table afterwards. */
  lemma ExampleNestedLet(st: Env)
    ensures
      var a, b := Sym("a"), Sym("b");
      var inner := Form(Sym("let"), [List([List([Atom(b), Form(Sym("+"), Atoms([a, a, IntTok(2)]))])]),
                                     Form(Sym("+"), Atoms([a, b]))]);
      var outer := Form(Sym("let"), [List([List([Atom(a), Form(Sym("*"), Atoms([IntTok(29), IntTok(1)]))])]),
                                     inner]);
      Eval(outer, map[], st) == Done(VTok(FloTok(89.0)), st[a := VTok(FloTok(29.0))][b := VTok(FloTok(60.0))])
  {
    var a, b := Sym("a"), Sym("b");
    var st1 := st[a := VTok(FloTok(29.0))];
    var st2 := st1[b := VTok(FloTok(60.0))];
    var m := Form(Sym("*"), Atoms([IntTok(29), IntTok(1)]));
    var p := Form(Sym("+"), Atoms([a, a, IntTok(2)]));
    var q := Form(Sym("+"), Atoms([a, b]));
    var inner := Form(Sym("let"), [List([List([Atom(b), p])]), q]);
    ExampleProduct(st);
    ExampleSumOfBound(st1);
    assert a != b;
    ExampleSumOfTwo(st2);
    EvalLet(b, p, q, map[], st1, VTok(FloTok(60.0)), st1);
    EvalLet(a, m, inner, map[], st, VTok(FloTok(29.0)), st);
  }

  // ---------------------------------------------------------------------
  // Nested builtin forms and lets with several declarations

  /** Arguments that each evaluate to a token without touching the table
      evaluate together to those tokens, in order, and leave the table alone. */
  lemma {:induction false} EvalArgsPure(es: seq<Expr>, us: seq<Tok>, scope: Env, st: Env)
    requires |es| == |us|
    requires forall i :: 0 <= i < |es| ==> Eval(es[i], scope, st) == Done(VTok(us[i]), st)
    ensures EvalArgs(es, scope, st) == Done(VToks(us), st)
    ensures EvalArgs(es, scope, st).Done? && EvalArgs(es, scope, st).st == st
    ensures |EvalArgs(es, scope, st).val| == |es|
    ensures forall i :: 0 <= i < |es| ==> EvalArgs(es, scope, st).val[i] == VTok(us[i])
    decreases |es|
  {
    if es != [] {
      PureTail(es, us, scope, st);
      EvalArgsPure(es[1..], us[1..], scope, st);
      EvalArgsCons(es, scope, st, VTok(us[0]), VToks(us[1..]));
    }
  }

  /** Tokens as evaluated values. */
  function VToks(us: seq<Tok>): (vs: seq<Val>)
    ensures |vs| == |us| && forall i :: 0 <= i < |us| ==> vs[i] == VTok(us[i])
  {
    if us == [] then [] else [VTok(us[0])] + VToks(us[1..])
  }

  /** The arguments after the first still evaluate to their tokens. */
  lemma PureTail(es: seq<Expr>, us: seq<Tok>, scope: Env, st: Env)
    requires |es| == |us| > 0
    requires forall i :: 0 <= i < |es| ==> Eval(es[i], scope, st) == Done(VTok(us[i]), st)
    ensures forall i :: 0 <= i < |es| - 1 ==> Eval(es[1..][i], scope, st) == Done(VTok(us[1..][i]), st)
  {
    forall i | 0 <= i < |es| - 1
      ensures Eval(es[1..][i], scope, st) == Done(VTok(us[1..][i]), st)
    {
      assert es[1..][i] == es[i + 1] && us[1..][i] == us[i + 1];
    }
  }

  /** Arguments whose first leaves the table alone and whose rest evaluate
      to `vs` evaluate to the first value followed by `vs`. */
  lemma EvalArgsCons(es: seq<Expr>, scope: Env, st: Env, v: Val, vs: seq<Val>)
    requires es != [] && Eval(es[0], scope, st) == Done(v, st)
    requires EvalArgs(es[1..], scope, st) == Done(vs, st)
    ensures EvalArgs(es, scope, st) == Done([v] + vs, st)
  {
  }

  /** A builtin over any arguments that evaluate to numeric tokens and
      leave the table alone folds their payloads left to right and tags the
      result FLO; this is how nested arithmetic composes. */
  lemma EvalBuiltinOf(name: string, es: seq<Expr>, us: seq<Tok>, st: Env)
    requires Sym(name) in FunctionTable
    requires |es| == |us| >= 1
    requires forall i :: 0 <= i < |es| ==> Eval(es[i], map[], st) == Done(VTok(us[i]), st)
    requires forall i :: 0 <= i < |us| ==> NumericTok(us[i])
    requires FunctionTable[Sym(name)] == Div ==> forall i :: 1 <= i < |us| ==> us[i].value != Num(0.0)
    ensures var xs := Payloads(us);
      Eval(Form(Sym(name), es), map[], st)
        == Done(VTok(FloTok(RealFold(FunctionTable[Sym(name)], xs[0], xs[1..]))), st)
  {
    EvalArgsPure(es, us, map[], st);
    EvalBuiltinToks(name, es, us, st);
  }

  /** The same, given the arguments' values as one evaluation. */
  lemma EvalBuiltinToks(name: string, es: seq<Expr>, us: seq<Tok>, st: Env)
    requires Sym(name) in FunctionTable
    requires |es| == |us| >= 1
    requires EvalArgs(es, map[], st) == Done(VToks(us), st)
    requires forall i :: 0 <= i < |us| ==> NumericTok(us[i])
    requires FunctionTable[Sym(name)] == Div ==> forall i :: 1 <= i < |us| ==> us[i].value != Num(0.0)
    ensures var xs := Payloads(us);
      Eval(Form(Sym(name), es), map[], st)
        == Done(VTok(FloTok(RealFold(FunctionTable[Sym(name)], xs[0], xs[1..]))), st)
  {
    EvalBuiltinForm(name, es, map[], st);
    assert Toks(VToks(us)).value == us;
    FoldNumeric(FunctionTable[Sym(name)], us);
  }

  /** Two arguments that leave the table alone. */
  lemma EvalArgsTwo(e1: Expr, e2: Expr, u1: Tok, u2: Tok, st: Env)
    requires Eval(e1, map[], st) == Done(VTok(u1), st) && Eval(e2, map[], st) == Done(VTok(u2), st)
    ensures EvalArgs([e1, e2], map[], st) == Done(VToks([u1, u2]), st)
  {
    assert [e2][1..] == [] && [e1, e2][1..] == [e2];
    EvalArgsCons([e2], map[], st, VTok(u2), []);
    assert [VTok(u2)] + [] == [VTok(u2)];
    EvalArgsCons([e1, e2], map[], st, VTok(u1), [VTok(u2)]);
    assert VToks([u1, u2]) == [VTok(u1), VTok(u2)];
  }

  /** Three arguments that leave the table alone. */
  lemma EvalArgsThree(e1: Expr, e2: Expr, e3: Expr, u1: Tok, u2: Tok, u3: Tok, st: Env)
    requires Eval(e1, map[], st) == Done(VTok(u1), st) && Eval(e2, map[], st) == Done(VTok(u2), st)
    requires Eval(e3, map[], st) == Done(VTok(u3), st)
    ensures EvalArgs([e1, e2, e3], map[], st) == Done(VToks([u1, u2, u3]), st)
  {
    EvalArgsTwo(e2, e3, u2, u3, st);
    assert [e1, e2, e3][1..] == [e2, e3];
    EvalArgsCons([e1, e2, e3], map[], st, VTok(u1), VToks([u2, u3]));
    assert VToks([u1, u2, u3]) == [VTok(u1)] + VToks([u2, u3]);
  }

  /** `(op e1 e2)` where both arguments evaluate to numeric tokens. */
  lemma EvalPair(name: string, e1: Expr, e2: Expr, u1: Tok, u2: Tok, st: Env)
    requires Sym(name) in FunctionTable
    requires Eval(e1, map[], st) == Done(VTok(u1), st) && Eval(e2, map[], st) == Done(VTok(u2), st)
    requires NumericTok(u1) && NumericTok(u2)
    requires FunctionTable[Sym(name)] == Div ==> u2.value != Num(0.0)
    ensures Eval(Form(Sym(name), [e1, e2]), map[], st)
      == Done(VTok(FloTok(RealOp(FunctionTable[Sym(name)], u1.value.x, u2.value.x))), st)
  {
    var us := [u1, u2];
    EvalArgsTwo(e1, e2, u1, u2, st);
    EvalBuiltinToks(name, [e1, e2], us, st);
    FoldOfTwo(FunctionTable[Sym(name)], us);
  }

  /** `(op e1 e2 e3)` where all three arguments evaluate to numeric tokens. */
  lemma EvalTriple(name: string, e1: Expr, e2: Expr, e3: Expr, u1: Tok, u2: Tok, u3: Tok, st: Env)
    requires Sym(name) in FunctionTable && FunctionTable[Sym(name)] != Div
    requires Eval(e1, map[], st) == Done(VTok(u1), st) && Eval(e2, map[], st) == Done(VTok(u2), st)
    requires Eval(e3, map[], st) == Done(VTok(u3), st)
    requires NumericTok(u1) && NumericTok(u2) && NumericTok(u3)
    ensures var op := FunctionTable[Sym(name)];
      Eval(Form(Sym(name), [e1, e2, e3]), map[], st)
        == Done(VTok(FloTok(RealOp(op, RealOp(op, u1.value.x, u2.value.x), u3.value.x))), st)
  {
    var us := [u1, u2, u3];
    EvalArgsThree(e1, e2, e3, u1, u2, u3, st);
    EvalBuiltinToks(name, [e1, e2, e3], us, st);
    FoldOfThree(FunctionTable[Sym(name)], us);
  }

  /** The fold over two numeric tokens is one application of the operator. */
  lemma FoldOfTwo(op: Op, us: seq<Tok>)
    requires |us| == 2 && NumericTok(us[0]) && NumericTok(us[1])
    requires op == Div ==> us[1].value != Num(0.0)
    ensures var xs := Payloads(us);
      RealFold(op, xs[0], xs[1..]) == RealOp(op, us[0].value.x, us[1].value.x)
  {
    var xs := Payloads(us);
    assert xs[1..] == [us[1].value.x] && xs[1..][1..] == [];
  }

  /** The fold over three numeric tokens applies the operator left to right. */
  lemma FoldOfThree(op: Op, us: seq<Tok>)
    requires |us| == 3 && NumericTok(us[0]) && NumericTok(us[1]) && NumericTok(us[2]) && op != Div
    ensures var xs := Payloads(us);
      RealFold(op, xs[0], xs[1..]) == RealOp(op, RealOp(op, us[0].value.x, us[1].value.x), us[2].value.x)
  {
    var xs := Payloads(us);
    var x3 := us[2].value.x;
    var x12 := RealOp(op, us[0].value.x, us[1].value.x);
    assert xs[0] == us[0].value.x && xs[1..] == [us[1].value.x, x3] && xs[1..][1..] == [x3];
    assert RealFold(op, xs[0], xs[1..]) == RealFold(op, x12, [x3]);
    assert [x3][1..] == [];
    assert RealFold(op, x12, [x3]) == RealFold(op, RealOp(op, x12, x3), []);
  }

  /** `(op m n)` on two integer literals. */
  lemma EvalIntPair(name: string, m: int, n: int, st: Env)
    requires Sym(name) in FunctionTable
    requires FunctionTable[Sym(name)] == Div ==> n != 0
    ensures Eval(Form(Sym(name), Atoms([IntTok(m), IntTok(n)])), map[], st)
      == Done(VTok(FloTok(RealOp(FunctionTable[Sym(name)], m as real, n as real))), st)
  {
    assert Atoms([IntTok(m), IntTok(n)]) == [Atom(IntTok(m)), Atom(IntTok(n))];
    EvalPair(name, Atom(IntTok(m)), Atom(IntTok(n)), IntTok(m), IntTok(n), st);
  }

  /** The four arithmetic builtins by name. */
  lemma ArithmeticTable()
    ensures Sym("+") in FunctionTable && FunctionTable[Sym("+")] == Add
    ensures Sym("-") in FunctionTable && FunctionTable[Sym("-")] == Sub
    ensures Sym("*") in FunctionTable && FunctionTable[Sym("*")] == Mul
    ensures Sym("/") in FunctionTable && FunctionTable[Sym("/")] == Div
  {
  }

  lemma MixedValues()
    ensures RealOp(Add, 1 as real, 2 as real) == 3.0 && RealOp(Sub, 2 as real, 4 as real) == -2.0
    ensures RealOp(Div, 1 as real, 2 as real) == 0.5 && RealOp(Mul, RealOp(Mul, 3.0, -2.0), 0.5) == -3.0
  {
  }

  /** `(* (+ 1 2) (- 2 4) (/ 1 2))` is FLO -3. */
  lemma ExampleMixed(st: Env)
    ensures Eval(Form(Sym("*"), [Form(Sym("+"), Atoms([IntTok(1), IntTok(2)])),
                                 Form(Sym("-"), Atoms([IntTok(2), IntTok(4)])),
                                 Form(Sym("/"), Atoms([IntTok(1), IntTok(2)]))]), map[], st)
      == Done(VTok(FloTok(-3.0)), st)
  {
    ArithmeticTable();
    MixedValues();
    EvalIntPair("+", 1, 2, st);
    EvalIntPair("-", 2, 4, st);
    EvalIntPair("/", 1, 2, st);
    EvalTriple("*", Form(Sym("+"), Atoms([IntTok(1), IntTok(2)])), Form(Sym("-"), Atoms([IntTok(2), IntTok(4)])),
               Form(Sym("/"), Atoms([IntTok(1), IntTok(2)])), FloTok(3.0), FloTok(-2.0), FloTok(0.5), st);
  }

  /** `(+ 1 (+ (+ 1 1) 1) (+ (+ (+ (+ 1 1) 1) 1) (+ 1 1)))` is FLO 10. */
  lemma ExampleDeepSum(st: Env)
    ensures
      var one := Atom(IntTok(1));
      var two := Form(Sym("+"), [one, one]);
      var three := Form(Sym("+"), [two, one]);
      var four := Form(Sym("+"), [three, one]);
      Eval(Form(Sym("+"), [one, three, Form(Sym("+"), [four, two])]), map[], st)
        == Done(VTok(FloTok(10.0)), st)
  {
    var one := Atom(IntTok(1));
    var two := Form(Sym("+"), [one, one]);
    var three := Form(Sym("+"), [two, one]);
    var four := Form(Sym("+"), [three, one]);
    var six := Form(Sym("+"), [four, two]);
    EvalPair("+", one, one, IntTok(1), IntTok(1), st);
    EvalPair("+", two, one, FloTok(2.0), IntTok(1), st);
    EvalPair("+", three, one, FloTok(3.0), IntTok(1), st);
    EvalPair("+", four, two, FloTok(4.0), FloTok(2.0), st);
    EvalTriple("+", one, three, six, IntTok(1), FloTok(3.0), FloTok(6.0), st);
  }

  /** `(* 1 (* 4 4) (* 4 4) (* 4 4) (* 4 4) (* 4 4) (* 4 4) (* 4 4))` is FLO 268435456. */
  lemma ExampleSevenSquares(st: Env)
    ensures
      var sq := Form(Sym("*"), Atoms([IntTok(4), IntTok(4)]));
      Eval(Form(Sym("*"), [Atom(IntTok(1)), sq, sq, sq, sq, sq, sq, sq]), map[], st)
        == Done(VTok(FloTok(268435456.0)), st)
  {
    var sq := Form(Sym("*"), Atoms([IntTok(4), IntTok(4)]));
    EvalIntPair("*", 4, 4, st);
    ProductOfSquares(Atom(IntTok(1)), sq, st);
  }

  /** `(* one sq sq sq sq sq sq sq)` where `one` is the INT 1 and `sq` is FLO 16. */
  lemma ProductOfSquares(one: Expr, sq: Expr, st: Env)
    requires Eval(one, map[], st) == Done(VTok(IntTok(1)), st)
    requires Eval(sq, map[], st) == Done(VTok(FloTok(16.0)), st)
    ensures Eval(Form(Sym("*"), [one, sq, sq, sq, sq, sq, sq, sq]), map[], st)
      == Done(VTok(FloTok(268435456.0)), st)
  {
    var es := [one, sq, sq, sq, sq, sq, sq, sq];
    var s16 := FloTok(16.0);
    var us := [IntTok(1), s16, s16, s16, s16, s16, s16, s16];
    SquaresArgs(one, sq, es, us, st);
    assert Sym("*") in FunctionTable && FunctionTable[Sym("*")] == Mul;
    EvalBuiltinOf("*", es, us, st);
    SquaresPayloads(us);
    SevenSquaresValue();
  }

  /** Each argument of the product evaluates to its token without touching the table. */
  lemma SquaresArgs(one: Expr, sq: Expr, es: seq<Expr>, us: seq<Tok>, st: Env)
    requires Eval(one, map[], st) == Done(VTok(IntTok(1)), st)
    requires Eval(sq, map[], st) == Done(VTok(FloTok(16.0)), st)
    requires es == [one, sq, sq, sq, sq, sq, sq, sq]
    requires us == [IntTok(1), FloTok(16.0), FloTok(16.0), FloTok(16.0), FloTok(16.0), FloTok(16.0), FloTok(16.0), FloTok(16.0)]
    ensures forall i :: 0 <= i < 8 ==> Eval(es[i], map[], st) == Done(VTok(us[i]), st) && NumericTok(us[i])
  {
    forall i | 0 <= i < 8
      ensures Eval(es[i], map[], st) == Done(VTok(us[i]), st) && NumericTok(us[i])
    {
      if i > 0 {
        assert es[i] == sq && us[i] == FloTok(16.0);
      }
    }
  }

  /** The payloads of the product's arguments: 1, then seven times 16. */
  lemma SquaresPayloads(us: seq<Tok>)
    requires us == [IntTok(1), FloTok(16.0), FloTok(16.0), FloTok(16.0), FloTok(16.0), FloTok(16.0), FloTok(16.0), FloTok(16.0)]
    ensures Payloads(us)[0] == 1.0 && Payloads(us)[1..] == [16.0, 16.0, 16.0, 16.0, 16.0, 16.0, 16.0]
  {
    assert forall i :: 1 <= i < 8 ==> us[i] == FloTok(16.0);
  }

  lemma SevenSquaresValue()
    ensures RealFold(Mul, 1.0, [16.0, 16.0, 16.0, 16.0, 16.0, 16.0, 16.0]) == 268435456.0
  {
    var xs := [16.0, 16.0, 16.0, 16.0, 16.0, 16.0, 16.0];
    assert RealFold(Mul, 1.0, xs) == RealFold(Mul, 16.0, xs[1..]);
    assert RealFold(Mul, 16.0, xs[1..]) == RealFold(Mul, 256.0, xs[2..]);
    assert RealFold(Mul, 256.0, xs[2..]) == RealFold(Mul, 4096.0, xs[3..]);
    assert RealFold(Mul, 4096.0, xs[3..]) == RealFold(Mul, 65536.0, xs[4..]);
    assert RealFold(Mul, 65536.0, xs[4..]) == RealFold(Mul, 1048576.0, xs[5..]);
    assert RealFold(Mul, 1048576.0, xs[5..]) == RealFold(Mul, 16777216.0, xs[6..]);
    assert RealFold(Mul, 16777216.0, xs[6..]) == RealFold(Mul, 268435456.0, xs[7..]);
    assert xs[7..] == [];
  }

  /** `(* (/ 1 3) 3)` is FLO 1: payloads are exact, so the thirds cancel. */
  lemma ExampleThirdTimesThree(st: Env)
    ensures Eval(Form(Sym("*"), [Form(Sym("/"), Atoms([IntTok(1), IntTok(3)])), Atom(IntTok(3))]), map[], st)
      == Done(VTok(FloTok(1.0)), st)
  {
    ArithmeticTable();
    assert RealOp(Div, 1 as real, 3 as real) == 1.0 / 3.0 && RealOp(Mul, 1.0 / 3.0, 3 as real) == 1.0;
    EvalIntPair("/", 1, 3, st);
    EvalPair("*", Form(Sym("/"), Atoms([IntTok(1), IntTok(3)])), Atom(IntTok(3)), FloTok(1.0 / 3.0), IntTok(3), st);
  }

  /** A `let` whose declarations bind in order to `st1` evaluates its body
      against `st1`. */
  lemma EvalLetBound(ds: seq<Expr>, body: Expr, scope: Env, st: Env, st1: Env)
    requires Bind(ds, st) == Some(st1)
    ensures Eval(Form(Sym("let"), [List(ds), body]), scope, st) == Eval(body, scope, st1)
  {
    assert Sym("let") !in FunctionTable;
    var args := [List(ds), body];
    assert args[1..] == [body];
    assert LetForm(args, scope, st) == Eval(List([body]), scope, st1);
    assert MacroTable[Sym("let")] == Let;
    assert ([Atom(Sym("let"))] + args)[1..] == args;
  }

  /** A declaration `(x n)` binding a name to an integer literal. */
  function IntDecl(x: Tok, n: int): Expr {
    List([Atom(x), Atom(IntTok(n))])
  }

  /** Storing one integer declaration, then the rest. */
  lemma BindIntDecl(x: Tok, n: int, ds: seq<Expr>, st: Env)
    ensures Bind([IntDecl(x, n)] + ds, st) == Bind(ds, st[x := VTok(IntTok(n))])
  {
    assert Eval(Atom(IntTok(n)), map[], st) == Done(VTok(IntTok(n)), st);
    BindStep(x, Atom(IntTok(n)), [], ds, st, VTok(IntTok(n)), st);
    assert [Atom(x), Atom(IntTok(n))] + [] == [Atom(x), Atom(IntTok(n))];
  }

  /** Three integer declarations store their values in order. */
  lemma BindThree(a: Tok, b: Tok, c: Tok, l: int, m: int, n: int, st: Env)
    ensures Bind([IntDecl(a, l), IntDecl(b, m), IntDecl(c, n)], st)
      == Some(st[a := VTok(IntTok(l))][b := VTok(IntTok(m))][c := VTok(IntTok(n))])
  {
    var ds := [IntDecl(a, l), IntDecl(b, m), IntDecl(c, n)];
    var st1 := st[a := VTok(IntTok(l))];
    var st2 := st1[b := VTok(IntTok(m))];
    BindIntDecl(a, l, ds[1..], st);
    BindIntDecl(b, m, ds[2..], st1);
    BindIntDecl(c, n, [], st2);
    assert ds == [IntDecl(a, l)] + ds[1..] && ds[1..] == [IntDecl(b, m)] + ds[2..];
    assert ds[2..] == [IntDecl(c, n)] + [];
  }

  /** `(+ a b c)` over three distinct symbols bound to integers is FLO of their sum. */
  lemma SumOfThreeBound(a: Tok, b: Tok, c: Tok, l: int, m: int, n: int, st: Env)
    requires a.kind == SYM && b.kind == SYM && c.kind == SYM
    requires a in st && b in st && c in st
    requires st[a] == VTok(IntTok(l)) && st[b] == VTok(IntTok(m)) && st[c] == VTok(IntTok(n))
    ensures Eval(Form(Sym("+"), Atoms([a, b, c])), map[], st) == Done(VTok(FloTok((l + m + n) as real)), st)
  {
    assert Atoms([a, b, c]) == [Atom(a), Atom(b), Atom(c)];
    assert Eval(Atom(a), map[], st) == Done(VTok(IntTok(l)), st);
    assert Eval(Atom(b), map[], st) == Done(VTok(IntTok(m)), st);
    assert Eval(Atom(c), map[], st) == Done(VTok(IntTok(n)), st);
    EvalTriple("+", Atom(a), Atom(b), Atom(c), IntTok(l), IntTok(m), IntTok(n), st);
  }

  /** `(let ((a 10) (b 20) (c 30)) (+ a b c))` is FLO 60, and the three
      bindings remain in the table. */
  lemma ExampleLetThree(st: Env)
    ensures
      var a, b, c := Sym("a"), Sym("b"), Sym("c");
      Eval(Form(Sym("let"), [List([IntDecl(a, 10), IntDecl(b, 20), IntDecl(c, 30)]), Form(Sym("+"), Atoms([a, b, c]))]), map[], st)
        == Done(VTok(FloTok(60.0)), st[a := VTok(IntTok(10))][b := VTok(IntTok(20))][c := VTok(IntTok(30))])
  {
    var a, b, c := Sym("a"), Sym("b"), Sym("c");
    var st3 := st[a := VTok(IntTok(10))][b := VTok(IntTok(20))][c := VTok(IntTok(30))];
    BindThree(a, b, c, 10, 20, 30, st);
    EvalLetBound([IntDecl(a, 10), IntDecl(b, 20), IntDecl(c, 30)], Form(Sym("+"), Atoms([a, b, c])), map[], st, st3);
    assert a != b && a != c && b != c;
    SumOfThreeBound(a, b, c, 10, 20, 30, st3);
  }

  /** `(+ a b)` over two distinct symbols bound to integers is FLO of their sum. */
  lemma SumOfTwoBound(a: Tok, b: Tok, l: int, m: int, st: Env)
    requires a.kind == SYM && b.kind == SYM
    requires a in st && b in st && st[a] == VTok(IntTok(l)) && st[b] == VTok(IntTok(m))
    ensures Eval(Form(Sym("+"), Atoms([a, b])), map[], st) == Done(VTok(FloTok((l + m) as real)), st)
  {
    assert Atoms([a, b]) == [Atom(a), Atom(b)];
    assert Eval(Atom(a), map[], st) == Done(VTok(IntTok(l)), st);
    assert Eval(Atom(b), map[], st) == Done(VTok(IntTok(m)), st);
    EvalPair("+", Atom(a), Atom(b), IntTok(l), IntTok(m), st);
  }

  /** A one-declaration `let` binding a name to an integer literal. */
  lemma LetIntDecl(x: Tok, n: int, body: Expr, st: Env)
    ensures Eval(Form(Sym("let"), [List([IntDecl(x, n)]), body]), map[], st)
      == Eval(body, map[], st[x := VTok(IntTok(n))])
  {
    BindIntDecl(x, n, [], st);
    assert [IntDecl(x, n)] + [] == [IntDecl(x, n)];
    EvalLetBound([IntDecl(x, n)], body, map[], st, st[x := VTok(IntTok(n))]);
  }

  /** `(let ((a 1)) (let ((b 2)) (+ a b)))` is FLO 3, and both bindings remain. */
  lemma ExampleLetOneTwo(st: Env)
    ensures
      var a, b := Sym("a"), Sym("b");
      var inner := Form(Sym("let"), [List([IntDecl(b, 2)]), Form(Sym("+"), Atoms([a, b]))]);
      Eval(Form(Sym("let"), [List([IntDecl(a, 1)]), inner]), map[], st)
        == Done(VTok(FloTok(3.0)), st[a := VTok(IntTok(1))][b := VTok(IntTok(2))])
  {
    var a, b := Sym("a"), Sym("b");
    var st1 := st[a := VTok(IntTok(1))];
    var q := Form(Sym("+"), Atoms([a, b]));
    LetIntDecl(a, 1, Form(Sym("let"), [List([IntDecl(b, 2)]), q]), st);
    LetIntDecl(b, 2, q, st1);
    assert a != b;
    SumOfTwoBound(a, b, 1, 2, st1[b := VTok(IntTok(2))]);
  }

  /** `(+ (- -5) 3)` is FLO -2: `-5` is a symbol, so the inner fold hands
      its text back in a FLO token, and the outer fold reads that text with
      `float()`. */
  lemma ExampleNegatedLiteral(st: Env)
    requires Sym("-5") !in st
    ensures Eval(Form(Sym("+"), [Form(Sym("-"), [Atom(Sym("-5"))]), Atom(IntTok(3))]), map[], st)
      == Done(VTok(FloTok(-2.0)), st)
  {
    var w := "5";
    assert IsNumeric(w) && DecimalValue(w) == 5;
    assert "-" + w == "-5";
    ParseFloatNegDigits(w);
    EvalSumOfPassedText("-", "-5", -5.0, 3, st);
  }

  /** `(+ (op t) i)` for an unbound symbol `t`: the inner fold passes the
      text of `t` through in a FLO token, and the sum reads that text with
      `float()`. */
  lemma EvalSumOfPassedText(name: string, t: string, x: real, i: int, st: Env)
    requires Sym(name) in FunctionTable
    requires |t| >= 2 && Sym(t) !in st
    requires TokValue(Tok(Text(t), FLO)) == Some(PFloat(x))
    ensures Eval(Form(Sym("+"), [Form(Sym(name), [Atom(Sym(t))]), Atom(IntTok(i))]), map[], st)
      == Done(VTok(FloTok(x + i as real)), st)
  {
    NotBuiltin(t);
    EvalSingleSymbol(name, t, st);
    EvalSumWithInt(Form(Sym(name), [Atom(Sym(t))]), Tok(Text(t), FLO), x, i, st);
  }

  /** The builtin names are one character long. */
  lemma NotBuiltin(name: string)
    requires |name| >= 2
    ensures Sym(name) !in FunctionTable
  {
  }

  /** `(+ e i)` where `e` evaluates to a token `tokv` reads as a float. */
  lemma EvalSumWithInt(e: Expr, a: Tok, x: real, i: int, st: Env)
    requires Eval(e, map[], st) == Done(VTok(a), st)
    requires TokValue(a) == Some(PFloat(x))
    ensures Eval(Form(Sym("+"), [e, Atom(IntTok(i))]), map[], st) == Done(VTok(FloTok(x + i as real)), st)
  {
    EvalArgsAfter(e, IntTok(i), VTok(a), st);
    assert Sym("+") in FunctionTable && FunctionTable[Sym("+")] == Add;
    EvalBuiltinForm("+", [e, Atom(IntTok(i))], map[], st);
    ToksOf([VTok(a), VTok(IntTok(i))], [a, IntTok(i)]);
    FoldFloatInt(a, x, i);
  }

  lemma ToksOf(vs: seq<Val>, ts: seq<Tok>)
    requires |vs| == |ts| && forall i :: 0 <= i < |vs| ==> vs[i] == VTok(ts[i])
    ensures Toks(vs) == Some(ts)
  {
    var r := Toks(vs).value;
    assert forall i :: 0 <= i < |vs| ==> r[i] == ts[i];
  }

  /** A builtin applied to one unbound symbol returns the symbol's text as FLO. */
  lemma EvalSingleSymbol(name: string, w: string, st: Env)
    requires Sym(name) in FunctionTable
    requires Sym(w) !in st && Sym(w) !in FunctionTable
    ensures Eval(Form(Sym(name), [Atom(Sym(w))]), map[], st) == Done(VTok(Tok(Text(w), FLO)), st)
  {
    var n := Sym(w);
    assert Atoms([n]) == [Atom(n)];
    EvalArgsAtoms([n], map[], st);
    var r := EvalArgs([Atom(n)], map[], st);
    assert r.val == [VTok(n)];
    EvalBuiltinForm(name, [Atom(n)], map[], st);
    ToksOf([VTok(n)], [n]);
    FoldSingle(FunctionTable[Sym(name)], n);
  }

  /** A form whose value is known, followed by a number atom. */
  lemma EvalArgsAfter(e: Expr, t: Tok, v: Val, st: Env)
    requires Eval(e, map[], st) == Done(v, st)
    requires t.kind == INT
    ensures EvalArgs([e, Atom(t)], map[], st) == Done([v, VTok(t)], st)
  {
    var args := [e, Atom(t)];
    assert args[1..] == Atoms([t]);
    EvalArgsAtoms([t], map[], st);
    var r := EvalArgs(Atoms([t]), map[], st);
    assert r.val == [VTok(t)];
    assert args[0] == e && args != [];
    assert EvalArgs(args[1..], map[], st) == r;
    assert EvalArgs(args, map[], st) == Done([v] + r.val, r.st);
    assert r.st == st;
    assert [v] + r.val == [v, VTok(t)];
  }
}

=== FILE: tokens.dfy ===
/** The token value type: a classified run of source text.  A token is a
    payload together with a kind tag; equality and hashing look at both.
    The integer/float distinction of Python payloads is not kept: both are
    exact reals, so `Tok(6, FLO)` and `Tok(6.0, FLO)` are the same token,
    as they are equal in the source. */
module Tokens {
  import opened Wrappers
  import opened Digits

  datatype Kind = INT | FLO | SYM | FUN

  /** A payload is a number or a text.  No payload is a callable. */
  datatype Payload = Num(x: real) | Text(s: string)

  datatype Tok = Tok(value: Payload, kind: Kind)

  const LeftParen := Tok(Text("("), SYM)
  const RightParen := Tok(Text(")"), SYM)

  /** `Tok.__eq__`: same value and same kind. */
  predicate TokEq(a: Tok, b: Tok) {
    a.value == b.value && a.kind == b.kind
  }

  /** `Tok.__hash__` hashes the pair (value, kind); the pair stands for the hash. */
  function HashKey(t: Tok): (Payload, Kind) {
    (t.value, t.kind)
  }

  /** Token equality is exactly equality of the modelled values, and equal
      tokens hash equally, so a Python dict keyed by tokens behaves as a
      Dafny map keyed by `Tok`. */
  lemma TokEqIsIdentity(a: Tok, b: Tok)
    ensures TokEq(a, b) <==> a == b
    ensures TokEq(a, b) ==> HashKey(a) == HashKey(b)
  {
  }

  // ---------------------------------------------------------------------
  // Splitting on '.' (str.split(".")) and joining back ('.'.join)

  function JoinDots(parts: seq<string>): string
    requires |parts| >= 1
  {
    if |parts| == 1 then parts[0] else parts[0] + "." + JoinDots(parts[1..])
  }

  function DotCount(w: string): nat {
    if w == [] then 0 else (if w[0] == '.' then 1 else 0) + DotCount(w[1..])
  }

  /** `w.split(".")`: the pieces between dots, one more piece than dots. */
  function SplitDots(w: string): (parts: seq<string>)
    ensures |parts| == 1 + DotCount(w)
    ensures forall i :: 0 <= i < |parts| ==> '.' !in parts[i]
    ensures JoinDots(parts) == w
  {
    if w == [] then [""]
    else
      var rest := SplitDots(w[1..]);
      if w[0] == '.' then
        assert JoinDots([""] + rest) == "" + "." + JoinDots(rest);
        [""] + rest
      else
        var parts := [[w[0]] + rest[0]] + rest[1..];
        assert parts[1..] == rest[1..];
        assert w == [w[0]] + w[1..];
        parts
  }

  lemma {:induction false} DotCountZero(w: string)
    ensures DotCount(w) == 0 <==> '.' !in w
  {
    if w != [] {
      DotCountZero(w[1..]);
      assert w == [w[0]] + w[1..];
    }
  }

  /** Two pieces means one dot, and the pieces are the text on either side of it. */
  lemma {:induction false} SplitTwoShape(w: string)
    requires |SplitDots(w)| == 2
    ensures var k := |SplitDots(w)[0]|;
      k < |w| && w[k] == '.' && SplitDots(w)[0] == w[..k] && SplitDots(w)[1] == w[k + 1..]
  {
    var parts := SplitDots(w);
    var rest := SplitDots(w[1..]);
    if w[0] == '.' {
      assert |rest| == 1;
      assert rest[0] == JoinDots(rest) == w[1..];
    } else {
      SplitTwoShape(w[1..]);
    }
  }

  /** The converse: a string with exactly one dot splits into the text on either side. */
  lemma SplitAtOnlyDot(w: string, k: nat)
    requires k < |w| && w[k] == '.'
    requires '.' !in w[..k] && '.' !in w[k + 1..]
    ensures SplitDots(w) == [w[..k], w[k + 1..]]
  {
    var parts := SplitDots(w);
    assert DotCount(w) == 1 by {
      DotCountSplit(w, k);
      DotCountZero(w[..k]);
      DotCountZero(w[k + 1..]);
    }
    SplitTwoShape(w);
    var j := |parts[0]|;
    NoDotBefore(w, k);
    NoDotBefore(w, j);
  }

  lemma NoDotBefore(w: string, n: nat)
    requires n <= |w| && '.' !in w[..n]
    ensures forall i :: 0 <= i < n ==> w[i] != '.'
  {
    forall i | 0 <= i < n
      ensures w[i] != '.'
    {
      assert w[..n][i] == w[i];
    }
  }

  lemma {:induction false} DotCountSplit(w: string, k: nat)
    requires k < |w| && w[k] == '.'
    ensures DotCount(w) == DotCount(w[..k]) + 1 + DotCount(w[k + 1..])
  {
    if k == 0 {
      assert w[..0] == [];
    } else {
      DotCountSplit(w[1..], k - 1);
      assert w[1..][..k - 1] == w[..k][1..];
      assert w[1..][k..] == w[k + 1..];
    }
  }

  // ---------------------------------------------------------------------
  // Classification of a run (determine)

  /** `w` is `digits.digits` with its only dot at index `k`. */
  predicate FloatAt(w: string, k: int) {
    0 <= k < |w| && w[k] == '.' && IsNumeric(w[..k]) && IsNumeric(w[k + 1..])
  }

  predicate IsFloatText(w: string) {
    exists k :: 0 <= k < |w| && FloatAt(w, k)
  }

  /** The value `float()` reads from integer and fraction digit strings, exactly. */
  function FloatValue(intPart: string, fracPart: string): real
    requires AllDigits(intPart) && AllDigits(fracPart)
  {
    DecimalValue(intPart) as real + DecimalValue(fracPart) as real / Pow10(|fracPart|) as real
  }

  /** `determine`: an all-digit run is an INT, a `digits.digits` run is a FLO,
      any other run with a dot is no token at all, and every remaining run is
      a SYM holding its own text (this includes "(", ")", "+" and "-5"). */
  function Determine(w: string): (r: Option<Tok>)
    ensures IsNumeric(w) ==> r == Some(Tok(Num(DecimalValue(w) as real), INT))
    ensures forall k :: FloatAt(w, k) ==> r == Some(Tok(Num(FloatValue(w[..k], w[k + 1..])), FLO))
    ensures '.' !in w && !IsNumeric(w) ==> r == Some(Tok(Text(w), SYM))
    ensures '.' in w && !IsFloatText(w) ==> r == None
  {
    if IsNumeric(w) then Some(Tok(Num(DecimalValue(w) as real), INT))
    else if '.' in w then
      var parts := SplitDots(w);
      if |parts| == 2 && IsNumeric(parts[0]) && IsNumeric(parts[1]) then
        SplitTwoShape(w);
        assert FloatAt(w, |parts[0]|);
        Some(Tok(Num(FloatValue(parts[0], parts[1])), FLO))
      else
        assert forall k :: FloatAt(w, k) ==> false by {
          forall k | FloatAt(w, k)
            ensures false
          {
            SplitAtOnlyDot(w, k);
          }
        }
        None
    else Some(Tok(Text(w), SYM))
  }

  /** The four classes of `determine` are told apart by the shape of the run alone. */
  lemma DetermineKinds(w: string)
    ensures Determine(w).Some? && Determine(w).value.kind == INT <==> IsNumeric(w)
    ensures Determine(w).Some? && Determine(w).value.kind == FLO <==> IsFloatText(w)
    ensures Determine(w).Some? && Determine(w).value.kind == SYM <==> '.' !in w && !IsNumeric(w)
    ensures Determine(w).None? <==> '.' in w && !IsFloatText(w)
    ensures Determine(w).Some? ==> Determine(w).value.kind != FUN
  {
  }

  /** The parenthesis tokens come from the one-character runs "(" and ")"
      and from nothing else. */
  lemma DetermineParen(w: string)
    ensures Determine(w) == Some(LeftParen) <==> w == "("
    ensures Determine(w) == Some(RightParen) <==> w == ")"
  {
    if w == "(" || w == ")" {
      assert !IsDigit(w[0]) && '.' !in w;
    }
  }

  // ---------------------------------------------------------------------
  // float() of a text

  predicate IsExpMark(c: char) {
    c == 'e' || c == 'E'
  }

  /** The index of the first exponent mark, or the length when there is none. */
  function ExpIndex(w: string): (k: nat)
    ensures k <= |w|
    ensures k < |w| ==> IsExpMark(w[k])
    ensures forall i :: 0 <= i < k ==> !IsExpMark(w[i])
  {
    if w == [] then 0
    else if IsExpMark(w[0]) then 0
    else
      var k := ExpIndex(w[1..]);
      assert forall i :: 1 <= i < k + 1 ==> w[i] == w[1..][i - 1];
      k + 1
  }

  /** The digits part of a decimal literal: `digits`, `digits.`, `.digits`
      or `digits.digits`, read exactly. */
  function MantissaValue(w: string): Option<real> {
    if '.' !in w then
      if IsNumeric(w) then Some(DecimalValue(w) as real) else None
    else
      var parts := SplitDots(w);
      if |parts| == 2 && AllDigits(parts[0]) && AllDigits(parts[1]) && |w| >= 2
      then Some(FloatValue(parts[0], parts[1]))
      else None
  }

  /** An exponent: an optional sign, then digits. */
  function ExponentValue(w: string): Option<int> {
    var neg := |w| > 0 && w[0] == '-';
    var d := if |w| > 0 && (w[0] == '-' || w[0] == '+') then w[1..] else w;
    if IsNumeric(d) then Some(if neg then -(DecimalValue(d) as int) else DecimalValue(d) as int) else None
  }

  /** Ten to the power `e`, for a negative `e` too. */
  function Scale(e: int): (r: real)
    ensures r > 0.0
  {
    if e >= 0 then Pow10(e) as real else 1.0 / Pow10(-e) as real
  }

  /** A decimal literal without its sign: the digits part, then an optional
      exponent `e`/`E` with optional sign and digits. */
  function UnsignedFloat(b: string): Option<real> {
    var k := ExpIndex(b);
    var m := MantissaValue(b[..k]);
    var e := if k == |b| then Some(0) else ExponentValue(b[k + 1..]);
    if m.None? || e.None? then None else Some(m.value * Scale(e.value))
  }

  /** `float(s)` on a decimal literal: an optional sign, then an unsigned
      literal.  The value is exact; any other text raises. */
  function ParseFloat(s: string): Option<real> {
    if |s| > 0 && s[0] == '-' then
      (if UnsignedFloat(s[1..]).Some? then Some(-UnsignedFloat(s[1..]).value) else None)
    else if |s| > 0 && s[0] == '+' then UnsignedFloat(s[1..])
    else UnsignedFloat(s)
  }

  /** A literal without exponent mark is read as its digits part alone. */
  lemma UnsignedFloatPlain(w: string)
    requires forall i :: 0 <= i < |w| ==> !IsExpMark(w[i])
    ensures UnsignedFloat(w) == MantissaValue(w)
  {
    assert w[..|w|] == w;
  }

  /** Without sign or exponent mark, `float()` reads the digits part alone. */
  lemma ParseFloatPlain(w: string)
    requires w != [] && w[0] != '-' && w[0] != '+'
    requires forall i :: 0 <= i < |w| ==> !IsExpMark(w[i])
    ensures ParseFloat(w) == MantissaValue(w)
  {
    UnsignedFloatPlain(w);
  }

  /** A leading `-` negates what follows, a leading `+` leaves it. */
  lemma ParseFloatSigned(s: string)
    requires |s| > 0 && (s[0] == '-' || s[0] == '+')
    requires forall i :: 1 <= i < |s| ==> !IsExpMark(s[i])
    ensures var m := MantissaValue(s[1..]);
      ParseFloat(s) == if m.None? then None else if s[0] == '-' then Some(-m.value) else m
  {
    assert forall i :: 0 <= i < |s[1..]| ==> s[1..][i] == s[i + 1];
    UnsignedFloatPlain(s[1..]);
  }

  /** A minus sign in front of digits is read as the negated integer. */
  lemma ParseFloatNegDigits(w: string)
    requires IsNumeric(w)
    ensures ParseFloat("-" + w) == Some(-(DecimalValue(w) as real))
  {
    var s := "-" + w;
    assert s[1..] == w && s[0] == '-';
    assert '.' !in w;
    ParseFloatSigned(s);
  }

  /** `float()` reads every number `determine` recognises as the same value:
      an integer run as its integer, a `digits.digits` run as its float. */
  lemma ParseFloatOfDetermined(w: string)
    requires Determine(w).Some? && Determine(w).value.kind != SYM
    ensures ParseFloat(w) == Some(Determine(w).value.value.x)
  {
    DetermineKinds(w);
    if IsNumeric(w) {
      ParseFloatOfDigits(w);
    } else {
      var k :| 0 <= k < |w| && FloatAt(w, k);
      ParseFloatOfDecimal(w, k);
    }
  }

  lemma ParseFloatOfDigits(w: string)
    requires IsNumeric(w)
    ensures ParseFloat(w) == Some(DecimalValue(w) as real)
  {
    ParseFloatPlain(w);
  }

  lemma ParseFloatOfDecimal(w: string, k: nat)
    requires FloatAt(w, k)
    ensures ParseFloat(w) == Some(FloatValue(w[..k], w[k + 1..]))
  {
    forall i | 0 <= i < |w|
      ensures !IsExpMark(w[i])
    {
      if i < k { assert w[..k][i] == w[i]; }
      if i > k { assert w[k + 1..][i - k - 1] == w[i]; }
    }
    assert w[..k][0] == w[0];
    ParseFloatPlain(w);
    SplitAtOnlyDot(w, k);
  }

  // ---------------------------------------------------------------------
  // Payload extraction (tokv, toklv)

  /** The Python value `tokv` hands to the arithmetic builtins. */
  datatype PyVal = PInt(i: int) | PFloat(x: real) | PStr(s: string)

  /** `int(x)` on a float truncates toward zero. */
  function Trunc(x: real): (i: int)
    ensures x >= 0.0 ==> i as real <= x < i as real + 1.0
    ensures x < 0.0 ==> i as real - 1.0 < x <= i as real
  {
    if x >= 0.0 then x.Floor else -((-x).Floor)
  }

  /** `tokv`: an INT payload through `int()`, a FLO payload through
      `float()` (which also reads the text a fold over strings leaves in a
      FLO token), a SYM payload through `str()`, and a FUN payload as it is.
      The two pairings no part of the program builds (a text INT, a numeric
      SYM) give no value, as does a FLO text `float()` rejects. */
  function TokValue(t: Tok): (r: Option<PyVal>)
    ensures t.kind == INT && t.value.Num? && t.value.x == t.value.x.Floor as real
      ==> r == Some(PInt(t.value.x.Floor))
    ensures t.kind == FLO && t.value.Num? ==> r == Some(PFloat(t.value.x))
    ensures t.kind == FLO && t.value.Text? && ParseFloat(t.value.s).Some?
      ==> r == Some(PFloat(ParseFloat(t.value.s).value))
    ensures t.kind == SYM && t.value.Text? ==> r == Some(PStr(t.value.s))
    ensures t.kind == FUN && t.value.Text? ==> r == Some(PStr(t.value.s))
    ensures r.None? <==>
      || (t.kind == INT && t.value.Text?)
      || (t.kind == SYM && t.value.Num?)
      || (t.kind == FLO && t.value.Text? && ParseFloat(t.value.s).None?)
  {
    match (t.kind, t.value)
    case (INT, Num(x)) => Some(PInt(Trunc(x)))
    case (FLO, Num(x)) => Some(PFloat(x))
    case (FLO, Text(s)) => if ParseFloat(s).Some? then Some(PFloat(ParseFloat(s).value)) else None
    case (SYM, Text(s)) => Some(PStr(s))
    case (FUN, Text(s)) => Some(PStr(s))
    case (FUN, Num(x)) => Some(PFloat(x))
    case _ => None
  }

  /** `toklv`: `tokv` over a list, in order, failing if any element fails. */
  function TokValues(ts: seq<Tok>): (r: Option<seq<PyVal>>)
    ensures r.Some? <==> forall i :: 0 <= i < |ts| ==> TokValue(ts[i]).Some?
    ensures r.Some? ==> |r.value| == |ts|
    ensures r.Some? ==> forall i :: 0 <= i < |ts| ==> r.value[i] == TokValue(ts[i]).value
  {
    if ts == [] then Some([])
    else
      match (TokValue(ts[0]), TokValues(ts[1..]))
      case (Some(v), Some(vs)) => Some([v] + vs)
      case (None, _) => None
      case (_, None) =>
        assert forall i :: 0 <= i < |ts| - 1 ==> ts[1..][i] == ts[i + 1];
        None
  }

  // ---------------------------------------------------------------------
  // Display form (Tok.__str__)

  function KindTag(k: Kind): (tag: string)
    ensures |tag| == 2
  {
    match k
    case INT => "i:"
    case FLO => "f:"
    case SYM => "s:"
    case FUN => "\U{03BB}:"
  }

  /** `Tok.__str__`: the kind's tag, then the payload as `str()` writes it.
      Integer payloads of INT tokens print as integers; every other number is
      printed by `floatText`, which stands for Python's float formatting. */
  function Show(t: Tok, floatText: real -> string): (r: string)
    ensures |r| >= 2 && r[..2] == KindTag(t.kind)
    ensures t.value.Text? ==> r[2..] == t.value.s
  {
    var body :=
      match t.value
      case Text(s) => s
      case Num(x) =>
        if t.kind == INT && x == x.Floor as real then IntText(x.Floor) else floatText(x);
    KindTag(t.kind) + body
  }

  /** Displaying a lexed integer shows the digits it was read from, once
      leading zeros are dropped, and reading them back gives the same token. */
  lemma ShowInt(w: string, floatText: real -> string)
    requires IsNumeric(w)
    requires |w| > 1 ==> w[0] != '0'
    ensures Show(Determine(w).value, floatText) == "i:" + w
    ensures Determine(Show(Determine(w).value, floatText)[2..]) == Determine(w)
  {
    var n := DecimalValue(w);
    NatTextOfValue(w);
    assert (n as real).Floor == n;
  }

  /** Displaying a lexed symbol shows its source text after "s:", and that
      text classifies back to the same symbol. */
  lemma ShowSym(w: string, floatText: real -> string)
    requires '.' !in w && !IsNumeric(w)
    ensures Show(Determine(w).value, floatText) == "s:" + w
    ensures Determine(Show(Determine(w).value, floatText)[2..]) == Determine(w)
  {
  }
}

=== FILE: wrappers.dfy ===
/** The optional-value type used wherever the interpreter either produces a
    value or gives up (a run with no token, a parse that underflows its stack,
    a fold that raises). */
module Wrappers {

  datatype Option<+T> = None | Some(value: T)
}
